=== FILE: README.md ===
# Todo chat assistant — Dafny model

This project models the core of a small .NET web application. Users manage todo items by chatting with an Azure OpenAI deployment. The deployment works on a Data API builder database through MCP (Model Context Protocol) tools.

The model covers these parts:

- **The chat service** (`ChatService`). It holds the conversation history and runs the agentic loop of one exchange:
  1. The User turn is appended.
  2. At most 5 rounds follow. Each round calls the backend and normalises the answer into an Assistant turn.
  3. If that turn requests tools, each call is executed in order and answered with one Tool turn.
  4. The exchange ends on the first call-free answer. If every round asks for tools it ends with the fixed "too many tool calls" message, and on a backend failure with a fixed apology.
  It also covers initialisation, which seeds one System turn and fetches the tools, and `ClearHistory`.
- **The Azure OpenAI adapter** (`Adapter`):
  - mapping turns to chat-completions wire messages;
  - building the request options (token budget, tool conversion);
  - assembling the completion back into one Assistant message, including the reflective fallbacks for ids, names and arguments.
- **The MCP tool service** (`McpTools`):
  - one lazily created client;
  - a tool list fetched at most once and cached even when the fetch fails;
  - tool execution that rethrows failures.
- **The `/api/chat` endpoint** (`ChatEndpoints`): request validation, lazy initialisation and the exception-to-HTTP-status mapping.
- **Start-up configuration** (`Startup`, `ConnectionOptions`): the Data API default address, the MCP endpoint derivation, the chat connection-string composition and its validation by `AzureOpenAiConnectionOptions.FromConnectionString`.
- **The Data API layer**:
  - `ApiOptions`: base-address validation as an absolute URI, with a trailing slash ensured (section 4.3 of RFC 3986).
  - `TableFactory`: entity endpoints built by reference resolution (sections 5.2.2 to 5.2.4 of RFC 3986, modelled in `Uris`).
  - `ApiTable`: success and failure handling of the typed table.
  - `TodoRepository`: the OData `eq` filter and the fixed patch exclusions.

Anything the code reaches over the network or through an SDK is a parameter of the model:

- the chat-completions endpoint;
- the MCP server;
- the Data API REST repository;
- the JSON library;
- GUID generation;
- the SDK's function-tool factory;
- the connection-string grammar of `DbConnectionStringBuilder`.

A function-typed field or argument stands for each of these. The MCP server's answers are indexed by a request counter, so the same request may be answered differently each time. `Composition` connects the pieces. It runs the service over the adapter and states, for all inputs, the behaviour the library's unit tests check at one input.

## Model

| member | source | states |
|---|---|---|
| ChatService.NewSession | Web.Library.Tests/ChatServiceTests.cs:10-21 | A newly constructed service has an empty history and no options. |
| ChatService.Initialize | Web.Library/AI/ChatService.cs:30-77 | Initialisation appends exactly one System turn with the instruction prompt. The options advertise an existing cache unchanged, else exactly the tools the existing or newly connected client lists, or no tools when the connection or the listing fails. The tool service never throws. |
| ChatService.RunToolCalls | Web.Library/AI/ChatService.cs:123-148 | One round's tool loop yields exactly one Tool turn per function call, in call order, each keyed by its call's id and carrying a result. A failing call does not stop the loop. With a client in place, it advances the server-call numbering by the number of calls and keeps the tool cache. |
| ChatService.ToolTextOfFailure | Web.Library/AI/ChatService.cs:141-147 | A failed tool call is recorded as "Error: " followed by exactly the exception's message. |
| ChatService.FirstCallRunsFirst | Web.Library/AI/ChatService.cs:123-137 | With a connected client, the first call is the server's next request and its Tool turn records that request's outcome. The remaining calls run on the advanced numbering. |
| ChatService.ConnectedCallAt | Web.Library/AI/ChatService.cs:123-140 | With a connected client, the i-th Tool turn of a round records the outcome of the server's request number toolCalls + i on the i-th call's name and arguments, with missing arguments as an empty dictionary. |
| ChatService.ConnectedCallsInOrder | Web.Library/AI/ChatService.cs:123-140 | The calls of a round reach the server in emission order, numbered consecutively, and every Tool turn answers its own call. |
| ChatService.FailureContained | Web.Library/AI/ChatService.cs:129-148 | When a call fails, its Tool turn is "Error: " plus the message, and the later calls of the round run exactly as they would otherwise. |
| ChatService.Advance | Web.Library/AI/ChatService.cs:89-150 | An answer with calls, followed by one matching Tool turn per call, adds one complete round to the history built so far. |
| ChatService.EndAnswered | Web.Library/AI/ChatService.cs:108-119 | A call-free normalised answer ends the exchange: it is appended and its extracted text is the reply. |
| ChatService.EndFailed | Web.Library/AI/ChatService.cs:158-165 | A backend failure ends the exchange by appending and returning "Sorry, I encountered an error: " plus the message, after the turns already committed. |
| ChatService.EndDegraded | Web.Library/AI/ChatService.cs:152-156 | After 5 complete tool rounds, the fixed too-many-tool-calls text is appended as an Assistant turn and returned. |
| ChatService.Round | Web.Library/AI/ChatService.cs:89-150 | One loop iteration either ends the exchange (answered or failed) by appending one turn with the tool-service state unchanged, or appends the answer followed by exactly the Tool turns the call runner yields for its calls, passing on the runner's new state. The tool cache is never touched. |
| ChatService.ToolStep | Web.Library/AI/ChatService.cs:108-140 | A history of k complete rounds, extended by an answer and the Tool turns the runner yields for its calls, is a history of k+1 complete rounds ending in the runner's new state. |
| ChatService.Step | Web.Library/AI/ChatService.cs:89-150 | One iteration either finishes the exchange with its last backend call counted, or leaves one more complete round, each round's Tool turns being what the runner yields. |
| ChatService.GiveUp | Web.Library/AI/ChatService.cs:152-156 | After 5 complete rounds the exchange finishes with the too-many-tool-calls turn, keeping all 5 rounds. |
| ChatService.ChatOver | Web.Library/AI/ChatService.cs:79-166 | For any runner that keeps the cache and answers each call with its Tool turn, the exchange finishes as `Chat` states, with every complete round's Tool turns being what that runner yields. |
| ChatService.Rounds | Web.Library/AI/ChatService.cs:84-150 | The loop ends either with an ended exchange, which `Finished` describes, or after `MaxIterations` complete rounds, each recorded in the ledger. |
| ChatService.Chat | Web.Library/AI/ChatService.cs:79-166 | One exchange keeps the previous history and appends the User turn, then between 0 and 5 complete tool rounds, then one final turn whose text is the reply. Each round is the normalised backend answer to the history so far, followed by exactly the Tool turns `RunToolCalls` yields against the server from the state the previous round left. An answer without calls on the first round gives exactly User and Assistant turns. The options default to the empty options, and nothing is thrown. |
| ChatService.FirstSystem | Web.Library/AI/ChatService.cs:170 | The first System turn of a history, if any, with no System turn before it. |
| ChatService.ClearHistory | Web.Library/AI/ChatService.cs:168-177 | Clearing keeps exactly the first System turn of the history if there is one, and leaves an empty history otherwise. Options and tools are kept. |
| ChatService.ClearHistoryIdempotent | Web.Library/AI/ChatService.cs:168-177 | Clearing twice equals clearing once. |
| ChatService.ClearKeepsSystemPrompt | Web.Library/AI/ChatService.cs:168-177 | After initialisation, clearing restores exactly the System prompt turn, however the history grew. |
| Normalizer.LastAssistant | Web.Library/AI/ChatService.cs:193-209 | The last message with the Assistant role in the `Messages` list, if any. No Assistant message follows it. |
| Normalizer.ExtractAssistantMessage | Web.Library/AI/ChatService.cs:179-214 | The first non-null of `Message`, `ResponseMessage` and `OutputMessage` wins if it is a message. Otherwise the last Assistant entry of `Messages` wins. Otherwise the result is an Assistant turn with `Text` or "", and only this case is flagged as the fallback. |
| Normalizer.FirstText | Web.Library/AI/ChatService.cs:223-224 | The first text item's text, or none when the message has no text item. |
| Normalizer.ExtractAssistantText | Web.Library/AI/ChatService.cs:216-225 | The message text if it is not blank, else the first text item's text, else "". |
| Normalizer.ExtractedTextBlank | Web.Library/AI/ChatService.cs:216-225 | The extracted text is blank exactly when the message text is blank: the fallbacks never recover text. |
| Normalizer.ExtractTextOfTextMessage | Web.Library/AI/ChatService.cs:218-221 | A one-text message with non-blank text reads back as that text. |
| Normalizer.NormalizeResponseOf | Web.Library/AI/ChatService.cs:193-209 | A response wrapping one Assistant message normalises to that message, with no fallback. |
| Messages.FunctionCalls | Web.Library/AI/ChatService.cs:110 | The function calls of a message are exactly its call items: every call returned is among the contents, and every call item's call is returned. |
| Messages.FunctionCallsEmpty | Web.Library/AI/ChatService.cs:110-113 | A message requests no tools exactly when none of its content items is a function call. |
| Messages.FunctionCallsAppend | Web.Library/AI/ChatService.cs:110 | The calls of two joined content lists are the calls of the first followed by those of the second, so calls keep their order. |
| Messages.FunctionCallsOfCalls | Web.Library/AI/ChatService.cs:110 | Contents made only of call items give their calls one for one, in order. |
| Messages.GetProperty | Web.Library/AI/AzureOpenAiChatClientAdapter.cs:266-271 | A property value is found exactly when the object is a plain object that has the property, and the value found is that property's value. |
| Messages.Elements | Web.Library/AI/AzureOpenAiChatClientAdapter.cs:155 | Strings, dictionaries and lists are enumerable. A string enumerates one property-less element per character. |
| Adapter.ToWireCalls | Web.Library/AI/AzureOpenAiChatClientAdapter.cs:105-111 | One wire tool call per function call, in order, with the same id, name and arguments. |
| Adapter.FirstResult | Web.Library/AI/AzureOpenAiChatClientAdapter.cs:121 | The first function-result item, or none when the message holds no result item. |
| Adapter.ConvertMessage | Web.Library/AI/AzureOpenAiChatClientAdapter.cs:86-131 | System and User turns keep their text. An Assistant turn keeps its text, with one wire call per function call in order. A Tool turn becomes its first result (call id, result or ""), or "unknown" with its text. Every other role, and only those, fails with "Chat role '…' is not supported.". |
| Adapter.ConvertMessages | Web.Library/AI/AzureOpenAiChatClientAdapter.cs:33 | A history maps element by element exactly when it holds no unsupported role. Otherwise the mapping fails with the `NotSupportedException` of the first unsupported turn, as `Adapter.FirstUnsupported` locates it. |
| Adapter.FirstUnsupported | Web.Library/AI/AzureOpenAiChatClientAdapter.cs:33 | The position found is that of a turn with an unsupported role with none before it, and there is none exactly when no turn is unsupported. |
| Adapter.ArgKeyInjective | Web.Library/AI/AzureOpenAiChatClientAdapter.cs:342 | Different positions have different "arg{index}" keys. |
| Adapter.ListArguments | Web.Library/AI/AzureOpenAiChatClientAdapter.cs:336-347 | The dictionary maps "arg{i}" to the i-th enumerated item, and has no other key. |
| Adapter.ListArgumentsSize | Web.Library/AI/AzureOpenAiChatClientAdapter.cs:338-344 | No item overwrites another, so the dictionary has exactly one entry per item. |
| Adapter.StringArguments | Web.Library/AI/AzureOpenAiChatClientAdapter.cs:306-322 | A blank string gives no arguments. A JSON object gives its entries, JSON null gives none, and an unparseable string gives {"value": s}. |
| Adapter.StrictArguments | Web.Library/AI/AzureOpenAiChatClientAdapter.cs:324-334 | A JSON document fails exactly when the parser rejects it, with the parser's message. Otherwise it gives the parsed entries, or none for JSON null. |
| Adapter.ConvertToDictionary | Web.Library/AI/AzureOpenAiChatClientAdapter.cs:284-351 | null gives {}. A dictionary is kept. Strings and binary data go through the lenient string parse. A list gives keys arg0..arg{n-1} with exactly n entries. A JSON document parses its raw text strictly, and any other object parses its serialisation strictly. Only those strict parses throw. |
| Adapter.ArgumentsFailOnlyOnMalformedJson | Web.Library/AI/AzureOpenAiChatClientAdapter.cs:284-351 | Coercion fails exactly when a JSON document's raw text or another object's serialisation does not parse, with the parser's message. The loose forms never fail, and a parsed text gives its entries. |
| Adapter.ItemTexts | Web.Library/AI/AzureOpenAiChatClientAdapter.cs:155-165 | A null item throws `NullReferenceException`. Otherwise the result is, in item order, one text per item whose `Text` is a non-blank string, and nothing for any other item. |
| Adapter.ItemTextsFromItems | Web.Library/AI/AzureOpenAiChatClientAdapter.cs:155-165 | Every collected text is the `Text` of some item, and every item with a non-blank `Text` contributes it. |
| Adapter.ItemTextsAppend | Web.Library/AI/AzureOpenAiChatClientAdapter.cs:155-165 | The texts of two joined item runs are the first run's texts followed by the second's, and the collection succeeds exactly when both parts do. |
| Adapter.ContentTextsAsWritten | Web.Library/AI/AzureOpenAiChatClientAdapter.cs:152-169 | The content texts as the code collects them: a list content yields its items' non-blank texts. |
| Adapter.OpaqueItemsHaveNoText | Web.Library/AI/AzureOpenAiChatClientAdapter.cs:157-163 | Items without a `Text` property yield no text. |
| Adapter.StringContentDroppedAsWritten | Web.Library/AI/AzureOpenAiChatClientAdapter.cs:155-169 | A non-blank string content yields no text as written, but one text item once the string case is checked first. |
| Adapter.ContentTexts | Web.Library/AI/AzureOpenAiChatClientAdapter.cs:166-169 | Corrected: a non-blank string content becomes one text item, and every other content is handled as written. |
| Adapter.ToolCallOf | Web.Library/AI/AzureOpenAiChatClientAdapter.cs:181-194 | The id is `Id`, else `CallId`, else a fresh GUID. The name is `FunctionName`, else `Name`, else "". The arguments are the coerced `FunctionArguments`, else `Arguments`. The call fails exactly when that coercion does. |
| Adapter.ToolCallContents | Web.Library/AI/AzureOpenAiChatClientAdapter.cs:171-196 | Every produced item is a function call. On success, every non-null entry converts and its call is among the items. Null entries are skipped, and there is one call per entry when none is null. |
| Adapter.ToolCallContentsInOrder | Web.Library/AI/AzureOpenAiChatClientAdapter.cs:172-195 | With no null entry, the i-th produced item is the call of the i-th entry under the i-th fresh GUID. |
| Adapter.ToolCallContentsAppend | Web.Library/AI/AzureOpenAiChatClientAdapter.cs:172-195 | The calls of two joined entry runs are the first run's calls followed by the second's, with GUIDs numbered on. The conversion succeeds exactly when both parts do. |
| Adapter.ToolCallContentsTraverses | Web.Library/AI/AzureOpenAiChatClientAdapter.cs:172-195 | The conversion is the in-order walk of the per-entry conversion over the entries, ending at the first failure. |
| Adapter.ToolCallErrorIsFirst | Web.Library/AI/AzureOpenAiChatClientAdapter.cs:171-196 | Conversion fails exactly when some non-null entry is rejected, and then with the error of the first rejected entry. |
| Adapter.LocateMessage | Web.Library/AI/AzureOpenAiChatClientAdapter.cs:136-144 | The message is `Output`, else `Message`, else `Response`, else the completion itself. A non-string collection stands for its first element: none for an empty one, and a property-less key/value pair for a non-empty dictionary. |
| Adapter.ConvertToChatMessage | Web.Library/AI/AzureOpenAiChatClientAdapter.cs:133-204 | A missing message gives one empty text. Otherwise the contents are the message's content texts followed by its converted tool calls, or one empty text when there are none. A content failure is returned before a tool-call failure. The result is an Assistant message whose items are texts or function calls. |
| Adapter.ConvertedCallsInOrder | Web.Library/AI/AzureOpenAiChatClientAdapter.cs:171-196 | The function calls of a converted message are its converted tool calls, one for one and in order. |
| Adapter.SchemaText | Web.Library/AI/AzureOpenAiChatClientAdapter.cs:273-282 | A missing schema gives none. Binary data, non-blank strings and JSON keep their text. Dictionaries, lists, other objects and blank strings give their serialisation. |
| Adapter.TryCreateChatTool | Web.Library/AI/AzureOpenAiChatClientAdapter.cs:238-264 | A tool is returned exactly when the SDK factory accepts the candidate. That candidate has the `ToolName`, the `Description`, and the schema's `SchemaText`, or "{}" when there is no schema. |
| Adapter.ToolName | Web.Library/AI/AzureOpenAiChatClientAdapter.cs:241-245 | The advertised name is a non-blank `Name` when there is one, else the type name. |
| Adapter.FirstProperty | Web.Library/AI/AzureOpenAiChatClientAdapter.cs:248-251 | The value is that of the first listed property the object has, and none exactly when it has none of them. |
| Adapter.ConvertedToolsNamed | Web.Library/AI/AzureOpenAiChatClientAdapter.cs:238-264 | Tools with non-blank type names are never advertised under a blank name, and each advertised name is the `ToolName` of one of the tools. |
| Adapter.FilterMapSources | Web.Library/AI/AzureOpenAiChatClientAdapter.cs:48-54 | Every kept result comes from some input. |
| Adapter.FilterMapKeeps | Web.Library/AI/AzureOpenAiChatClientAdapter.cs:48-54 | Every present result is kept. |
| Adapter.FilterMapAppend | Web.Library/AI/AzureOpenAiChatClientAdapter.cs:48-54 | Appending an input appends its result, if any. |
| Adapter.FilterMapConcat | Web.Library/AI/AzureOpenAiChatClientAdapter.cs:48-54 | The results over two joined inputs are the results over the first followed by those over the second. |
| Adapter.TraverseInOrder | Web.Library/AI/AzureOpenAiChatClientAdapter.cs:172-195 | With no absent entry, a successful walk yields at each position the result for the entry there under its own number. |
| Adapter.TraverseAppend | Web.Library/AI/AzureOpenAiChatClientAdapter.cs:172-195 | A walk over two joined runs succeeds exactly when both walks do, the second numbered on, and yields the first's results followed by the second's. |
| Adapter.ConvertTools | Web.Library/AI/AzureOpenAiChatClientAdapter.cs:46-60 | Tools that fail conversion are skipped. Every converted tool comes from an option, every convertible option is kept, and when all convert they are kept in order. |
| Adapter.ConvertToolsAppend | Web.Library/AI/AzureOpenAiChatClientAdapter.cs:48-54 | The converted tools keep the order of the options. |
| Adapter.BuildOptions | Web.Library/AI/AzureOpenAiChatClientAdapter.cs:34-60 | The token budget is the requested one or 2048, set only when positive. The new max-completion-tokens property is enabled. The tools are the converted options. |
| Adapter.GetResponse | Web.Library/AI/AzureOpenAiChatClientAdapter.cs:26-73 | A history with an unsupported role fails with `NotSupportedException`. Otherwise the endpoint receives the mapped history and the built options. Its failure is returned unchanged, and a successful completion is answered with the converted Assistant message, or that message's conversion error. |
| McpTools.GetOrCreateClient | Web.Library/Mcp/McpToolService.cs:25-49 | A cached client is returned unchanged. Otherwise the connection attempt's outcome is returned, and a client exists afterwards exactly when it succeeded. |
| McpTools.GetTools | Web.Library/Mcp/McpToolService.cs:51-83 | The returned list is the one cached. A cached list is returned without contacting the server. Otherwise the existing client, or a newly connected one that is kept, is asked, and its listing is returned. A listing or connection failure gives and caches [], and a failed connection leaves no client. |
| McpTools.ExecuteTool | Web.Library/Mcp/McpToolService.cs:85-117 | With a client, or after a successful connection that is kept as the client, the arguments go to the server unchanged and its outcome (result or failure) is returned once. A connection failure is rethrown. The cache is untouched. |
| McpTools.CachedToolsReused | Web.Library/Mcp/McpToolService.cs:55-59 | After one fetch, later calls return the same list and change nothing, whatever the server would answer. |
| McpTools.FailedFetchNotRetried | Web.Library/Mcp/McpToolService.cs:76-82 | A failed first fetch returns [] and every later call returns []. |
| McpTools.ToolsFetchedAtMostOnce | Web.Library/Mcp/McpToolService.cs:55-82 | In any run of fetches, every answer equals the first, and the state after the first is final. |
| McpTools.ClientCreatedOnce | Web.Library/Mcp/McpToolService.cs:29-33 | Once a client exists, no operation replaces it or attempts another connection. |
| ChatEndpoints.Prepared | Web.Library/Endpoints/ChatEndpoints.cs:24-27 | The service is initialised only when its history is empty: it then holds exactly the System turn, and its options advertise the cached tools or the tools the tool service lists, as `ChatService.Initialize` states. A non-empty service is left as it is. |
| ChatEndpoints.RejectedStatus | Web.Library/Endpoints/ChatEndpoints.cs:35 | A request failure keeps its status when it is at least 400, and is 502 otherwise. |
| ChatEndpoints.FailureResult | Web.Library/Endpoints/ChatEndpoints.cs:32-76 | A request failure, a timeout (504), a configuration error (500) and any other exception (500, naming its type) each give their fixed message and details. Every status is at least 400. |
| ChatEndpoints.HandleChat | Web.Library/Endpoints/ChatEndpoints.cs:13-31 | A missing request or blank message gives 400 "Message is required" and leaves the service unchanged. Otherwise the service is initialised if empty and one exchange runs on it against the tool service, finishing as `ChatService.Chat` states: the earlier history kept, each complete round's Tool turns what `RunToolCalls` yields, the options defaulted and the tool cache kept. The answer is 200 with the exchange's reply. |
| ChatEndpoints.Exchange | Web.Library/Endpoints/ChatEndpoints.cs:29-30 | The exchange a valid request runs finishes as `ChatService.Chat` states against the tool service, and keeps the prepared history as a prefix with at least the User and final turns added. |
| ConnectionOptions.Lookup | Web.Library/AI/AzureOpenAiConnectionOptions.cs:30 | A key is found, case-insensitively, exactly when it holds a non-null value, and the value found is the one stored under the lower-cased key. |
| ConnectionOptions.RequiredValue | Web.Library/AI/AzureOpenAiConnectionOptions.cs:28-43 | A present, non-blank value is returned as it is. A missing one gives "Missing connection string value for '<key>'." and a blank one "… cannot be empty.". |
| ConnectionOptions.FromConnectionString | Web.Library/AI/AzureOpenAiConnectionOptions.cs:8-26 | A null or blank string is an argument error, and a malformed one the parser's error. On success the options carry the three required values verbatim (each non-blank) and the optional API version as found. |
| ConnectionOptions.FirstFailingKeyReported | Web.Library/AI/AzureOpenAiConnectionOptions.cs:20-22 | A parsed string is accepted exactly when all three required keys hold values. Otherwise the error is the first failing key's, in the order Endpoint, Key, Deployment. |
| Startup.DataApiEndpoint | Web/Program.cs:11-13 | Configuration wins, then the environment variable, then "http://localhost:5000". |
| Startup.McpEndpoint | Web/Program.cs:15-17 | An endpoint already ending in "/mcp" (in any case) is kept. Otherwise the trailing slashes are trimmed and "/mcp" appended. The result always ends in "/mcp". |
| Startup.McpEndpointIdempotent | Web/Program.cs:15-17 | Deriving the MCP endpoint twice equals deriving it once. |
| Startup.ComposeChatConnection | Web/Program.cs:25-36 | The connection string is composed exactly when endpoint, deployment and key are all non-blank. Otherwise it is "" and the missing flag is raised. |
| Startup.IncompleteSettingsRejected | Web/Program.cs:32-36 | The empty string composed for incomplete settings is refused with an argument error. |
| Startup.ComposedSettingsRoundTrip | Web/Program.cs:25-30 | A composed string read back as its four pairs gives options carrying exactly the configured values. |
| Text.NullOrWhiteSpaceError | Web.Library/Data/DataApiOptions.cs:7 | Null gives an `ArgumentNullException` and a blank value an `ArgumentException`, both argument exceptions. Nothing is thrown exactly when the value is non-blank. |
| Text.TrimEnd | Web/Program.cs:17 | The result is a prefix that does not end in the trimmed character, and only that character was removed. |
| Text.ToLower | Web.Library/Repositories/TodoRepository.cs:41 | Every character is mapped to lower case and the length is kept. |
| Text.ParseNatToString | Web.Library/AI/AzureOpenAiChatClientAdapter.cs:342 | The decimal form of an index reads back as the index. |
| TodoRepository.Filter | Web.Library/Repositories/TodoRepository.cs:39-42 | The filter is "IsCompleted eq true" or "IsCompleted eq false". |
| TodoRepository.FilterRoundTrip | Web.Library/Repositories/TodoRepository.cs:41 | The filter states exactly the requested completion. |
| TodoRepository.PatchedProperties | Web.Library/Repositories/TodoRepository.cs:9-16 | A patch writes exactly the todo properties that are not excluded. |
| TodoRepository.Get | Web.Library/Repositories/TodoRepository.cs:37-45 | One query with the completion filter is sent. The results are returned exactly when the table's response succeeded with a result, and otherwise the table's "Failed to retrieve Todo" failure is passed through. |
| TodoRepository.Add | Web.Library/Repositories/TodoRepository.cs:25-29 | A null todo is an `ArgumentNullException` before any request. Otherwise the very same todo is posted, and the call succeeds exactly when the post does, else with the table's "Failed to create Todo" failure. |
| TodoRepository.Delete | Web.Library/Repositories/TodoRepository.cs:31-35 | A null todo is an `ArgumentNullException` before any request. Otherwise the very same todo is deleted, and the call succeeds exactly when the delete does, else with the table's "Failed to delete Todo" failure. |
| TodoRepository.Update | Web.Library/Repositories/TodoRepository.cs:47-51 | A null todo is refused. Otherwise the very same todo is patched with the fixed options, and the call succeeds exactly when the patch does, else with the table's "Failed to update Todo" failure. |
| TodoRepository.UpdatePatchesOnlyTitleAndCompletion | Web.Library/Repositories/TodoRepository.cs:9-16 | An update never writes Id or CategoryId, and does write Title and IsCompleted. |
| ApiTable.ErrorText | Web.Library/Data/DataApiTable.cs:95 | A null or blank message becomes "Unknown error". Any other message is kept, so the reason is never blank. |
| ApiTable.Failure | Web.Library/Data/DataApiTable.cs:93-98 | The failure is an `InvalidOperationException` reading "Failed to {operation} {entity}: {error}". |
| ApiTable.Get | Web.Library/Data/DataApiTable.cs:22-39 | Null options throw before any request. The results are returned exactly when the response succeeded with a result; otherwise it is a "retrieve" failure, also when the response succeeded without a result. |
| ApiTable.Completion | Web.Library/Data/DataApiTable.cs:49-55 | A command returns normally exactly when the response succeeded. |
| ApiTable.Add | Web.Library/Data/DataApiTable.cs:41-56 | A null entity throws before any request. Otherwise the entity is posted, and the call succeeds exactly when the response does, else a "create" failure. |
| ApiTable.Update | Web.Library/Data/DataApiTable.cs:58-74 | The entity is checked before the options. The call succeeds exactly when the patch does, else an "update" failure. |
| ApiTable.Delete | Web.Library/Data/DataApiTable.cs:76-91 | A null entity throws before any request. The call succeeds exactly when the delete does, else a "delete" failure. |
| ApiTable.FailureReason | Web.Library/Data/DataApiTable.cs:93-98 | A failure message starts with "Failed to {operation} {entity}: " and ends in a non-blank reason, which is "Unknown error" for a null or blank message. |
| ApiTable.NullArgumentsSendNothing | Web.Library/Data/DataApiTable.cs:22-78 | Every operation handed a null argument throws without sending a request. |
| ApiOptions.AppendTrailingSlash | Web.Library/Data/DataApiOptions.cs:19 | '/' is added only when missing, so the result always ends in '/'. |
| ApiOptions.AppendTrailingSlashIdempotent | Web.Library/Data/DataApiOptions.cs:19 | Appending the trailing slash twice equals appending it once. |
| ApiOptions.NewDataApiOptions | Web.Library/Data/DataApiOptions.cs:5-15 | A null or blank address is an argument error. Otherwise the address is accepted exactly when, once it ends in '/', it is an absolute URI; if not, "must be an absolute URI" is the error. The stored URI recomposes to the slashed address. |
| ApiOptions.TrailingSlashOptional | Web.Library/Data/DataApiOptions.cs:9 | An address with or without its trailing slash gives the same options. |
| ApiOptions.SchemeAddressAccepted | Web.Library/Data/DataApiOptions.cs:9-14 | Any address that starts with a well-formed scheme and ':' is accepted and keeps that scheme. |
| Uris.SplitRecompose | Web.Library/Data/DataApiOptions.cs:9 | Recomposing the parsed components (Appendix B and section 5.3 of RFC 3986) gives the string back. |
| Uris.TryCreateAbsolute | Web.Library/Data/DataApiOptions.cs:9 | A string is an absolute URI exactly when it starts with a well-formed scheme. Its components recompose to it. |
| Uris.SchemeMakesAbsolute | Web.Library/Data/DataApiOptions.cs:9 | A well-formed scheme followed by ':' makes any text an absolute URI with that scheme. |
| Uris.Merge | Web.Library/Data/DataApiTableFactory.cs:23 | Merging onto a base path ending in '/' appends the reference path (section 5.2.3 of RFC 3986). |
| Uris.RemoveDotsIdentity | Web.Library/Data/DataApiTableFactory.cs:23 | A path without "." or ".." segments is unchanged by dot-segment removal (section 5.2.4 of RFC 3986). |
| Uris.Resolve | Web.Library/Data/DataApiTableFactory.cs:23 | A reference without a scheme keeps the base's scheme, one without an authority also keeps the base's authority, and the fragment is always the reference's (section 5.2.2 of RFC 3986). |
| TableFactory.Create | Web.Library/Data/DataApiTableFactory.cs:19-27 | A null or blank entity name is an argument exception, and only then. Otherwise the endpoint is "api/{name}" resolved against the base address. |
| TableFactory.CreateDefault | Web.Library/Data/DataApiTableFactory.cs:17 | `Create<T>()` names the entity after the type: a table is created exactly when the type name is non-blank, with the endpoint "api/{typeName}" resolved against the base address, and a blank name is the whitespace argument error. |
| TableFactory.EntityReferenceIsRelativePath | Web.Library/Data/DataApiTableFactory.cs:23 | "api/{name}" has no scheme or authority and its path is relative. Without '?' or '#' in the name it is all path. |
| TableFactory.EntityUriKeepsOrigin | Web.Library/Data/DataApiTableFactory.cs:23 | For every non-blank name, the endpoint keeps the base address's scheme and authority. |
| TableFactory.EntityUriComponents | Web.Library/Data/DataApiTableFactory.cs:23 | With a '/'-terminated, dot-free base path and a plain segment as name, the endpoint's path is the base path followed by "api/" and the name, with no query or fragment. |
| TableFactory.EntityUriAppendsPath | Web.Library/Data/DataApiTableFactory.cs:23 | Under the same conditions, the endpoint reads as the base address followed by "api/{name}". |
| Composition.AdapterAnswersNeedNoFallback | Web.Library/AI/AzureOpenAiChatClientAdapter.cs:66-72 | Every answer of the adapter normalises to its Assistant message, never to the fallback. |
| Composition.ServiceTurnsConvert | Web.Library/AI/AzureOpenAiChatClientAdapter.cs:86-128 | The System prompt, User text, Assistant text and Tool result turns the service writes reach the wire unchanged. |
| Composition.UnsupportedRoleApologises | Web.Library/AI/AzureOpenAiChatClientAdapter.cs:130 | Over the adapter, a history holding an unknown role is answered with the apology for the `NotSupportedException` that names such a role, and two turns are added. |
| Composition.CustomAborts | Web.Library/AI/AzureOpenAiChatClientAdapter.cs:33 | The mapping fails with the error of the first unsupported turn in the history. |
| Composition.FailingStartApologises | Web.Library/AI/ChatService.cs:158-165 | A backend failing on the opening history ends the exchange after one call, with the apology right after the User turn. |
| Composition.InitializationAddsSystemMessage | Web.Library.Tests/ChatServiceTests.cs:23-34 | A new service is empty. Initialising it with an unreachable tool server adds exactly the System turn and advertises no tools. |
| Composition.EchoAnswersAtOnce | Web.Library.Tests/ChatServiceTests.cs:72-80 | The echo client answers any opening history at once with "Echo: " and the user's message. |
| Composition.EchoOn | Web.Library.Tests/ChatServiceTests.cs:44-49 | On any session, one echo exchange answers "Echo: " and the message, and appends exactly the User and Assistant turns. |
| Composition.EchoExchange | Web.Library.Tests/ChatServiceTests.cs:36-50 | For every message, initialise then chat yields "Echo: " and the message, with exactly the System, User and Assistant turns. |
| Composition.LocalAddressAccepted | Web.Library.Tests/DataApiTableFactoryTests.cs:12 | "http://localhost:5000" is accepted as a base address. |
| Composition.LocalhostFactory | Web.Library.Tests/DataApiTableFactoryTests.cs:9-27 | With that address the default "Todo" table is created, and an empty entity name is an argument exception. |

## Left out

- Network and SDK calls: the chat-completions call, MCP SSE client creation, `ListToolsAsync`, `CallToolAsync` and the Data API REST calls are oracle parameters. Their own behaviour is not modelled.
- JSON and binary serialisation: `JsonSerializer`, `BinaryData.FromObjectAsJson` and `JsonDocument` parsing are oracles. Tool-call arguments travel as dictionaries, not as their JSON text.
- `Guid.NewGuid` is an oracle indexed by the position of the tool call.
- Reflection: every `GetType().GetProperty(…)` probe is a lookup in a datatype with optional fields. `LogCompletion` only logs and is left out.
- Logging, telemetry (`Activity`, `ILogger`) and the `Telemetry` classes have no effect on results and are left out.
- Async execution, cancellation tokens and concurrency are left out. The service is an unsynchronised list and nothing in the code promises thread safety.
- Adapter plumbing is left out: `GetStreamingResponseAsync` (throws `NotImplementedException`), `GetService`, `Dispose` and `Metadata`.
- Reading the request body (`ReadFromJsonAsync`) is outside the handler's `try`. The request is given as an optional value with an optional message.
- ChatEndpoints.FailureResult: the catch arms are modelled on their own. Neither initialisation nor an exchange throws in this model, so the handler never reaches them.
- ChatService.Initialize: the catch arm of `InitializeAsync` (ChatService.cs:71-76) is not modelled. The tool service swallows every failure itself, so it cannot be reached.
- The warning logged for incomplete chat settings (Program.cs:42-45), DI registration (`AiServiceExtensions`), `AppHost`, the Razor page and `CategoryRepository` are outside the modelled core.
- Uris.TryCreateAbsolute: `System.Uri` also validates hosts, ports and percent-encoding, and canonicalises case and default ports. The model checks only the scheme (section 3.1 of RFC 3986) and keeps the text as it is. On Unix, `Uri.TryCreate` with `UriKind.Absolute` also accepts an implicit file path such as "/api/", which the model rejects. `System.Uri` also removes dot segments from a stored http path, which the model keeps.
- `DbConnectionStringBuilder` parsing (quoting, escaping, duplicate keys) is an oracle that yields a case-folded key/value map.
- Text.ToLower: `ToLowerInvariant` is modelled for ASCII letters only, which covers every string it is applied to ("True", "False" and the fixed key names). Case-insensitive comparison is ASCII-only in the same way.
- Custom roles: a custom role name that is blank or a standard name is excluded only up to ASCII case, because `Text.ToLower` folds ASCII letters only.
- Adapter.ContentTexts: the rest of the model uses the corrected content handling (see Findings).
- Adapter.ConvertToDictionary: `IReadOnlyDictionary` and `IDictionary` are one dictionary kind. A copy and the original hold the same entries.
- Adapter.ToolCallContents: its own contract states membership of each entry's call. The order is stated by `Adapter.ToolCallContentsInOrder` when no entry is null, and by `Adapter.ToolCallContentsAppend` for joined runs. The per-field fallbacks are left to `Adapter.ToolCallOf`.
- Adapter.ConvertToChatMessage: it uses the corrected content handling (`Adapter.ContentTexts`, see Findings). A non-blank string content therefore yields its text, where the code as written drops it.
- ChatService.RunToolCalls: the contents of each Tool turn are stated for a connected client only (`ChatService.ConnectedCallAt`). Without one, the turns are still one per call and keyed by call id, and a connection failure is recorded through `ChatService.FailureContained`.
- The server-call numbering in `McpTools.McpState` is an artefact of the oracle; the source keeps no such counter.

## Findings

| source | as written | input that shows it | evidently intended | confidence | as-written member | corrected member |
|---|---|---|---|---|---|---|
| Web.Library/AI/AzureOpenAiChatClientAdapter.cs:155-169 | The `is IEnumerable` test comes before the `is string` test. A string is enumerable, so the first branch takes it, enumerates its characters, finds no `Text` property on any of them and adds nothing. The string branch can never run. | a completion message whose `Content` is the string "Hello" | a non-blank string content becomes one text item | high that the string branch is dead; not executed | Adapter.ContentTextsAsWritten, Adapter.StringContentDroppedAsWritten | Adapter.ContentTexts |

=== FILE: adapter.dfy ===
/** `AzureOpenAiChatClientAdapter`: maps the conversation to the wire messages
    of the chat-completions API, builds the request options, and assembles
    the completion back into one assistant message.  The completion call,
    JSON parsing and serialisation, GUID generation and the SDK's tool
    factory are oracles. */
module Adapter {
  import opened Common
  import opened Messages
  import Text

  /** One tool call of an assistant wire message; the arguments are sent as
      their JSON serialisation. */
  datatype WireToolCall = WireToolCall(id: string, functionName: string, arguments: Option<Arguments>)

  /** The chat-completions message kinds. */
  datatype WireMessage =
    | WSystem(text: string)
    | WUser(text: string)
    | WAssistant(text: string, toolCalls: seq<WireToolCall>)
    | WTool(toolCallId: string, content: string)

  const UnknownCallId: string := "unknown"

  function RoleName(r: Role): string {
    match r
    case System => "system"
    case User => "user"
    case Assistant => "assistant"
    case Tool => "tool"
    case Custom(n) => n
  }

  function ToWireCalls(calls: seq<FunctionCall>): (w: seq<WireToolCall>)
    ensures |w| == |calls|
    ensures forall i :: 0 <= i < |calls| ==>
      w[i] == WireToolCall(calls[i].callId, calls[i].name, calls[i].arguments)
  {
    seq(|calls|, i requires 0 <= i < |calls| => WireToolCall(calls[i].callId, calls[i].name, calls[i].arguments))
  }

  /** The first function-result item, if any. */
  function FirstResult(contents: seq<Content>): (r: Option<Content>)
    ensures r.Some? ==> r.value.FunctionResultContent? && r.value in contents
    ensures r.None? <==> forall i :: 0 <= i < |contents| ==> !contents[i].FunctionResultContent?
    ensures |contents| > 0 && contents[0].FunctionResultContent? ==> r == Some(contents[0])
  {
    if |contents| == 0 then None
    else if contents[0].FunctionResultContent? then Some(contents[0])
    else
      assert forall i :: 1 <= i < |contents| ==> contents[i] == contents[1..][i - 1];
      FirstResult(contents[1..])
  }

  /** `ConvertMessage`: System and User turns keep their text; an Assistant
      turn keeps its text and one wire call per function call, in order; a
      Tool turn becomes the first function result (or the text under the
      call id "unknown"); any other role is not supported. */
  function ConvertMessage(m: ChatMessage): (r: Result<WireMessage, Exception>)
    ensures m.role == System ==> r == Ok(WSystem(MessageText(m)))
    ensures m.role == User ==> r == Ok(WUser(MessageText(m)))
    ensures m.role == Assistant ==> r.Ok? && r.value.WAssistant? && r.value.text == MessageText(m)
    ensures m.role == Assistant ==> var calls := FunctionCalls(m.contents);
      && |r.value.toolCalls| == |calls|
      && forall i :: 0 <= i < |calls| ==> r.value.toolCalls[i] == WireToolCall(calls[i].callId, calls[i].name, calls[i].arguments)
    ensures m.role == Tool ==> r.Ok? && r.value.WTool?
    ensures m.role == Tool && FirstResult(m.contents).None? ==> r == Ok(WTool(UnknownCallId, MessageText(m)))
    ensures m.role == Tool && FirstResult(m.contents).Some? ==>
      r == Ok(WTool(FirstResult(m.contents).value.callId, FirstResult(m.contents).value.result.GetOr("")))
    ensures m.role.Custom? <==> r.Err?
    ensures r.Err? ==> r.error == NotSupported("Chat role '" + m.role.name + "' is not supported.")
  {
    match m.role
    case System => Ok(WSystem(MessageText(m)))
    case User => Ok(WUser(MessageText(m)))
    case Assistant =>
      var calls := FunctionCalls(m.contents);
      if |calls| > 0 then Ok(WAssistant(MessageText(m), ToWireCalls(calls)))
      else Ok(WAssistant(MessageText(m), []))
    case Tool =>
      (match FirstResult(m.contents)
       case Some(res) => Ok(WTool(res.callId, res.result.GetOr("")))
       case None => Ok(WTool(UnknownCallId, MessageText(m))))
    case Custom(n) => Err(NotSupported("Chat role '" + RoleName(m.role) + "' is not supported."))
  }

  /** The position of the first turn with an unsupported role, if any. */
  function FirstUnsupported(history: seq<ChatMessage>): (r: Option<nat>)
    ensures r.None? <==> forall i :: 0 <= i < |history| ==> !history[i].role.Custom?
    ensures r.Some? ==>
      && r.value < |history| && history[r.value].role.Custom?
      && forall i :: 0 <= i < r.value ==> !history[i].role.Custom?
  {
    if |history| == 0 then None
    else if history[0].role.Custom? then Some(0)
    else
      assert forall i :: 1 <= i < |history| ==> history[i] == history[1..][i - 1];
      match FirstUnsupported(history[1..])
      case None => None
      case Some(j) => Some(j + 1)
  }

  /** `chatMessages.Select(ConvertMessage).ToList()`: the first unsupported
      turn aborts the whole mapping. */
  function ConvertMessages(history: seq<ChatMessage>): (r: Result<seq<WireMessage>, Exception>)
    ensures r.Ok? <==> FirstUnsupported(history).None?
    ensures r.Ok? ==> |r.value| == |history| && forall i :: 0 <= i < |history| ==> Ok(r.value[i]) == ConvertMessage(history[i])
    ensures r.Err? ==> r.error.NotSupported?
    ensures r.Err? ==>
      && FirstUnsupported(history).Some?
      && r.error == ConvertMessage(history[FirstUnsupported(history).value]).error
  {
    if |history| == 0 then Ok([])
    else
      match ConvertMessage(history[0])
      case Err(e) => Err(e)
      case Ok(w) =>
        assert forall i :: 1 <= i < |history| ==> history[i] == history[1..][i - 1];
        match ConvertMessages(history[1..])
        case Err(e) =>
          assert history[FirstUnsupported(history[1..]).value + 1] == history[1..][FirstUnsupported(history[1..]).value];
          Err(e)
        case Ok(ws) => Ok([w] + ws)
  }

  /** What `JsonSerializer.Deserialize<Dictionary<string, object?>>` makes of
      a text: a dictionary, `null` (for the JSON literal null), or a
      `JsonException`. */
  datatype JsonParse = Parsed(dict: Arguments) | ParsedNull | Malformed(message: string)

  /** The oracles standing for the JSON library and `Guid.NewGuid`. */
  datatype Environment = Environment(
    parse: string -> JsonParse,
    serialize: Obj -> string,
    newGuid: nat -> string)

  /** The dictionary key of the `index`-th enumerated argument. */
  function ArgKey(index: nat): string {
    "arg" + Text.NatToString(index)
  }

  lemma ArgKeyInjective(i: nat, j: nat)
    requires ArgKey(i) == ArgKey(j)
    ensures i == j
  {
    assert Text.NatToString(i) == ArgKey(i)[3..];
    assert Text.NatToString(j) == ArgKey(j)[3..];
    Text.NatToStringInjective(i, j);
  }

  /** Earlier indices have other keys. */
  lemma ArgKeysDistinct(n: nat)
    ensures forall i :: 0 <= i < n ==> ArgKey(i) != ArgKey(n)
  {
    forall i | 0 <= i < n ensures ArgKey(i) != ArgKey(n) {
      if ArgKey(i) == ArgKey(n) { ArgKeyInjective(i, n); }
    }
  }

  /** The items keyed by `key` of their position. */
  function IndexedMap(items: seq<Option<Obj>>, key: nat -> string): (r: Arguments)
    requires forall i, j :: 0 <= i < j < |items| ==> key(i) != key(j)
    ensures forall i :: 0 <= i < |items| ==> key(i) in r && r[key(i)] == items[i]
    ensures forall k :: k in r ==> exists i :: 0 <= i < |items| && k == key(i)
    decreases |items|
  {
    if |items| == 0 then map[]
    else
      var n := |items| - 1;
      assert forall i :: 0 <= i < n ==> items[..n][i] == items[i];
      IndexedMap(items[..n], key)[key(n) := items[n]]
  }

  /** `result[$"arg{index}"] = item` over the enumerated items: one entry per
      item, keyed by its position. */
  function ListArguments(items: seq<Option<Obj>>): (r: Arguments)
    ensures forall i :: 0 <= i < |items| ==> ArgKey(i) in r && r[ArgKey(i)] == items[i]
    ensures forall k :: k in r ==> exists i :: 0 <= i < |items| && k == ArgKey(i)
  {
    forall j | 0 <= j < |items| ensures forall i :: 0 <= i < j ==> ArgKey(i) != ArgKey(j) {
      ArgKeysDistinct(j);
    }
    IndexedMap(items, ArgKey)
  }

  /** No two items share a key, so none is overwritten. */
  lemma {:induction false} ListArgumentsSize(items: seq<Option<Obj>>)
    ensures |ListArguments(items)| == |items|
    decreases |items|
  {
    if |items| > 0 {
      var n := |items| - 1;
      ListArgumentsSize(items[..n]);
      var prev := ListArguments(items[..n]);
      if ArgKey(n) in prev {
        var i :| 0 <= i < n && ArgKey(n) == ArgKey(i);
        ArgKeysDistinct(n);
      }
    }
  }

  /** A string argument: blank gives no arguments, a JSON object its
      entries, JSON null none, and anything unparseable `{"value": s}`. */
  function StringArguments(s: string, env: Environment): (r: Arguments)
    ensures Text.IsBlank(s) ==> r == map[]
    ensures !Text.IsBlank(s) && env.parse(s).Malformed? ==> r == map["value" := Some(OString(s))]
    ensures !Text.IsBlank(s) && env.parse(s).Parsed? ==> r == env.parse(s).dict
    ensures !Text.IsBlank(s) && env.parse(s).ParsedNull? ==> r == map[]
  {
    if Text.IsBlank(s) then map[]
    else
      match env.parse(s)
      case Parsed(d) => d
      case ParsedNull => map[]
      case Malformed(_) => map["value" := Some(OString(s))]
  }

  /** A JSON text that must parse: a malformed one throws. */
  function StrictArguments(json: string, env: Environment): (r: Result<Arguments, Exception>)
    ensures r.Err? <==> env.parse(json).Malformed?
    ensures env.parse(json).Parsed? ==> r == Ok(env.parse(json).dict)
    ensures env.parse(json).ParsedNull? ==> r == Ok(map[])
    ensures env.parse(json).Malformed? ==> r == Err(Json(env.parse(json).message))
  {
    match env.parse(json)
    case Parsed(d) => Ok(d)
    case ParsedNull => Ok(map[])
    case Malformed(m) => Err(Json(m))
  }

  /** `ConvertToDictionary`: coerces loose tool arguments to a dictionary.
      Only a malformed JSON document or object serialisation throws. */
  function ConvertToDictionary(value: Option<Obj>, env: Environment): (r: Result<Arguments, Exception>)
    ensures value.None? ==> r == Ok(map[])
    ensures value.Some? && value.value.ODict? ==> r == Ok(value.value.entries)
    ensures value.Some? && value.value.OString? ==> r == Ok(StringArguments(value.value.s, env))
    ensures value.Some? && value.value.OBinary? ==> r == Ok(StringArguments(value.value.data, env))
    ensures value.Some? && value.value.OList? ==>
      && r.Ok? && |r.value| == |value.value.items|
      && forall i :: 0 <= i < |value.value.items| ==> ArgKey(i) in r.value && r.value[ArgKey(i)] == value.value.items[i]
    ensures value.Some? && value.value.OJson? ==> r == StrictArguments(value.value.raw, env)
    ensures value.Some? && value.value.ORecord? ==> r == StrictArguments(env.serialize(value.value), env)
    ensures r.Err? ==> r.error.Json?
  {
    match value
    case None => Ok(map[])
    case Some(o) =>
      match o
      case ODict(e) => Ok(e)
      case OBinary(d) => Ok(StringArguments(d, env))
      case OString(s) => Ok(StringArguments(s, env))
      case OJson(raw) => StrictArguments(raw, env)
      case OList(items) => ListArgumentsSize(items); Ok(ListArguments(items))
      case ORecord(_) => StrictArguments(env.serialize(o), env)
  }

  /** The JSON text the coercion must parse: a document's raw text or an
      object's serialisation; `None` for the forms taken without parsing. */
  function StrictText(value: Option<Obj>, env: Environment): Option<string> {
    if value.Some? && value.value.OJson? then Some(value.value.raw)
    else if value.Some? && value.value.ORecord? then Some(env.serialize(value.value))
    else None
  }

  /** Coercion fails exactly when the argument is a document or object whose
      JSON text does not parse, and then with the parser's message; the
      loose forms (none, dictionary, string, bytes, list) never fail. */
  lemma {:induction false} ArgumentsFailOnlyOnMalformedJson(value: Option<Obj>, env: Environment)
    ensures ConvertToDictionary(value, env).Err? <==>
      StrictText(value, env).Some? && env.parse(StrictText(value, env).value).Malformed?
    ensures ConvertToDictionary(value, env).Err? ==>
      ConvertToDictionary(value, env).error == Json(env.parse(StrictText(value, env).value).message)
    ensures StrictText(value, env).Some? && env.parse(StrictText(value, env).value).Parsed? ==>
      ConvertToDictionary(value, env) == Ok(env.parse(StrictText(value, env).value).dict)
  {
    if StrictText(value, env).Some? {
      assert ConvertToDictionary(value, env) == StrictArguments(StrictText(value, env).value, env);
    }
  }

  /** The exception `GetPropertyValue(null!, …)` throws. */
  const NullReference: Exception := Other("NullReferenceException", "Object reference not set to an instance of an object.")

  /** The text item one enumerated content item contributes: its `Text`
      when that is a non-blank string. */
  function TextItem(item: Option<Obj>): Option<Content> {
    if item.Some? then
      match AsString(GetProperty(item.value, "Text"))
      case Some(t) => if Text.IsBlank(t) then None else Some(TextContent(t))
      case None => None
    else None
  }

  /** The non-blank `Text` properties of enumerated content items, in
      order; a null item throws. */
  function ItemTexts(items: seq<Option<Obj>>): (r: Result<seq<Content>, Exception>)
    ensures r.Ok? ==> forall k :: 0 <= k < |r.value| ==> r.value[k].TextContent? && !Text.IsBlank(r.value[k].text)
    ensures r.Ok? ==> |r.value| <= |items|
    ensures r.Err? <==> exists i :: 0 <= i < |items| && items[i].None?
    ensures r.Err? ==> r.error == NullReference
    ensures r.Ok? ==> r.value == FilterMap(items, TextItem)
  {
    if |items| == 0 then Ok([])
    else if items[0].None? then Err(NullReference)
    else
      var head := if TextItem(items[0]).Some? then [TextItem(items[0]).value] else [];
      assert forall i :: 1 <= i < |items| ==> items[i] == items[1..][i - 1];
      match ItemTexts(items[1..])
      case Err(e) => Err(e)
      case Ok(rest) => Ok(head + rest)
  }

  /** Every collected text is some item's `Text`, and every item with a
      non-blank `Text` contributes it. */
  lemma ItemTextsFromItems(items: seq<Option<Obj>>)
    ensures ItemTexts(items).Ok? ==> forall k :: 0 <= k < |ItemTexts(items).value| ==>
      exists i :: 0 <= i < |items| && items[i].Some?
        && AsString(GetProperty(items[i].value, "Text")) == Some(ItemTexts(items).value[k].text)
    ensures ItemTexts(items).Ok? ==> forall i :: 0 <= i < |items| && TextItem(items[i]).Some? ==>
      TextItem(items[i]).value in ItemTexts(items).value
  {
    if ItemTexts(items).Ok? {
      var r := ItemTexts(items).value;
      FilterMapSources(items, TextItem);
      FilterMapKeeps(items, TextItem);
      forall k | 0 <= k < |r|
        ensures exists i :: 0 <= i < |items| && items[i].Some? && AsString(GetProperty(items[i].value, "Text")) == Some(r[k].text)
      {
        var i :| 0 <= i < |items| && TextItem(items[i]) == Some(r[k]);
        assert items[i].Some? && AsString(GetProperty(items[i].value, "Text")) == Some(r[k].text);
      }
    }
  }

  /** The texts of joined item runs are the texts of the first run followed
      by those of the second, so the items' order is kept. */
  lemma ItemTextsAppend(a: seq<Option<Obj>>, b: seq<Option<Obj>>)
    ensures ItemTexts(a + b).Ok? <==> ItemTexts(a).Ok? && ItemTexts(b).Ok?
    ensures ItemTexts(a + b).Ok? ==> ItemTexts(a + b).value == ItemTexts(a).value + ItemTexts(b).value
  {
    FilterMapConcat(a, b, TextItem);
    if ItemTexts(a).Ok? && ItemTexts(b).Ok? {
      forall i | 0 <= i < |a + b| ensures (a + b)[i].Some? {
        if i < |a| {
          assert (a + b)[i] == a[i];
        } else {
          assert (a + b)[i] == b[i - |a|];
        }
      }
    } else if ItemTexts(a).Err? {
      var i :| 0 <= i < |a| && a[i].None?;
      assert (a + b)[i] == a[i];
    } else {
      var i :| 0 <= i < |b| && b[i].None?;
      assert (a + b)[|a| + i] == b[i];
    }
  }

  /** The text items of the completion's content exactly as lines 152-169
      collect them: because a string is itself enumerable, the first branch
      also takes a string content, enumerates its characters, finds no
      `Text` on any of them, and the string branch after it never runs. */
  function ContentTextsAsWritten(contentValue: Option<Obj>): (r: Result<seq<Content>, Exception>)
    ensures contentValue.Some? && contentValue.value.OList? ==> r == ItemTexts(contentValue.value.items)
  {
    match contentValue
    case None => Ok([])
    case Some(v) =>
      // the `is string` test comes second, after every string has already
      // been taken as a collection, so it is left out here
      match Elements(v)
      case Some(items) => ItemTexts(items)
      case None => Ok([])
  }

  /** A run of property-less items yields no text. */
  lemma {:induction false} OpaqueItemsHaveNoText(items: seq<Option<Obj>>)
    requires forall i :: 0 <= i < |items| ==> items[i] == Some(Opaque)
    ensures ItemTexts(items) == Ok([])
  {
    if |items| > 0 {
      OpaqueItemsHaveNoText(items[1..]);
    }
  }

  /** The discrepancy: a non-blank string content is dropped by the code as
      written, though the string branch exists to keep it. */
  lemma StringContentDroppedAsWritten(s: string)
    requires !Text.IsBlank(s)
    ensures ContentTextsAsWritten(Some(OString(s))) == Ok([])
    ensures ContentTexts(Some(OString(s))) == Ok([TextContent(s)])
  {
    OpaqueItemsHaveNoText(Elements(OString(s)).value);
  }

  /** The content texts with the string case checked first, as the branch
      at line 166 intends: a non-blank string becomes one text item. */
  function ContentTexts(contentValue: Option<Obj>): (r: Result<seq<Content>, Exception>)
    ensures r.Ok? ==> forall k :: 0 <= k < |r.value| ==> r.value[k].TextContent? && !Text.IsBlank(r.value[k].text)
    ensures contentValue.Some? && contentValue.value.OString? ==>
      r == Ok(if Text.IsBlank(contentValue.value.s) then [] else [TextContent(contentValue.value.s)])
    ensures contentValue.Some? && !contentValue.value.OString? ==> r == ContentTextsAsWritten(contentValue)
  {
    if contentValue.Some? && contentValue.value.OString? then
      if Text.IsBlank(contentValue.value.s) then Ok([]) else Ok([TextContent(contentValue.value.s)])
    else if contentValue.Some? && Elements(contentValue.value).Some? then ItemTexts(Elements(contentValue.value).value)
    else Ok([])
  }

  /** One reflected tool call: the id is `Id`, else `CallId`, else a fresh
      GUID; the name is `FunctionName`, else `Name`, else ""; the arguments
      are `FunctionArguments`, else `Arguments`, coerced to a dictionary. */
  function ToolCallOf(t: Obj, guid: string, env: Environment): (r: Result<FunctionCall, Exception>)
    ensures var id := AsString(GetProperty(t, "Id"));
      r.Ok? && id.Some? ==> r.value.callId == id.value
    ensures var id := AsString(GetProperty(t, "Id")); var callId := AsString(GetProperty(t, "CallId"));
      r.Ok? && id.None? && callId.Some? ==> r.value.callId == callId.value
    ensures AsString(GetProperty(t, "Id")).None? && AsString(GetProperty(t, "CallId")).None? && r.Ok? ==> r.value.callId == guid
    ensures var fn := AsString(GetProperty(t, "FunctionName")); var n := AsString(GetProperty(t, "Name"));
      r.Ok? ==> r.value.name == (if fn.Some? then fn.value else if n.Some? then n.value else "")
    ensures r.Ok? ==> r.value.arguments.Some?
    ensures var raw := GetProperty(t, "FunctionArguments").OrElse(GetProperty(t, "Arguments"));
      r.Ok? ==> ConvertToDictionary(raw, env).Ok? && r.value.arguments == Some(ConvertToDictionary(raw, env).value)
    ensures r.Err? <==> ConvertToDictionary(GetProperty(t, "FunctionArguments").OrElse(GetProperty(t, "Arguments")), env).Err?
  {
    var callId := AsString(GetProperty(t, "Id")).OrElse(AsString(GetProperty(t, "CallId"))).GetOr(guid);
    var name := AsString(GetProperty(t, "FunctionName")).OrElse(AsString(GetProperty(t, "Name"))).GetOr("");
    var raw := GetProperty(t, "FunctionArguments").OrElse(GetProperty(t, "Arguments"));
    match ConvertToDictionary(raw, env)
    case Err(e) => Err(e)
    case Ok(args) => Ok(FunctionCall(callId, name, Some(args)))
  }

  /** The entry at `i` is a tool call the conversion rejects. */
  predicate FailsAt(items: seq<Option<Obj>>, i: int, offset: nat, env: Environment)
    requires 0 <= i < |items|
  {
    items[i].Some? && ToolCallOf(items[i].value, env.newGuid(offset + i), env).Err?
  }

  /** The call items of the enumerated tool calls, in order; null entries
      are skipped, and an entry whose arguments cannot be converted aborts
      the conversion (the first such entry, as `ToolCallErrorIsFirst`
      states).  `offset` numbers the GUIDs drawn. */
  function ToolCallContents(items: seq<Option<Obj>>, offset: nat, env: Environment): (r: Result<seq<Content>, Exception>)
    ensures r.Ok? ==> forall k :: 0 <= k < |r.value| ==> r.value[k].FunctionCallContent?
    ensures r.Ok? ==> |r.value| <= |items|
    ensures r.Ok? && (forall i :: 0 <= i < |items| ==> items[i].Some?) ==> |r.value| == |items|
    ensures r.Ok? ==> forall i :: 0 <= i < |items| && items[i].Some? ==>
      && ToolCallOf(items[i].value, env.newGuid(offset + i), env).Ok?
      && FunctionCallContent(ToolCallOf(items[i].value, env.newGuid(offset + i), env).value) in r.value
    decreases |items|
  {
    if |items| == 0 then Ok([])
    else
      assert forall i :: 1 <= i < |items| ==> items[i] == items[1..][i - 1] && offset + i == offset + 1 + (i - 1);
      var rest := ToolCallContents(items[1..], offset + 1, env);
      if items[0].None? then rest
      else
        match ToolCallOf(items[0].value, env.newGuid(offset), env)
        case Err(e) => Err(e)
        case Ok(call) =>
          match rest
          case Err(e) => Err(e)
          case Ok(cs) => Ok([FunctionCallContent(call)] + cs)
  }

  /** With no null entry, the i-th converted content is the call of the
      i-th entry under the i-th GUID: the order of the response is kept. */
  lemma ToolCallContentsInOrder(items: seq<Option<Obj>>, offset: nat, env: Environment)
    requires forall i :: 0 <= i < |items| ==> items[i].Some?
    ensures var r := ToolCallContents(items, offset, env);
      r.Ok? ==> |r.value| == |items| && forall i :: 0 <= i < |items| ==>
        r.value[i] == FunctionCallContent(ToolCallOf(items[i].value, env.newGuid(offset + i), env).value)
  {
    var f := (o: Obj, n: nat) => CallContent(o, n, env);
    ToolCallContentsTraverses(items, offset, env);
    TraverseInOrder(items, offset, f);
    var r := ToolCallContents(items, offset, env);
    if r.Ok? {
      forall i | 0 <= i < |items|
        ensures r.value[i] == FunctionCallContent(ToolCallOf(items[i].value, env.newGuid(offset + i), env).value)
      {
        assert f(items[i].value, offset + i) == Ok(r.value[i]);
      }
    }
  }

  /** One entry's converted content under GUID number `n`. */
  function CallContent(item: Obj, n: nat, env: Environment): Result<Content, Exception> {
    match ToolCallOf(item, env.newGuid(n), env)
    case Ok(call) => Ok(FunctionCallContent(call))
    case Err(e) => Err(e)
  }

  /** `ToolCallContents` is the walk of `CallContent` over the entries. */
  lemma {:induction false} ToolCallContentsTraverses(items: seq<Option<Obj>>, offset: nat, env: Environment)
    ensures ToolCallContents(items, offset, env) == Traverse(items, offset, (o: Obj, n: nat) => CallContent(o, n, env))
    decreases |items|
  {
    if |items| > 0 {
      ToolCallContentsTraverses(items[1..], offset + 1, env);
    }
  }

  /** The calls of joined entry runs are the calls of the first run
      followed by those of the second, whose GUIDs are numbered on from the
      first's. */
  lemma ToolCallContentsAppend(a: seq<Option<Obj>>, b: seq<Option<Obj>>, offset: nat, env: Environment)
    ensures var ra, rb := ToolCallContents(a, offset, env), ToolCallContents(b, offset + |a|, env);
      ToolCallContents(a + b, offset, env).Ok? ==> ra.Ok? && rb.Ok? && ToolCallContents(a + b, offset, env).value == ra.value + rb.value
    ensures var ra, rb := ToolCallContents(a, offset, env), ToolCallContents(b, offset + |a|, env);
      ra.Ok? && rb.Ok? ==> ToolCallContents(a + b, offset, env) == Ok(ra.value + rb.value)
  {
    ToolCallContentsTraverses(a + b, offset, env);
    ToolCallContentsTraverses(a, offset, env);
    ToolCallContentsTraverses(b, offset + |a|, env);
    TraverseAppend(a, b, offset, (o: Obj, n: nat) => CallContent(o, n, env));
  }

  /** The conversion fails exactly when some non-null entry is rejected,
      and then with the error of the first one. */
  lemma {:induction false} ToolCallErrorIsFirst(items: seq<Option<Obj>>, offset: nat, env: Environment)
    ensures ToolCallContents(items, offset, env).Err? <==> exists i :: 0 <= i < |items| && FailsAt(items, i, offset, env)
    ensures ToolCallContents(items, offset, env).Err? ==> exists i :: (0 <= i < |items| && FailsAt(items, i, offset, env)
      && ToolCallContents(items, offset, env).error == ToolCallOf(items[i].value, env.newGuid(offset + i), env).error
      && forall j :: 0 <= j < i ==> !FailsAt(items, j, offset, env))
    decreases |items|
  {
    if |items| > 0 && !FailsAt(items, 0, offset, env) {
      var tail, next := items[1..], offset + 1;
      ToolCallErrorIsFirst(tail, next, env);
      forall i | 1 <= i < |items|
        ensures FailsAt(items, i, offset, env) <==> FailsAt(tail, i - 1, next, env)
      {
        assert items[i] == tail[i - 1];
      }
      if ToolCallContents(tail, next, env).Err? {
        var j :| 0 <= j < |tail| && FailsAt(tail, j, next, env)
          && ToolCallContents(tail, next, env).error == ToolCallOf(tail[j].value, env.newGuid(next + j), env).error
          && forall k :: 0 <= k < j ==> !FailsAt(tail, k, next, env);
        assert items[j + 1] == tail[j];
        assert FailsAt(items, j + 1, offset, env);
      } else {
        forall i | 0 <= i < |items|
          ensures !FailsAt(items, i, offset, env)
        {
          if i > 0 {
            assert !FailsAt(tail, i - 1, next, env);
          }
        }
      }
    }
  }

  /** The object that holds the assistant message: `Output`, else
      `Message`, else `Response`, else the completion itself; a non-string
      collection stands for its first element (`None` when it is empty or
      that element is null). */
  function LocateMessage(completion: Obj): (r: Option<Obj>)
    ensures var located := GetProperty(completion, "Output").OrElse(GetProperty(completion, "Message"))
                           .OrElse(GetProperty(completion, "Response")).GetOr(completion);
      && (Elements(located).None? || located.OString? ==> r == Some(located))
      && (located.OList? ==> r == (if |located.items| == 0 then None else located.items[0]))
      && (located.ODict? ==> r == (if |located.entries| == 0 then None else Some(Opaque)))
  {
    var located := GetProperty(completion, "Output").OrElse(GetProperty(completion, "Message"))
                   .OrElse(GetProperty(completion, "Response")).GetOr(completion);
    if located.OString? then Some(located)
    else match Elements(located)
      case None => Some(located)
      case Some(items) => if |items| == 0 then None else items[0]
  }

  /** The located message's content: `Content`, else `Contents`. */
  function ContentValue(message: Obj): Option<Obj> {
    GetProperty(message, "Content").OrElse(GetProperty(message, "Contents"))
  }

  /** The located message's converted calls: from `ToolCalls`, else
      `FunctionCalls`, when that is a collection; none otherwise. */
  function CallItems(message: Obj, env: Environment): Result<seq<Content>, Exception> {
    var toolCallsValue := GetProperty(message, "ToolCalls").OrElse(GetProperty(message, "FunctionCalls"));
    if toolCallsValue.Some? && Elements(toolCallsValue.value).Some?
    then ToolCallContents(Elements(toolCallsValue.value).value, 0, env) else Ok([])
  }

  /** `ConvertToChatMessage`: an Assistant message made of the message's
      content texts followed by its converted tool calls, or of one empty
      text when there are neither; a failing conversion of either part is
      the result, the texts' failure checked first. */
  function ConvertToChatMessage(completion: Obj, env: Environment): (r: Result<ChatMessage, Exception>)
    ensures r.Ok? ==> r.value.role == Assistant && |r.value.contents| >= 1
    ensures r.Ok? ==> forall k :: 0 <= k < |r.value.contents| ==>
      r.value.contents[k].TextContent? || r.value.contents[k].FunctionCallContent?
    ensures LocateMessage(completion).None? ==> r == Ok(TextMessage(Assistant, ""))
    ensures LocateMessage(completion).Some? ==>
      var texts := ContentTexts(ContentValue(LocateMessage(completion).value));
      var calls := CallItems(LocateMessage(completion).value, env);
      && (texts.Err? ==> r == Err(texts.error))
      && (texts.Ok? && calls.Err? ==> r == Err(calls.error))
      && (texts.Ok? && calls.Ok? ==>
            && r.Ok?
            && r.value.contents == if texts.value + calls.value == [] then [TextContent("")] else texts.value + calls.value)
    ensures r.Ok? && |r.value.contents| == 1 && r.value.contents[0].TextContent? && Text.IsBlank(r.value.contents[0].text)
      ==> r.value.contents[0].text == ""
  {
    match LocateMessage(completion)
    case None => Ok(TextMessage(Assistant, ""))
    case Some(message) =>
      match ContentTexts(ContentValue(message))
      case Err(e) => Err(e)
      case Ok(texts) =>
        match CallItems(message, env)
        case Err(e) => Err(e)
        case Ok(cs) =>
          var contents := texts + cs;
          if |contents| == 0 then Ok(TextMessage(Assistant, ""))
          else Ok(ChatMessage(Assistant, contents))
  }

  /** The calls of a converted message are exactly its converted tool
      calls, in their order: the content texts carry none. */
  lemma ConvertedCallsInOrder(completion: Obj, env: Environment)
    requires LocateMessage(completion).Some?
    ensures var calls := CallItems(LocateMessage(completion).value, env);
      ConvertToChatMessage(completion, env).Ok? ==>
        && calls.Ok?
        && FunctionCalls(ConvertToChatMessage(completion, env).value.contents)
           == seq(|calls.value|, k requires 0 <= k < |calls.value| => calls.value[k].call)
  {
    var message := LocateMessage(completion).value;
    var texts := ContentTexts(ContentValue(message));
    var calls := CallItems(message, env);
    if texts.Ok? && calls.Ok? {
      FunctionCallsAppend(texts.value, calls.value);
      FunctionCallsEmpty(texts.value);
      FunctionCallsOfCalls(calls.value);
    }
  }

  /** A tool in the API's function-tool form. */
  datatype ChatTool = ChatTool(name: string, description: Option<string>, parameters: string)

  /** `ConvertToBinaryData`: the schema's JSON text, `None` for a missing
      schema.  A blank string is not taken verbatim but serialised. */
  function SchemaText(value: Option<Obj>, env: Environment): (r: Option<string>)
    ensures r.None? <==> value.None?
    ensures value.Some? && value.value.OString? && !Text.IsBlank(value.value.s) ==> r == Some(value.value.s)
    ensures value.Some? && value.value.OBinary? ==> r == Some(value.value.data)
    ensures value.Some? && value.value.OJson? ==> r == Some(value.value.raw)
    ensures value.Some? && (value.value.ODict? || value.value.OList? || value.value.ORecord?
                            || (value.value.OString? && Text.IsBlank(value.value.s)))
      ==> r == Some(env.serialize(value.value))
  {
    match value
    case None => None
    case Some(o) =>
      match o
      case OBinary(d) => Some(d)
      case OString(s) => if !Text.IsBlank(s) then Some(s) else Some(env.serialize(o))
      case OJson(raw) => Some(raw)
      case _ => Some(env.serialize(o))
  }

  /** The name a tool is advertised under: its `Name`, or its type name
      when that is missing or blank. */
  function ToolName(tool: AiTool): (r: string)
    ensures var name := AsString(GetProperty(tool.value, "Name"));
      !Text.IsNullOrWhiteSpace(name) ==> r == name.value && !Text.IsBlank(r)
    ensures Text.IsNullOrWhiteSpace(AsString(GetProperty(tool.value, "Name"))) ==> r == tool.typeName
  {
    var name := AsString(GetProperty(tool.value, "Name"));
    if Text.IsNullOrWhiteSpace(name) then tool.typeName else name.value
  }

  /** The first of the tool's `InputSchema`, `JsonSchema`, `Schema` and
      `Parameters` properties that is present. */
  function ToolSchema(tool: AiTool): Option<Obj> {
    FirstProperty(tool.value, SchemaProperties)
  }

  /** The schema properties probed, in order of preference. */
  const SchemaProperties: seq<string> := ["InputSchema", "JsonSchema", "Schema", "Parameters"]

  /** The value of the first of `names` that `o` has, `None` when it has
      none of them. */
  function FirstProperty(o: Obj, names: seq<string>): (r: Option<Obj>)
    ensures r.None? <==> forall i :: 0 <= i < |names| ==> GetProperty(o, names[i]).None?
    ensures r.Some? ==> exists i :: (0 <= i < |names| && r == GetProperty(o, names[i])
      && forall j :: 0 <= j < i ==> GetProperty(o, names[j]).None?)
    decreases |names|
  {
    if |names| == 0 then None
    else if GetProperty(o, names[0]).Some? then GetProperty(o, names[0])
    else
      var rest := FirstProperty(o, names[1..]);
      assert forall i :: 1 <= i < |names| ==> names[i] == names[1..][i - 1];
      if rest.Some? then
        var i :| 0 <= i < |names[1..]| && rest == GetProperty(o, names[1..][i])
          && forall j :: 0 <= j < i ==> GetProperty(o, names[1..][j]).None?;
        assert rest == GetProperty(o, names[i + 1]);
        rest
      else rest
  }

  /** `TryCreateChatTool`: the tool's `Name` (its type name when blank), its
      `Description`, and its schema as JSON ("{}" when none); `None` exactly
      when the SDK's factory rejects that candidate. */
  function TryCreateChatTool(tool: AiTool, env: Environment, accepts: ChatTool -> bool): (r: Option<ChatTool>)
    ensures r.Some? ==> r.value.name == ToolName(tool)
    ensures r.Some? ==> r.value.description == AsString(GetProperty(tool.value, "Description"))
    ensures r.Some? && ToolSchema(tool).None? ==> r.value.parameters == "{}"
    ensures r.Some? && ToolSchema(tool).Some? ==> r.value.parameters == SchemaText(ToolSchema(tool), env).value
    ensures r.Some? ==> accepts(r.value)
    ensures var candidate := ChatTool(ToolName(tool), AsString(GetProperty(tool.value, "Description")),
                                      SchemaText(ToolSchema(tool), env).GetOr("{}"));
      r.Some? <==> accepts(candidate)
  {
    var description := AsString(GetProperty(tool.value, "Description"));
    var candidate := ChatTool(ToolName(tool), description, SchemaText(ToolSchema(tool), env).GetOr("{}"));
    if accepts(candidate) then Some(candidate) else None
  }

  /** Tools whose type names are not blank, as a C# type name never is, are
      never advertised under a blank name, and each advertised name is the
      `ToolName` of one of them. */
  lemma ConvertedToolsNamed(tools: seq<AiTool>, env: Environment, accepts: ChatTool -> bool)
    requires forall i :: 0 <= i < |tools| ==> !Text.IsBlank(tools[i].typeName)
    ensures forall k :: 0 <= k < |ConvertTools(tools, env, accepts)| ==> !Text.IsBlank(ConvertTools(tools, env, accepts)[k].name)
    ensures forall k :: 0 <= k < |ConvertTools(tools, env, accepts)| ==>
      exists i :: 0 <= i < |tools| && ConvertTools(tools, env, accepts)[k].name == ToolName(tools[i])
  {
    var r := ConvertTools(tools, env, accepts);
    forall k | 0 <= k < |r|
      ensures !Text.IsBlank(r[k].name) && exists i :: 0 <= i < |tools| && r[k].name == ToolName(tools[i])
    {
      var i :| 0 <= i < |tools| && TryCreateChatTool(tools[i], env, accepts) == Some(r[k]);
      assert r[k].name == ToolName(tools[i]);
    }
  }

  /** The results of `f` over the present entries of `xs`, the i-th entry
      numbered `offset + i`; the first failure, in order, ends the walk. */
  function Traverse<A, B, E>(xs: seq<Option<A>>, offset: nat, f: (A, nat) -> Result<B, E>): Result<seq<B>, E>
    decreases |xs|
  {
    if |xs| == 0 then Ok([])
    else
      var rest := Traverse(xs[1..], offset + 1, f);
      if xs[0].None? then rest
      else
        match f(xs[0].value, offset)
        case Err(e) => Err(e)
        case Ok(b) =>
          match rest
          case Err(e) => Err(e)
          case Ok(bs) => Ok([b] + bs)
  }

  /** With no absent entry, a successful walk yields, at each position, the
      result of `f` on the entry there under its own number. */
  lemma {:induction false} TraverseInOrder<A, B, E>(xs: seq<Option<A>>, offset: nat, f: (A, nat) -> Result<B, E>)
    requires forall i :: 0 <= i < |xs| ==> xs[i].Some?
    ensures var r := Traverse(xs, offset, f);
      r.Ok? ==> |r.value| == |xs| && forall i :: 0 <= i < |xs| ==> f(xs[i].value, offset + i) == Ok(r.value[i])
    decreases |xs|
  {
    if |xs| > 0 {
      var rest := xs[1..];
      assert forall i :: 0 <= i < |rest| ==> rest[i] == xs[i + 1];
      TraverseInOrder(rest, offset + 1, f);
      var r := Traverse(xs, offset, f);
      if r.Ok? {
        var bs := Traverse(rest, offset + 1, f).value;
        forall i | 1 <= i < |xs|
          ensures f(xs[i].value, offset + i) == Ok(r.value[i])
        {
          assert r.value[i] == bs[i - 1] && rest[i - 1] == xs[i] && offset + 1 + (i - 1) == offset + i;
        }
      }
    }
  }

  /** A walk over joined entry runs succeeds exactly when the walks over
      both runs do, the second numbered on from the first, and then yields
      the first's results followed by the second's. */
  lemma {:induction false} TraverseAppend<A, B, E>(xs: seq<Option<A>>, ys: seq<Option<A>>, offset: nat, f: (A, nat) -> Result<B, E>)
    ensures var rx, ry := Traverse(xs, offset, f), Traverse(ys, offset + |xs|, f);
      Traverse(xs + ys, offset, f).Ok? <==> rx.Ok? && ry.Ok?
    ensures var rx, ry := Traverse(xs, offset, f), Traverse(ys, offset + |xs|, f);
      rx.Ok? && ry.Ok? ==> Traverse(xs + ys, offset, f).value == rx.value + ry.value
    decreases |xs|
  {
    if |xs| == 0 {
      assert xs + ys == ys;
    } else {
      assert (xs + ys)[0] == xs[0] && (xs + ys)[1..] == xs[1..] + ys;
      assert offset + 1 + |xs[1..]| == offset + |xs|;
      TraverseAppend(xs[1..], ys, offset + 1, f);
      var rx, ry := Traverse(xs[1..], offset + 1, f), Traverse(ys, offset + |xs|, f);
      if xs[0].Some? && f(xs[0].value, offset).Ok? && rx.Ok? && ry.Ok? {
        var b := f(xs[0].value, offset).value;
        assert [b] + (rx.value + ry.value) == ([b] + rx.value) + ry.value;
      }
    }
  }

  /** The present results of `f` over `xs`, in order. */
  function FilterMap<A, B>(xs: seq<A>, f: A -> Option<B>): (r: seq<B>)
    ensures |r| <= |xs|
    ensures (forall i :: 0 <= i < |xs| ==> f(xs[i]).Some?) ==>
      |r| == |xs| && forall i :: 0 <= i < |xs| ==> Some(r[i]) == f(xs[i])
    decreases |xs|
  {
    if |xs| == 0 then []
    else
      var rest := FilterMap(xs[1..], f);
      assert (forall i :: 0 <= i < |xs| ==> f(xs[i]).Some?) ==> forall i :: 0 <= i < |xs[1..]| ==> f(xs[1..][i]).Some? by {
        assert forall i :: 0 <= i < |xs[1..]| ==> xs[1..][i] == xs[i + 1];
      }
      if f(xs[0]).Some? then [f(xs[0]).value] + rest else rest
  }

  /** The results over joined inputs are the results over the first
      followed by those over the second. */
  lemma {:induction false} FilterMapConcat<A, B>(xs: seq<A>, ys: seq<A>, f: A -> Option<B>)
    ensures FilterMap(xs + ys, f) == FilterMap(xs, f) + FilterMap(ys, f)
    decreases |xs|
  {
    if |xs| == 0 {
      assert xs + ys == ys;
    } else {
      assert (xs + ys)[0] == xs[0] && (xs + ys)[1..] == xs[1..] + ys;
      FilterMapConcat(xs[1..], ys, f);
      var head := if f(xs[0]).Some? then [f(xs[0]).value] else [];
      assert FilterMap(xs + ys, f) == head + FilterMap(xs[1..] + ys, f);
      assert FilterMap(xs, f) == head + FilterMap(xs[1..], f);
      assert head + (FilterMap(xs[1..], f) + FilterMap(ys, f)) == (head + FilterMap(xs[1..], f)) + FilterMap(ys, f);
    }
  }

  /** Every result comes from some element. */
  lemma {:induction false} FilterMapSources<A, B>(xs: seq<A>, f: A -> Option<B>)
    ensures forall k :: 0 <= k < |FilterMap(xs, f)| ==> exists i :: 0 <= i < |xs| && f(xs[i]) == Some(FilterMap(xs, f)[k])
    decreases |xs|
  {
    if |xs| > 0 {
      FilterMapSources(xs[1..], f);
      var r := FilterMap(xs, f);
      var rest := FilterMap(xs[1..], f);
      assert r == (if f(xs[0]).Some? then [f(xs[0]).value] else []) + rest;
      forall k | 0 <= k < |r| ensures exists i :: 0 <= i < |xs| && f(xs[i]) == Some(r[k]) {
        if f(xs[0]).Some? && k == 0 {
          assert f(xs[0]) == Some(r[0]);
        } else {
          var k' := if f(xs[0]).Some? then k - 1 else k;
          assert r[k] == rest[k'];
          var i :| 0 <= i < |xs[1..]| && f(xs[1..][i]) == Some(rest[k']);
          assert xs[1..][i] == xs[i + 1];
          assert f(xs[i + 1]) == Some(r[k]);
        }
      }
    } else {
      assert |FilterMap(xs, f)| == 0;
    }
  }

  /** Every present result is kept. */
  lemma {:induction false} FilterMapKeeps<A, B>(xs: seq<A>, f: A -> Option<B>)
    ensures forall i :: 0 <= i < |xs| && f(xs[i]).Some? ==> f(xs[i]).value in FilterMap(xs, f)
    decreases |xs|
  {
    if |xs| > 0 {
      FilterMapKeeps(xs[1..], f);
      var rest := FilterMap(xs[1..], f);
      var head := if f(xs[0]).Some? then [f(xs[0]).value] else [];
      assert FilterMap(xs, f) == head + rest;
      forall i | 0 <= i < |xs| && f(xs[i]).Some? ensures f(xs[i]).value in FilterMap(xs, f) {
        if i > 0 {
          assert xs[1..][i - 1] == xs[i];
          assert f(xs[i]).value in rest;
        } else {
          assert FilterMap(xs, f)[0] == f(xs[0]).value;
        }
      }
    }
  }

  /** Appending an element appends its result, if any: the relative order
      of the results is the order of the inputs. */
  lemma {:induction false} FilterMapAppend<A, B>(xs: seq<A>, x: A, f: A -> Option<B>)
    ensures FilterMap(xs + [x], f) == FilterMap(xs, f) + (if f(x).Some? then [f(x).value] else [])
    decreases |xs|
  {
    if |xs| > 0 {
      assert (xs + [x])[1..] == xs[1..] + [x];
      assert (xs + [x])[0] == xs[0];
      FilterMapAppend(xs[1..], x, f);
    } else {
      assert xs + [x] == [x];
    }
  }

  /** The converted tools, in order, skipping those that fail conversion. */
  function ConvertTools(tools: seq<AiTool>, env: Environment, accepts: ChatTool -> bool): (r: seq<ChatTool>)
    ensures |r| <= |tools|
    ensures forall k :: 0 <= k < |r| ==> exists i :: 0 <= i < |tools| && TryCreateChatTool(tools[i], env, accepts) == Some(r[k])
    ensures forall i :: 0 <= i < |tools| && TryCreateChatTool(tools[i], env, accepts).Some? ==>
      TryCreateChatTool(tools[i], env, accepts).value in r
    ensures (forall i :: 0 <= i < |tools| ==> TryCreateChatTool(tools[i], env, accepts).Some?) ==>
      |r| == |tools| && forall i :: 0 <= i < |tools| ==> Some(r[i]) == TryCreateChatTool(tools[i], env, accepts)
  {
    var f := t => TryCreateChatTool(t, env, accepts);
    FilterMapSources(tools, f);
    FilterMapKeeps(tools, f);
    FilterMap(tools, f)
  }

  /** Appending a tool appends its conversion, if any: the relative order
      of the converted tools is the order of the options. */
  lemma ConvertToolsAppend(tools: seq<AiTool>, t: AiTool, env: Environment, accepts: ChatTool -> bool)
    ensures var c := TryCreateChatTool(t, env, accepts);
      ConvertTools(tools + [t], env, accepts) == ConvertTools(tools, env, accepts) + (if c.Some? then [c.value] else [])
  {
    FilterMapAppend(tools, t, t => TryCreateChatTool(t, env, accepts));
  }

  const DefaultMaxOutputTokens: int := 2048

  /** The request options of the chat-completions call. */
  datatype CompletionOptions = CompletionOptions(
    maxOutputTokenCount: Option<int>,
    useMaxCompletionTokens: bool,
    tools: seq<ChatTool>)

  /** The option building of `GetResponseAsync`: the token budget (2048 by
      default) is set only when positive; the tools are converted only when
      some are given. */
  function BuildOptions(options: Option<ChatOptions>, env: Environment, accepts: ChatTool -> bool): (r: CompletionOptions)
    ensures var budget := if options.Some? then options.value.maxOutputTokens.GetOr(DefaultMaxOutputTokens) else DefaultMaxOutputTokens;
      r.maxOutputTokenCount == (if budget > 0 then Some(budget) else None)
    ensures options.None? || options.value.maxOutputTokens.None? ==> r.maxOutputTokenCount == Some(DefaultMaxOutputTokens)
    ensures options.None? ==> r.tools == []
    ensures options.Some? ==> r.tools == ConvertTools(options.value.tools, env, accepts)
    ensures r.useMaxCompletionTokens
  {
    var budget := if options.Some? then options.value.maxOutputTokens.GetOr(DefaultMaxOutputTokens) else DefaultMaxOutputTokens;
    var tools := if options.Some? && |options.value.tools| > 0 then ConvertTools(options.value.tools, env, accepts) else [];
    CompletionOptions(if budget > 0 then Some(budget) else None, true, tools)
  }

  /** The chat-completions endpoint: the completion object it returns for a
      request, or the exception the call throws. */
  type Completion = (seq<WireMessage>, CompletionOptions) -> Result<Obj, Exception>

  /** `GetResponseAsync`: maps the history, builds the options, calls the
      endpoint and wraps the assembled message in a response.  The endpoint
      sees the mapped history and the built options; its failure, like a
      failing mapping or conversion, is the result unchanged; and since the
      assembled message is never empty, the empty-message fallback never
      applies. */
  function GetResponse(history: seq<ChatMessage>, options: Option<ChatOptions>, complete: Completion,
                       env: Environment, accepts: ChatTool -> bool): (r: Result<ChatResponse, Exception>)
    ensures (exists i :: 0 <= i < |history| && history[i].role.Custom?) ==> r.Err? && r.error.NotSupported?
    ensures r.Ok? ==> exists m :: r.value == ResponseOf(m) && m.role == Assistant && |m.contents| >= 1
    ensures ConvertMessages(history).Err? ==> r == Err(ConvertMessages(history).error)
    ensures ConvertMessages(history).Ok? ==>
      var answer := complete(ConvertMessages(history).value, BuildOptions(options, env, accepts));
      && (answer.Err? ==> r == Err(answer.error))
      && (answer.Ok? && ConvertToChatMessage(answer.value, env).Err? ==> r == Err(ConvertToChatMessage(answer.value, env).error))
      && (answer.Ok? && ConvertToChatMessage(answer.value, env).Ok? ==> r == Ok(ResponseOf(ConvertToChatMessage(answer.value, env).value)))
  {
    match ConvertMessages(history)
    case Err(e) => Err(e)
    case Ok(wire) =>
      match complete(wire, BuildOptions(options, env, accepts))
      case Err(e) => Err(e)
      case Ok(completion) =>
        match ConvertToChatMessage(completion, env)
        case Err(e) => Err(e)
        case Ok(m) =>
          var message := if |m.contents| == 0 then TextMessage(Assistant, "") else m;
          Ok(ResponseOf(message))
  }
}

=== FILE: chat_endpoints.dfy ===
/** `ChatEndpoints`: the `POST /api/chat` handler.  It validates the request,
    seeds the conversation on first use, runs one exchange and maps
    failures to JSON error responses. */
module ChatEndpoints {
  import opened Common
  import opened Messages
  import opened McpTools
  import opened ChatService
  import Text

  /** The request body; `None` for a missing `message`. */
  datatype ChatRequest = ChatRequest(message: Option<string>)

  /** The HTTP results the handler produces. */
  datatype HttpResult =
    | OkResponse(response: string)
    | BadRequest(text: string)
    | ErrorJson(status: int, message: string, details: string, technical: string)

  const MessageRequired: string := "Message is required"

  /** A request the handler accepts: present, with a non-blank message. */
  predicate ValidRequest(request: Option<ChatRequest>) {
    request.Some? && !Text.IsNullOrWhiteSpace(request.value.message)
  }

  /** The service as the exchange finds it: initialised first when its
      history is empty. */
  function Prepared(s: Session, server: McpServer): (r: Session)
    ensures s.messages == [] ==> r.messages == [SystemMessage()]
    ensures s.messages == [] ==> r.mcp.tools.Some? && r.options == Some(ChatOptions(r.mcp.tools.value, None))
    ensures s.messages == [] && s.mcp.tools.Some? ==> r.mcp.tools == s.mcp.tools
    ensures s.messages == [] && s.mcp.tools.None? && s.mcp.client.None? && server.connect(s.mcp.connectAttempts).Ok? ==>
      r.options == Some(ChatOptions(Listed(server, server.connect(s.mcp.connectAttempts).value), None))
    ensures s.messages != [] ==> r == s
  {
    if s.messages == [] then Initialize(s, server) else s
  }

  const RejectedMessage: string := "Azure OpenAI rejected the request"
  const RejectedDetails: string := "Verify the deployment name, API version, and request parameters."
  const TimeoutMessage: string := "Request timed out"
  const TimeoutDetails: string :=
    "Azure OpenAI took too long to respond. " + "Try again with a shorter message or retry later."
  const TimeoutTechnical: string := "Request exceeded timeout threshold"
  const NotConfiguredMessage: string := "AI service not configured"
  const NotConfiguredDetails: string :=
    "Azure OpenAI configuration is missing or invalid. " + "Confirm the connection string values in Aspire."
  const UnexpectedMessage: string := "An unexpected error occurred"

  /** The details of an unexpected failure name the exception type. */
  function UnexpectedDetails(typeName: string): string {
    "Error type: " + typeName + ". This may indicate a configuration or connectivity issue with Azure OpenAI."
  }

  /** A failed request keeps its status when that is an error status and
      is reported as 502 (bad gateway) otherwise. */
  function RejectedStatus(status: int): (r: int)
    ensures r >= 400
    ensures status >= 400 ==> r == status
    ensures status < 400 ==> r == 502
  {
    if status >= 400 then status else 502
  }

  /** The catch clauses: a request failure, a timeout (504), a
      configuration error (500) and anything else (500), each with its own
      message.  Every result is an error status. */
  function FailureResult(e: Exception): (r: HttpResult)
    ensures r.ErrorJson? && r.status >= 400
    ensures e.RequestFailed? ==> r == ErrorJson(RejectedStatus(e.status), RejectedMessage, RejectedDetails, e.message)
    ensures e.TaskCanceled? ==> r == ErrorJson(504, TimeoutMessage, TimeoutDetails, TimeoutTechnical)
    ensures e.InvalidOperation? ==> r == ErrorJson(500, NotConfiguredMessage, NotConfiguredDetails, e.message)
    ensures !e.RequestFailed? && !e.TaskCanceled? && !e.InvalidOperation? ==>
      r == ErrorJson(500, UnexpectedMessage, UnexpectedDetails(e.TypeName()), e.Message())
  {
    if e.RequestFailed? then ErrorJson(RejectedStatus(e.status), RejectedMessage, RejectedDetails, e.message)
    else if e.TaskCanceled? then ErrorJson(504, TimeoutMessage, TimeoutDetails, TimeoutTechnical)
    else if e.InvalidOperation? then ErrorJson(500, NotConfiguredMessage, NotConfiguredDetails, e.message)
    else ErrorJson(500, UnexpectedMessage, UnexpectedDetails(e.TypeName()), e.Message())
  }

  /** The handler.  An invalid request is answered 400 and leaves the
      service untouched.  A valid one initialises the service if its
      history is empty and runs one exchange on the message; because
      neither step throws, the answer is always 200 with the exchange's
      reply.  The exchange finishes as `ChatService.Finished` states over the
      tool service, so the Tool turns, the options and the tool-service
      state the next request starts from are those `Chat` leaves; `outcome`
      and `rounds` report how it ended and mean nothing for a rejected
      request. */
  method HandleChat(request: Option<ChatRequest>, s: Session, backend: Backend, server: McpServer)
    returns (result: HttpResult, r: Session, outcome: Outcome, rounds: nat)
    ensures !ValidRequest(request) ==> result == BadRequest(MessageRequired) && r == s
    ensures ValidRequest(request) ==> result.OkResponse?
    ensures ValidRequest(request) ==>
      Finished(Prepared(s, server), request.value.message.value, backend, Runner(server), result.response, r, outcome, rounds)
    ensures ValidRequest(request) && s.messages == [] ==> |r.messages| >= 3 && r.messages[0] == SystemMessage()
    ensures ValidRequest(request) && s.messages != [] ==> |r.messages| >= |s.messages| + 2 && r.messages[..|s.messages|] == s.messages
  {
    if !ValidRequest(request) {
      return BadRequest(MessageRequired), s, Answered, 0;
    }
    var p := Prepared(s, server);
    var reply;
    reply, r, outcome, rounds := Exchange(p, request.value.message.value, backend, server);
    if s.messages == [] {
      assert r.messages[0] == r.messages[..|p.messages|][0];
    }
    return OkResponse(reply), r, outcome, rounds;
  }

  /** One exchange on a prepared service: it finishes as `Finished` states
      over the tool service and keeps the history it started from, adding
      at least the User turn and the final turn. */
  method Exchange(p: Session, message: string, backend: Backend, server: McpServer)
    returns (reply: string, r: Session, outcome: Outcome, rounds: nat)
    ensures Finished(p, message, backend, Runner(server), reply, r, outcome, rounds)
    ensures |r.messages| >= |p.messages| + 2 && r.messages[..|p.messages|] == p.messages
  {
    reply, r, outcome, rounds := Chat(p, message, backend, server);
    assert Finished(p, message, backend, Runner(server), reply, r, outcome, rounds);
    assert r.messages[..|p.messages|] == p.messages by {
      var start := p.messages + [TextMessage(User, message)];
      assert r.messages[..|start|] == start;
      assert r.messages[..|p.messages|] == r.messages[..|start|][..|p.messages|];
    }
  }
}

=== FILE: chat_service.dfy ===
/** `ChatService`: the conversation history and the agentic exchange loop.
    The chat backend and the MCP server are oracles; everything else is
    the service's own logic. */
module ChatService {
  import opened Common
  import opened Messages
  import opened Normalizer
  import opened McpTools
  import Text

  /** The round cap of one exchange. */
  const MaxIterations: nat := 5

  const TooManyToolCalls: string := "I encountered too many tool calls." + " Please try rephrasing your request."

  const ErrorPrefix: string := "Sorry, I encountered an error: "

  const ToolErrorPrefix: string := "Error: "

  /** The instruction text seeded as the System turn: the raw string
      literal with its common indentation removed, lines joined by '\n'. */
  const SystemPrompt: string :=
    "You are an assistant that manages todo items using MCP tools.\n"
    + "\n"
    + "MCP USAGE RULES\n"
    + "1. Always call describe_entities first in a session. This is mandatory.\n"
    + "It returns entity names, fields, keys, and permissions. Cache this metadata for all later tool calls.\n"
    + "2. Every operation must include the entity name from describe_entities.\n"
    + "Most operations also require field and key names from the cached metadata.\n"
    + "3. Use read_records (with $filter) to answer reporting or lookup questions.\n"
    + "4. Use create_record, update_record, delete_record, or execute_entity only when the user explicitly requests a change.\n"
    + "5. Never guess table, entity, or column names. If metadata is missing, call describe_entities again.\n"
    + "\n"
    + "BE HELPFUL\n"
    + "\U{2022} Keep message text concise, friendly, and specific about what was done or found.\n"
    + "\U{2022} Acknowledge when no records match.\n"
    + "\U{2022} Never fabricate data.\n"
    + "\U{2022} Always follow the flow exactly: describe_entities first, then use the cached metadata for all tool calls."

  /** The chat backend: its answer to a history and options, or the
      exception the call throws. */
  type Backend = (seq<ChatMessage>, ChatOptions) -> Result<ChatResponse, Exception>

  /** The service's state: `_messages`, `_chatOptions` and its tool service. */
  datatype Session = Session(messages: seq<ChatMessage>, options: Option<ChatOptions>, mcp: McpState)

  /** A freshly constructed service has an empty history. */
  function NewSession(mcp: McpState): (s: Session)
    ensures s.messages == [] && s.options.None?
  {
    Session([], None, mcp)
  }

  function SystemMessage(): ChatMessage {
    TextMessage(System, SystemPrompt)
  }

  /** The tools the server lists to a client, or none when listing fails. */
  function Listed(server: McpServer, c: Client): seq<AiTool> {
    if server.listTools(c).Ok? then server.listTools(c).value else []
  }

  /** `InitializeAsync`: appends one System turn and advertises whatever
      tools the tool service returns.  The tool service never throws, so a
      listing failure shows up as an empty tool list. */
  function Initialize(s: Session, server: McpServer): (r: Session)
    ensures r.messages == s.messages + [SystemMessage()]
    ensures r.mcp.tools.Some? && r.options == Some(ChatOptions(r.mcp.tools.value, None))
    ensures s.mcp.tools.Some? ==> r.mcp.tools == s.mcp.tools
    ensures s.mcp.tools.None? && s.mcp.client.None? && server.connect(s.mcp.connectAttempts).Err?
      ==> r.options == Some(ChatOptions([], None))
    ensures s.mcp.tools.None? && s.mcp.client.None? && server.connect(s.mcp.connectAttempts).Ok? ==>
      r.options == Some(ChatOptions(Listed(server, server.connect(s.mcp.connectAttempts).value), None))
    ensures s.mcp.tools.None? && s.mcp.client.Some? ==>
      r.options == Some(ChatOptions(Listed(server, s.mcp.client.value), None))
  {
    var (mcp', tools) := GetTools(s.mcp, server);
    Session(s.messages + [SystemMessage()], Some(ChatOptions(tools, None)), mcp')
  }

  /** The Tool turn recording one call's outcome. */
  function ToolTurn(callId: string, text: string): ChatMessage {
    ChatMessage(Tool, [FunctionResultContent(callId, Some(text))])
  }

  /** The recorded text of a tool outcome: the payload, or "Error: " and the
      failure's message. */
  function ToolText(outcome: Result<string, Exception>): string {
    match outcome
    case Ok(p) => p
    case Err(e) => ToolErrorPrefix + e.Message()
  }

  /** A failed call is recorded as "Error: " followed by exactly the
      failure's message, so the two kinds of outcome can be told apart by
      the prefix only when payloads cannot start with it. */
  lemma ToolTextOfFailure(e: Exception)
    ensures var t := ToolText(Err(e));
      |t| >= |ToolErrorPrefix| && t[..|ToolErrorPrefix|] == ToolErrorPrefix && t[|ToolErrorPrefix|..] == e.Message()
  {
    var t := ToolText(Err(e));
    assert t == ToolErrorPrefix + e.Message();
  }

  /** `m` is a Tool turn answering `call`, keyed by its call id. */
  predicate IsToolTurnFor(m: ChatMessage, call: FunctionCall) {
    && m.role == Tool
    && |m.contents| == 1
    && m.contents[0].FunctionResultContent?
    && m.contents[0].callId == call.callId
    && m.contents[0].result.Some?
  }

  /** The arguments a call is executed with: `Arguments ?? {}`. */
  function ArgumentsOf(call: FunctionCall): Arguments {
    call.arguments.GetOr(map[])
  }

  /** The tool loop of one round: every call is executed, in order, and
      answered by one Tool turn, whether it succeeded or failed. */
  function RunToolCalls(mcp: McpState, server: McpServer, calls: seq<FunctionCall>): (r: (McpState, seq<ChatMessage>))
    ensures |r.1| == |calls|
    ensures forall i :: 0 <= i < |calls| ==> IsToolTurnFor(r.1[i], calls[i])
    ensures r.0.tools == mcp.tools
    ensures mcp.client.Some? ==> r.0.client == mcp.client && r.0.toolCalls == mcp.toolCalls + |calls|
    decreases |calls|
  {
    if |calls| == 0 then (mcp, [])
    else
      var step := ExecuteTool(mcp, server, calls[0].name, ArgumentsOf(calls[0]));
      var tail := RunToolCalls(step.0, server, calls[1..]);
      var turns := [ToolTurn(calls[0].callId, ToolText(step.1))] + tail.1;
      assert forall i :: 1 <= i < |calls| ==> turns[i] == tail.1[i - 1] && calls[i] == calls[1..][i - 1];
      (tail.0, turns)
  }

  /** The Tool turn for `call` when the server is asked as its `n`-th call. */
  function ServerTurn(server: McpServer, n: nat, call: FunctionCall): ChatMessage {
    ToolTurn(call.callId, ToolText(server.callTool(n, call.name, ArgumentsOf(call))))
  }

  /** With a client in place, the first call is the server's next one and
      the rest run on the advanced numbering. */
  lemma FirstCallRunsFirst(mcp: McpState, server: McpServer, calls: seq<FunctionCall>)
    requires mcp.client.Some? && |calls| > 0
    ensures var turns := RunToolCalls(mcp, server, calls).1;
      && turns[0] == ServerTurn(server, mcp.toolCalls, calls[0])
      && turns[1..] == RunToolCalls(mcp.(toolCalls := mcp.toolCalls + 1), server, calls[1..]).1
  {
    assert ExecuteTool(mcp, server, calls[0].name, ArgumentsOf(calls[0]))
      == (mcp.(toolCalls := mcp.toolCalls + 1), server.callTool(mcp.toolCalls, calls[0].name, ArgumentsOf(calls[0])));
  }

  /** With a client in place, the `i`-th call is the server's call
      `toolCalls + i`, and its Tool turn records that call's outcome. */
  lemma {:induction false} ConnectedCallAt(mcp: McpState, server: McpServer, calls: seq<FunctionCall>, i: nat)
    requires mcp.client.Some? && i < |calls|
    ensures RunToolCalls(mcp, server, calls).1[i] == ServerTurn(server, mcp.toolCalls + i, calls[i])
    decreases i
  {
    if i == 0 {
      FirstCallRunsFirst(mcp, server, calls);
    } else {
      var m1, rest := mcp.(toolCalls := mcp.toolCalls + 1), calls[1..];
      assert RunToolCalls(m1, server, rest).1[i - 1] == ServerTurn(server, mcp.toolCalls + i, calls[i]) by {
        ConnectedCallAt(m1, server, rest, i - 1);
        assert m1.toolCalls + (i - 1) == mcp.toolCalls + i && rest[i - 1] == calls[i];
      }
      assert RunToolCalls(mcp, server, calls).1[i] == RunToolCalls(m1, server, rest).1[i - 1] by {
        FirstCallRunsFirst(mcp, server, calls);
        assert RunToolCalls(mcp, server, calls).1[i] == RunToolCalls(mcp, server, calls).1[1..][i - 1];
      }
    }
  }


  /** With a client in place, the calls reach the server in order, numbered
      one after the other, and each Tool turn records its own call's
      outcome. */
  lemma ConnectedCallsInOrder(mcp: McpState, server: McpServer, calls: seq<FunctionCall>)
    requires mcp.client.Some?
    ensures forall i :: 0 <= i < |calls| ==>
      RunToolCalls(mcp, server, calls).1[i] == ServerTurn(server, mcp.toolCalls + i, calls[i])
  {
    forall i | 0 <= i < |calls|
      ensures RunToolCalls(mcp, server, calls).1[i] == ServerTurn(server, mcp.toolCalls + i, calls[i])
    {
      ConnectedCallAt(mcp, server, calls, i);
    }
  }

  /** A failing call does not stop the round: the calls after it are run
      exactly as if it had succeeded with the same state change. */
  lemma FailureContained(mcp: McpState, server: McpServer, calls: seq<FunctionCall>)
    requires |calls| > 0
    requires ExecuteTool(mcp, server, calls[0].name, ArgumentsOf(calls[0])).1.Err?
    ensures var (m1, outcome) := ExecuteTool(mcp, server, calls[0].name, ArgumentsOf(calls[0]));
            && RunToolCalls(mcp, server, calls).1[0] == ToolTurn(calls[0].callId, ToolErrorPrefix + outcome.error.Message())
            && RunToolCalls(mcp, server, calls).1[1..] == RunToolCalls(m1, server, calls[1..]).1
  {
  }

  /** The normalised message a backend answer yields. */
  function Normalize(response: ChatResponse): ChatMessage {
    ExtractAssistantMessage(response).message
  }

  /** One complete tool round starts at position `p` of `h`: the normalised
      backend answer to `h[..p]`, carrying calls, then one Tool turn per
      call in order.  Yields the position after the round. */
  function RoundAt(h: seq<ChatMessage>, p: nat, backend: Backend, opts: ChatOptions): Option<nat> {
    if p < |h| && backend(h[..p], opts).Ok? && h[p] == Normalize(backend(h[..p], opts).value) then
      var calls := FunctionCalls(h[p].contents);
      if |calls| > 0 && p + 1 + |calls| <= |h| && forall i :: 0 <= i < |calls| ==> IsToolTurnFor(h[p + 1 + i], calls[i])
      then Some(p + 1 + |calls|) else None
    else None
  }

  /** The position after `k` consecutive complete tool rounds starting at `p`. */
  function RoundsEnd(h: seq<ChatMessage>, p: nat, k: nat, backend: Backend, opts: ChatOptions): Option<nat>
    decreases k
  {
    if k == 0 then Some(p)
    else match RoundAt(h, p, backend, opts)
      case None => None
      case Some(q) => RoundsEnd(h, q, k - 1, backend, opts)
  }

  /** Extending a history keeps every complete round found in it. */
  lemma RoundAtPrefix(h: seq<ChatMessage>, ext: seq<ChatMessage>, p: nat, backend: Backend, opts: ChatOptions)
    requires RoundAt(h, p, backend, opts).Some?
    ensures RoundAt(h + ext, p, backend, opts) == RoundAt(h, p, backend, opts)
  {
    assert (h + ext)[..p] == h[..p];
  }

  lemma {:induction false} RoundsEndPrefix(h: seq<ChatMessage>, ext: seq<ChatMessage>, p: nat, k: nat, backend: Backend, opts: ChatOptions)
    requires RoundsEnd(h, p, k, backend, opts).Some?
    ensures RoundsEnd(h + ext, p, k, backend, opts) == RoundsEnd(h, p, k, backend, opts)
    decreases k
  {
    if k > 0 {
      RoundAtPrefix(h, ext, p, backend, opts);
      RoundsEndPrefix(h, ext, RoundAt(h, p, backend, opts).value, k - 1, backend, opts);
    }
  }

  /** A complete round right after `k` rounds makes `k + 1` rounds. */
  lemma {:induction false} RoundsEndSnoc(h: seq<ChatMessage>, p: nat, k: nat, backend: Backend, opts: ChatOptions)
    requires RoundsEnd(h, p, k, backend, opts).Some?
    requires RoundAt(h, RoundsEnd(h, p, k, backend, opts).value, backend, opts).Some?
    ensures RoundsEnd(h, p, k + 1, backend, opts) == RoundAt(h, RoundsEnd(h, p, k, backend, opts).value, backend, opts)
    decreases k
  {
    if k > 0 {
      RoundsEndSnoc(h, RoundAt(h, p, backend, opts).value, k - 1, backend, opts);
    }
  }

  /** How one round's calls are run: from a tool-service state to the
      state after them and their Tool turns. */
  type ToolRunner = (McpState, seq<FunctionCall>) -> (McpState, seq<ChatMessage>)

  /** The service's own way of running a round's calls against `server`. */
  function Runner(server: McpServer): ToolRunner {
    (mcp: McpState, calls: seq<FunctionCall>) => RunToolCalls(mcp, server, calls)
  }

  /** The Tool turns of the round whose answer sits at position `p` of `h`
      are exactly what running its calls yields from tool-service state
      `mcp`.  Yields the position after the round and the tool-service state
      that follows. */
  function ToolRoundAt(h: seq<ChatMessage>, p: nat, mcp: McpState, run: ToolRunner): Option<(nat, McpState)> {
    if p < |h| then
      var calls := FunctionCalls(h[p].contents);
      var (m, turns) := run(mcp, calls);
      if p + 1 + |turns| <= |h| && h[p + 1 .. p + 1 + |turns|] == turns then Some((p + 1 + |turns|, m)) else None
    else None
  }

  /** `k` consecutive rounds from `p` whose Tool turns are what `run`
      yields, the tool-service state threaded from one round to the next. */
  function ToolRounds(h: seq<ChatMessage>, p: nat, k: nat, mcp: McpState, run: ToolRunner): Option<(nat, McpState)>
    decreases k
  {
    if k == 0 then Some((p, mcp))
    else match ToolRoundAt(h, p, mcp, run)
      case None => None
      case Some((q, m)) => ToolRounds(h, q, k - 1, m, run)
  }

  lemma ToolRoundAtPrefix(h: seq<ChatMessage>, ext: seq<ChatMessage>, p: nat, mcp: McpState, run: ToolRunner)
    requires ToolRoundAt(h, p, mcp, run).Some?
    ensures ToolRoundAt(h + ext, p, mcp, run) == ToolRoundAt(h, p, mcp, run)
  {
    var turns := run(mcp, FunctionCalls(h[p].contents)).1;
    assert (h + ext)[p] == h[p];
    assert (h + ext)[p + 1 .. p + 1 + |turns|] == h[p + 1 .. p + 1 + |turns|];
  }

  /** Extending a history keeps every round of this kind found in it. */
  lemma {:induction false} ToolRoundsPrefix(h: seq<ChatMessage>, ext: seq<ChatMessage>, p: nat, k: nat,
                                            mcp: McpState, run: ToolRunner)
    requires ToolRounds(h, p, k, mcp, run).Some?
    ensures ToolRounds(h + ext, p, k, mcp, run) == ToolRounds(h, p, k, mcp, run)
    decreases k
  {
    if k > 0 {
      ToolRoundAtPrefix(h, ext, p, mcp, run);
      var (q, m) := ToolRoundAt(h, p, mcp, run).value;
      ToolRoundsPrefix(h, ext, q, k - 1, m, run);
    }
  }

  /** One more round after `k` of them makes `k + 1`. */
  lemma {:induction false} ToolRoundsSnoc(h: seq<ChatMessage>, p: nat, k: nat, mcp: McpState, run: ToolRunner)
    requires ToolRounds(h, p, k, mcp, run).Some?
    requires var (q, m) := ToolRounds(h, p, k, mcp, run).value; ToolRoundAt(h, q, m, run).Some?
    ensures var (q, m) := ToolRounds(h, p, k, mcp, run).value;
      ToolRounds(h, p, k + 1, mcp, run) == ToolRoundAt(h, q, m, run)
    decreases k
  {
    if k > 0 {
      var (q, m) := ToolRoundAt(h, p, mcp, run).value;
      ToolRoundsSnoc(h, q, k - 1, m, run);
    }
  }

  /** A message followed by the turns `run` yields for its calls is one round. */
  lemma ToolRoundAtEnd(h: seq<ChatMessage>, message: ChatMessage, mcp: McpState, run: ToolRunner)
    ensures var (m, turns) := run(mcp, FunctionCalls(message.contents));
      ToolRoundAt(h + [message] + turns, |h|, mcp, run) == Some((|h| + 1 + |turns|, m))
  {
    var turns := run(mcp, FunctionCalls(message.contents)).1;
    var h' := h + [message] + turns;
    assert h'[|h|] == message;
    assert h'[|h| + 1 .. |h| + 1 + |turns|] == turns;
  }

  /** A round whose Tool turns are what `run` yields extends the rounds by one. */
  lemma ToolStep(h: seq<ChatMessage>, h': seq<ChatMessage>, m: McpState,
                 p0: nat, k: nat, mcp0: McpState, mcp: McpState, run: ToolRunner)
    requires ToolRounds(h, p0, k, mcp0, run) == Some((|h|, mcp))
    requires |h'| > |h| && h'[..|h|] == h
    requires (m, h'[|h| + 1..]) == run(mcp, FunctionCalls(h'[|h|].contents))
    ensures ToolRounds(h', p0, k + 1, mcp0, run) == Some((|h'|, m))
  {
    var message, turns := h'[|h|], h'[|h| + 1..];
    assert h' == h + ([message] + turns);
    ToolRoundsPrefix(h, [message] + turns, p0, k, mcp0, run);
    ToolRoundAtEnd(h, message, mcp, run);
    ToolRoundsSnoc(h', p0, k, mcp0, run);
  }

  /** Extending a history keeps the rounds found in it. */
  lemma ToolKeep(h: seq<ChatMessage>, h': seq<ChatMessage>, p0: nat, k: nat, mcp0: McpState, mcp: McpState, run: ToolRunner)
    requires ToolRounds(h, p0, k, mcp0, run) == Some((|h|, mcp))
    requires |h'| >= |h| && h'[..|h|] == h
    ensures ToolRounds(h', p0, k, mcp0, run) == Some((|h|, mcp))
  {
    var ext := h'[|h|..];
    assert h' == h + ext;
    ToolRoundsPrefix(h, ext, p0, k, mcp0, run);
  }

  /** Closing the exchange with one more turn keeps the rounds before it. */
  lemma ToolEnd(h: seq<ChatMessage>, h': seq<ChatMessage>, p0: nat, k: nat, mcp0: McpState, mcp: McpState, run: ToolRunner)
    requires ToolRounds(h, p0, k, mcp0, run) == Some((|h|, mcp))
    requires |h'| == |h| + 1 && h'[..|h|] == h
    ensures ToolRounds(h', p0, k, mcp0, run) == Some((|h'| - 1, mcp))
  {
    ToolKeep(h, h', p0, k, mcp0, mcp, run);
  }

  /** How an exchange ended. */
  datatype Outcome = Answered | TooManyRounds | Failed(error: Exception)

  /** The first normalised answer of an exchange carries no calls. */
  predicate AnswersAtOnce(prefix: seq<ChatMessage>, backend: Backend, opts: ChatOptions) {
    backend(prefix, opts).Ok? && FunctionCalls(Normalize(backend(prefix, opts).value).contents) == []
  }

  /** After the turn at position `n`, `h` holds `k` complete tool rounds and
      then exactly one more turn. */
  predicate RoundsThenLast(h: seq<ChatMessage>, n: nat, k: nat, backend: Backend, opts: ChatOptions) {
    |h| >= n + 2 && RoundsEnd(h, n + 1, k, backend, opts) == Some(|h| - 1)
  }

  /** Ending an exchange with one more turn after `k` complete rounds. */
  lemma CloseExchange(start: seq<ChatMessage>, h: seq<ChatMessage>, k: nat, last: ChatMessage, backend: Backend, opts: ChatOptions)
    requires |start| >= 1 && |h| >= |start| && h[..|start|] == start
    requires RoundsEnd(h, |start|, k, backend, opts) == Some(|h|)
    ensures var h' := h + [last];
      && RoundsThenLast(h', |start| - 1, k, backend, opts)
      && h'[..|h'| - 1] == h && h'[..|start|] == start && h'[|h'| - 1] == last
  {
    RoundsEndPrefix(h, [last], |start|, k, backend, opts);
    assert (h + [last])[..|h|] == h;
  }

  /** The normalised answer to `h` followed by one Tool turn per call is a
      complete round at the end of `h`. */
  lemma RoundAtEnd(h: seq<ChatMessage>, message: ChatMessage, turns: seq<ChatMessage>, backend: Backend, opts: ChatOptions)
    requires backend(h, opts).Ok? && message == Normalize(backend(h, opts).value)
    requires var calls := FunctionCalls(message.contents);
      |calls| > 0 && |turns| == |calls| && forall i :: 0 <= i < |calls| ==> IsToolTurnFor(turns[i], calls[i])
    ensures RoundAt(h + [message] + turns, |h|, backend, opts) == Some(|h| + 1 + |turns|)
  {
    var h' := h + [message] + turns;
    assert h'[..|h|] == h;
    assert h'[|h|] == message;
    forall i | 0 <= i < |turns| ensures h'[|h| + 1 + i] == turns[i] {
    }
  }

  /** Appending one complete round after `k` rounds makes `k + 1` rounds. */
  lemma ExtendByRound(start: seq<ChatMessage>, h: seq<ChatMessage>, k: nat, message: ChatMessage, turns: seq<ChatMessage>,
                      backend: Backend, opts: ChatOptions)
    requires |h| >= |start| && h[..|start|] == start
    requires RoundsEnd(h, |start|, k, backend, opts) == Some(|h|)
    requires RoundAt(h + [message] + turns, |h|, backend, opts) == Some(|h| + 1 + |turns|)
    ensures var h' := h + [message] + turns;
      && h'[..|start|] == start
      && RoundsEnd(h', |start|, k + 1, backend, opts) == Some(|h'|)
  {
    var h' := h + [message] + turns;
    assert h' == h + ([message] + turns);
    RoundsEndPrefix(h, [message] + turns, |start|, k, backend, opts);
    RoundsEndSnoc(h', |start|, k, backend, opts);
    assert h'[..|start|] == h[..|start|];
  }

  /** What one exchange leaves behind: `before`, the User turn, `rounds - 1`
      complete tool rounds (all `MaxIterations` of them when the cap is
      hit), then one final turn whose text is the reply.  The final turn is
      the call-free normalised answer, the fixed too-many-calls message, or
      the apology carrying the backend's error. */
  predicate ExchangeEnded(before: seq<ChatMessage>, userMessage: string, backend: Backend, opts: ChatOptions,
                          reply: string, h: seq<ChatMessage>, outcome: Outcome, rounds: nat)
  {
    var start := before + [TextMessage(User, userMessage)];
    var last := |h| - 1;
    && |h| >= |before| + 2
    && h[..|start|] == start
    && 1 <= rounds <= MaxIterations
    && reply == ExtractAssistantText(h[last])
    && (outcome.Answered? ==>
          && RoundsThenLast(h, |before|, rounds - 1, backend, opts)
          && backend(h[..last], opts).Ok?
          && h[last] == Normalize(backend(h[..last], opts).value)
          && FunctionCalls(h[last].contents) == [])
    && (outcome.TooManyRounds? ==>
          && rounds == MaxIterations
          && RoundsThenLast(h, |before|, rounds, backend, opts)
          && h[last] == TextMessage(Assistant, TooManyToolCalls)
          && reply == TooManyToolCalls)
    && (outcome.Failed? ==>
          && RoundsThenLast(h, |before|, rounds - 1, backend, opts)
          && backend(h[..last], opts) == Err(outcome.error)
          && h[last] == TextMessage(Assistant, ErrorPrefix + outcome.error.Message())
          && reply == ErrorPrefix + outcome.error.Message())
    && (AnswersAtOnce(start, backend, opts) ==>
          && outcome.Answered? && rounds == 1 && |h| == |before| + 2
          && reply == ExtractAssistantText(Normalize(backend(start, opts).value)))
  }

  /** The loop's state before round `k + 1`: the User turn then `k` complete rounds. */
  predicate InProgress(start: seq<ChatMessage>, h: seq<ChatMessage>, k: nat, backend: Backend, opts: ChatOptions) {
    && |start| >= 1 && |h| >= |start| && h[..|start|] == start
    && RoundsEnd(h, |start|, k, backend, opts) == Some(|h|)
    && (k > 0 ==> !AnswersAtOnce(start, backend, opts))
  }

  /** One more complete round keeps the loop's state. */
  lemma Advance(start: seq<ChatMessage>, h: seq<ChatMessage>, k: nat, message: ChatMessage, turns: seq<ChatMessage>,
                backend: Backend, opts: ChatOptions)
    requires InProgress(start, h, k, backend, opts)
    requires backend(h, opts).Ok? && message == Normalize(backend(h, opts).value)
    requires var calls := FunctionCalls(message.contents);
      |calls| > 0 && |turns| == |calls| && forall i :: 0 <= i < |calls| ==> IsToolTurnFor(turns[i], calls[i])
    ensures InProgress(start, h + [message] + turns, k + 1, backend, opts)
  {
    RoundAtEnd(h, message, turns, backend, opts);
    ExtendByRound(start, h, k, message, turns, backend, opts);
    if k == 0 {
      assert h == start by {
        assert RoundsEnd(h, |start|, 0, backend, opts) == Some(|start|);
      }
    }
  }

  lemma EndAnswered(before: seq<ChatMessage>, userMessage: string, backend: Backend, opts: ChatOptions,
                    h: seq<ChatMessage>, k: nat, message: ChatMessage)
    requires k < MaxIterations
    requires InProgress(before + [TextMessage(User, userMessage)], h, k, backend, opts)
    requires backend(h, opts).Ok? && message == Normalize(backend(h, opts).value)
    requires FunctionCalls(message.contents) == []
    ensures ExchangeEnded(before, userMessage, backend, opts, ExtractAssistantText(message), h + [message], Answered, k + 1)
  {
    var start := before + [TextMessage(User, userMessage)];
    CloseExchange(start, h, k, message, backend, opts);
    if k == 0 {
      assert h == start by {
        assert RoundsEnd(h, |start|, 0, backend, opts) == Some(|start|);
      }
    }
  }

  lemma EndFailed(before: seq<ChatMessage>, userMessage: string, backend: Backend, opts: ChatOptions,
                  h: seq<ChatMessage>, k: nat)
    requires k < MaxIterations
    requires InProgress(before + [TextMessage(User, userMessage)], h, k, backend, opts)
    requires backend(h, opts).Err?
    ensures var apology := ErrorPrefix + backend(h, opts).error.Message();
      ExchangeEnded(before, userMessage, backend, opts, apology, h + [TextMessage(Assistant, apology)],
                    Failed(backend(h, opts).error), k + 1)
  {
    var start := before + [TextMessage(User, userMessage)];
    var apology := ErrorPrefix + backend(h, opts).error.Message();
    CloseExchange(start, h, k, TextMessage(Assistant, apology), backend, opts);
    assert apology[0] == 'S';
    ExtractTextOfTextMessage(Assistant, apology);
    if k == 0 {
      assert h == start by {
        assert RoundsEnd(h, |start|, 0, backend, opts) == Some(|start|);
      }
    }
  }

  lemma EndDegraded(before: seq<ChatMessage>, userMessage: string, backend: Backend, opts: ChatOptions, h: seq<ChatMessage>, k: nat)
    requires k == MaxIterations && InProgress(before + [TextMessage(User, userMessage)], h, k, backend, opts)
    ensures ExchangeEnded(before, userMessage, backend, opts, TooManyToolCalls, h + [TextMessage(Assistant, TooManyToolCalls)],
                          TooManyRounds, k)
  {
    var start := before + [TextMessage(User, userMessage)];
    CloseExchange(start, h, k, TextMessage(Assistant, TooManyToolCalls), backend, opts);
    assert TooManyToolCalls[0] == 'I';
    ExtractTextOfTextMessage(Assistant, TooManyToolCalls);
  }

  /** Running `calls` from `m` as the service's tool loop does: one
      matching Tool turn per call, and the tool cache left alone. */
  ghost predicate RunsCalls(run: ToolRunner, m: McpState, calls: seq<FunctionCall>) {
    && run(m, calls).0.tools == m.tools
    && |run(m, calls).1| == |calls|
    && forall i :: 0 <= i < |calls| ==> IsToolTurnFor(run(m, calls).1[i], calls[i])
  }

  /** A way of running calls that behaves as the service's tool loop does
      from every state. */
  ghost predicate KeepsTools(run: ToolRunner) {
    forall m: McpState, calls: seq<FunctionCall> :: RunsCalls(run, m, calls)
  }

  /** The service's own tool loop is such a runner. */
  lemma RunnerKeepsTools(server: McpServer)
    ensures KeepsTools(Runner(server))
  {
  }

  /** One round of `ChatAsync`'s loop: a backend call, then either the end
      of the exchange (an error or a call-free answer) or the Tool turns
      `run` yields for the answer's calls, which make one more complete
      round. */
  method Round(before: seq<ChatMessage>, userMessage: string, h: seq<ChatMessage>, round: nat, mcp: McpState,
               backend: Backend, run: ToolRunner, opts: ChatOptions)
    returns (ended: Option<(string, Outcome)>, h': seq<ChatMessage>, mcp': McpState)
    requires round < MaxIterations && KeepsTools(run)
    requires InProgress(before + [TextMessage(User, userMessage)], h, round, backend, opts)
    ensures ended.Some? ==> ExchangeEnded(before, userMessage, backend, opts, ended.value.0, h', ended.value.1, round + 1)
    ensures ended.Some? ==> !ended.value.1.TooManyRounds? && |h'| == |h| + 1 && h'[..|h|] == h && mcp' == mcp
    ensures ended.None? ==> InProgress(before + [TextMessage(User, userMessage)], h', round + 1, backend, opts)
    ensures ended.None? ==>
      && |h'| > |h| && h'[..|h|] == h
      && (mcp', h'[|h| + 1..]) == run(mcp, FunctionCalls(h'[|h|].contents))
    ensures mcp'.tools == mcp.tools
  {
    var answer := backend(h, opts);
    if answer.Err? {
      EndFailed(before, userMessage, backend, opts, h, round);
      var apology := ErrorPrefix + answer.error.Message();
      assert (h + [TextMessage(Assistant, apology)])[..|h|] == h;
      return Some((apology, Failed(answer.error))), h + [TextMessage(Assistant, apology)], mcp;
    }
    var message := Normalize(answer.value);
    var calls := FunctionCalls(message.contents);
    if |calls| == 0 {
      EndAnswered(before, userMessage, backend, opts, h, round, message);
      assert (h + [message])[..|h|] == h;
      return Some((ExtractAssistantText(message), Answered)), h + [message], mcp;
    }
    var (m, turns) := run(mcp, calls);
    assert RunsCalls(run, mcp, calls);
    Advance(before + [TextMessage(User, userMessage)], h, round, message, turns, backend, opts);
    h' := h + [message] + turns;
    assert h'[..|h|] == h && h'[|h|] == message && h'[|h| + 1..] == turns;
    return None, h', m;
  }

  /** The loop's state after `round` rounds: the history since the User
      turn is `round` complete rounds, each one's Tool turns being what `run`
      yields, from the starting tool-service state to `mcp`. */
  ghost predicate Midway(s: Session, userMessage: string, backend: Backend, run: ToolRunner,
                         h: seq<ChatMessage>, round: nat, mcp: McpState)
  {
    && round <= MaxIterations
    && InProgress(s.messages + [TextMessage(User, userMessage)], h, round, backend, s.options.GetOr(EmptyOptions))
    && mcp.tools == s.mcp.tools
    && ToolRounds(h, |s.messages| + 1, round, s.mcp, run) == Some((|h|, mcp))
  }

  /** The state an exchange ends in: it ended as `ExchangeEnded` states, its
      complete rounds (all but the last backend call, or all of them when
      the limit was reached) ran their calls through `run`, the options are
      kept or defaulted, and the tool cache is left alone. */
  ghost predicate Finished(s: Session, userMessage: string, backend: Backend, run: ToolRunner,
                           reply: string, r: Session, outcome: Outcome, rounds: nat)
  {
    && ExchangeEnded(s.messages, userMessage, backend, s.options.GetOr(EmptyOptions), reply, r.messages, outcome, rounds)
    && (outcome.TooManyRounds? ==>
          ToolRounds(r.messages, |s.messages| + 1, rounds, s.mcp, run) == Some((|r.messages| - 1, r.mcp)))
    && (!outcome.TooManyRounds? ==>
          ToolRounds(r.messages, |s.messages| + 1, rounds - 1, s.mcp, run) == Some((|r.messages| - 1, r.mcp)))
    && r.options == Some(s.options.GetOr(EmptyOptions))
    && r.mcp.tools == s.mcp.tools
  }

  /** One round of the loop, with its effect on the round ledger. */
  method Step(s: Session, userMessage: string, backend: Backend, run: ToolRunner,
              h: seq<ChatMessage>, round: nat, mcp: McpState)
    returns (ended: Option<(string, Outcome)>, h': seq<ChatMessage>, mcp': McpState)
    requires KeepsTools(run) && round < MaxIterations
    requires Midway(s, userMessage, backend, run, h, round, mcp)
    ensures ended.Some? ==>
      Finished(s, userMessage, backend, run, ended.value.0, Session(h', Some(s.options.GetOr(EmptyOptions)), mcp'),
               ended.value.1, round + 1)
    ensures ended.None? ==> Midway(s, userMessage, backend, run, h', round + 1, mcp')
  {
    ended, h', mcp' := Round(s.messages, userMessage, h, round, mcp, backend, run, s.options.GetOr(EmptyOptions));
    if ended.Some? {
      ToolEnd(h, h', |s.messages| + 1, round, s.mcp, mcp, run);
    } else {
      ToolStep(h, h', mcp', |s.messages| + 1, round, s.mcp, mcp, run);
    }
  }

  /** Giving up after the last allowed round. */
  lemma GiveUp(s: Session, userMessage: string, backend: Backend, run: ToolRunner,
               h: seq<ChatMessage>, round: nat, mcp: McpState)
    requires round == MaxIterations && Midway(s, userMessage, backend, run, h, round, mcp)
    ensures Finished(s, userMessage, backend, run, TooManyToolCalls,
                     Session(h + [TextMessage(Assistant, TooManyToolCalls)], Some(s.options.GetOr(EmptyOptions)), mcp),
                     TooManyRounds, round)
  {
    var r := Session(h + [TextMessage(Assistant, TooManyToolCalls)], Some(s.options.GetOr(EmptyOptions)), mcp);
    ToolEnd(h, r.messages, |s.messages| + 1, round, s.mcp, mcp, run);
    EndDegraded(s.messages, userMessage, backend, s.options.GetOr(EmptyOptions), h, round);
    Assemble(s, userMessage, backend, run, TooManyToolCalls, r, TooManyRounds, round);
  }

  /** `Finished` from its parts. */
  lemma Assemble(s: Session, userMessage: string, backend: Backend, run: ToolRunner,
                 reply: string, r: Session, outcome: Outcome, rounds: nat)
    requires ExchangeEnded(s.messages, userMessage, backend, s.options.GetOr(EmptyOptions), reply, r.messages, outcome, rounds)
    requires outcome.TooManyRounds? ==>
      ToolRounds(r.messages, |s.messages| + 1, rounds, s.mcp, run) == Some((|r.messages| - 1, r.mcp))
    requires !outcome.TooManyRounds? ==>
      rounds >= 1 && ToolRounds(r.messages, |s.messages| + 1, rounds - 1, s.mcp, run) == Some((|r.messages| - 1, r.mcp))
    requires r.options == Some(s.options.GetOr(EmptyOptions)) && r.mcp.tools == s.mcp.tools
    ensures Finished(s, userMessage, backend, run, reply, r, outcome, rounds)
  {
  }

  /** `ChatAsync` over a given way of running calls: appends the User turn,
      then runs at most `MaxIterations` rounds of backend call,
      normalisation and tool execution, ending as `Finished` states. */
  method ChatOver(s: Session, userMessage: string, backend: Backend, run: ToolRunner)
    returns (reply: string, r: Session, outcome: Outcome, rounds: nat)
    requires KeepsTools(run)
    ensures Finished(s, userMessage, backend, run, reply, r, outcome, rounds)
  {
    var ended, h, mcp, round := Rounds(s, userMessage, backend, run);
    if ended.Some? {
      reply, r, outcome, rounds := ended.value.0, Session(h, Some(s.options.GetOr(EmptyOptions)), mcp), ended.value.1, round;
    } else {
      GiveUp(s, userMessage, backend, run, h, round, mcp);
      reply, r, outcome, rounds := TooManyToolCalls, Session(h + [TextMessage(Assistant, TooManyToolCalls)], Some(s.options.GetOr(EmptyOptions)), mcp),
        TooManyRounds, round;
    }
  }

  /** The loop of `ChatOver`: rounds run until one ends the exchange, or
      until `MaxIterations` complete rounds leave it `Midway`. */
  method Rounds(s: Session, userMessage: string, backend: Backend, run: ToolRunner)
    returns (ended: Option<(string, Outcome)>, h: seq<ChatMessage>, mcp: McpState, round: nat)
    requires KeepsTools(run)
    ensures ended.Some? ==>
      Finished(s, userMessage, backend, run, ended.value.0, Session(h, Some(s.options.GetOr(EmptyOptions)), mcp), ended.value.1, round)
    ensures ended.None? ==> round == MaxIterations && Midway(s, userMessage, backend, run, h, round, mcp)
  {
    h, mcp, round, ended := s.messages + [TextMessage(User, userMessage)], s.mcp, 0, None;
    while round < MaxIterations
      invariant ended.None? && Midway(s, userMessage, backend, run, h, round, mcp)
    {
      var h', mcp';
      ended, h', mcp' := Step(s, userMessage, backend, run, h, round, mcp);
      if ended.Some? {
        return ended, h', mcp', round + 1;
      }
      h, mcp, round := h', mcp', round + 1;
    }
  }

  /** `ChatAsync`: one exchange whose tool calls go to the tool service.
      The history only grows, the options become the empty options if there
      were none, and the tool cache is left alone.  `rounds` counts the
      backend calls made; the method never throws.  Every complete round's
      Tool turns are what `RunToolCalls` yields against `server`, so each
      records the server's payload or "Error: " and the failure's message. */
  method Chat(s: Session, userMessage: string, backend: Backend, server: McpServer)
    returns (reply: string, r: Session, outcome: Outcome, rounds: nat)
    ensures ExchangeEnded(s.messages, userMessage, backend, s.options.GetOr(EmptyOptions), reply, r.messages, outcome, rounds)
    ensures outcome.TooManyRounds? ==>
      ToolRounds(r.messages, |s.messages| + 1, rounds, s.mcp, Runner(server)) == Some((|r.messages| - 1, r.mcp))
    ensures !outcome.TooManyRounds? ==>
      && rounds >= 1
      && ToolRounds(r.messages, |s.messages| + 1, rounds - 1, s.mcp, Runner(server)) == Some((|r.messages| - 1, r.mcp))
    ensures r.options == Some(s.options.GetOr(EmptyOptions))
    ensures r.mcp.tools == s.mcp.tools
  {
    RunnerKeepsTools(server);
    reply, r, outcome, rounds := ChatOver(s, userMessage, backend, Runner(server));
  }

  /** The first System turn of a history, if any. */
  function FirstSystem(h: seq<ChatMessage>): (r: Option<ChatMessage>)
    ensures r.None? <==> forall i :: 0 <= i < |h| ==> h[i].role != System
    ensures r.Some? ==> exists i :: 0 <= i < |h| && h[i] == r.value && r.value.role == System
                                  && forall j :: 0 <= j < i ==> h[j].role != System
  {
    if |h| == 0 then None
    else if h[0].role == System then Some(h[0])
    else
      var r := FirstSystem(h[1..]);
      assert forall i :: 1 <= i < |h| ==> h[i] == h[1..][i - 1];
      if r.Some? then
        ghost var i :| 0 <= i < |h[1..]| && h[1..][i] == r.value && forall j :: 0 <= j < i ==> h[1..][j].role != System;
        assert h[i + 1] == r.value;
        r
      else r
  }

  /** `ClearHistory`: keeps only the first System turn, if there is one;
      options and the tool cache are kept. */
  function ClearHistory(s: Session): (r: Session)
    ensures r.options == s.options && r.mcp == s.mcp
    ensures |r.messages| <= 1
    ensures r.messages == [] <==> forall i :: 0 <= i < |s.messages| ==> s.messages[i].role != System
    ensures |r.messages| == 1 ==> r.messages[0].role == System && r.messages[0] in s.messages
    ensures |r.messages| == 1 ==> exists i :: 0 <= i < |s.messages| && r.messages[0] == s.messages[i]
                                            && forall j :: 0 <= j < i ==> s.messages[j].role != System
  {
    match FirstSystem(s.messages)
    case Some(m) => s.(messages := [m])
    case None => s.(messages := [])
  }

  /** Clearing twice is clearing once. */
  lemma ClearHistoryIdempotent(s: Session)
    ensures ClearHistory(ClearHistory(s)) == ClearHistory(s)
  {
  }

  /** After initialisation of a new service, clearing keeps exactly the
      System turn, however the history grew after it. */
  lemma ClearKeepsSystemPrompt(s: Session, later: seq<ChatMessage>)
    requires s.messages == [SystemMessage()] + later
    ensures ClearHistory(s).messages == [SystemMessage()]
  {
    assert s.messages[0].role == System;
  }
}

=== FILE: common.dfy ===
/** Shared failure-carrying datatypes and the exception kinds the .NET code
    raises and catches. */
module Common {

  /** A nullable value: `None` stands for C#'s `null`. */
  datatype Option<+T> = None | Some(value: T) {
    function GetOr(default: T): T {
      match this
      case Some(v) => v
      case None => default
    }

    /** C#'s null-coalescing `this ?? other`. */
    function OrElse(other: Option<T>): Option<T> {
      if Some? then this else other
    }
  }

  /** A computation that either returns a value or throws. */
  datatype Result<+T, +E> = Ok(value: T) | Err(error: E)

  /** The exception types the modelled code throws or catches; each keeps
      the `Message` text the catch sites read. */
  datatype Exception =
    | ArgumentNull(paramName: string)
    | Argument(message: string, paramName: string)
    | InvalidOperation(message: string)
    | NotSupported(message: string)
    | RequestFailed(status: int, message: string)
    | TaskCanceled(message: string)
    | Json(message: string)
    | Other(typeName: string, message: string)
  {
    /** The `Message` property as C# code reads it. */
    function Message(): string {
      match this
      case ArgumentNull(p) => "Value cannot be null. (Parameter '" + p + "')"
      case Argument(m, p) => m + " (Parameter '" + p + "')"
      case InvalidOperation(m) => m
      case NotSupported(m) => m
      case RequestFailed(_, m) => m
      case TaskCanceled(m) => m
      case Json(m) => m
      case Other(_, m) => m
    }

    /** `GetType().Name`. */
    function TypeName(): string {
      match this
      case ArgumentNull(_) => "ArgumentNullException"
      case Argument(_, _) => "ArgumentException"
      case InvalidOperation(_) => "InvalidOperationException"
      case NotSupported(_) => "NotSupportedException"
      case RequestFailed(_, _) => "RequestFailedException"
      case TaskCanceled(_) => "TaskCanceledException"
      case Json(_) => "JsonException"
      case Other(t, _) => t
    }

    /** `ArgumentNullException` derives from `ArgumentException`. */
    predicate IsArgumentException() {
      ArgumentNull? || Argument?
    }
  }
}

=== FILE: composition.dfy ===
/** How the pieces meet: the chat service over the adapter, and the
    behaviour the library's own unit tests describe, stated for all inputs
    where they fix one. */
module Composition {
  import opened Common
  import opened Messages
  import opened Normalizer
  import opened McpTools
  import opened ChatService
  import Adapter
  import ApiOptions
  import TableFactory
  import Uris
  import Text

  /** The adapter as the service's chat client. */
  function AdapterClient(complete: Adapter.Completion, env: Adapter.Environment,
                         accepts: Adapter.ChatTool -> bool): Backend {
    (h: seq<ChatMessage>, o: ChatOptions) => Adapter.GetResponse(h, Some(o), complete, env, accepts)
  }

  /** Every answer of the adapter normalises to the Assistant message it
      carries, never to the fallback. */
  lemma AdapterAnswersNeedNoFallback(complete: Adapter.Completion, env: Adapter.Environment,
                                     accepts: Adapter.ChatTool -> bool, h: seq<ChatMessage>, opts: ChatOptions)
    ensures var answer := AdapterClient(complete, env, accepts)(h, opts);
      answer.Ok? ==>
        && !ExtractAssistantMessage(answer.value).usedFallback
        && Normalize(answer.value).role == Assistant
        && answer.value == ResponseOf(Normalize(answer.value))
  {
    var answer := AdapterClient(complete, env, accepts)(h, opts);
    if answer.Ok? {
      var m :| answer.value == ResponseOf(m) && m.role == Assistant && |m.contents| >= 1;
      NormalizeResponseOf(m);
    }
  }

  /** The turns the service itself writes all reach the wire unchanged:
      its system prompt, the user's text, a text answer and a tool result. */
  lemma ServiceTurnsConvert(userMessage: string, answer: string, callId: string, result: string)
    ensures Adapter.ConvertMessage(SystemMessage()) == Ok(Adapter.WSystem(SystemPrompt))
    ensures Adapter.ConvertMessage(TextMessage(User, userMessage)) == Ok(Adapter.WUser(userMessage))
    ensures Adapter.ConvertMessage(TextMessage(Assistant, answer)) == Ok(Adapter.WAssistant(answer, []))
    ensures Adapter.ConvertMessage(ToolTurn(callId, result)) == Ok(Adapter.WTool(callId, result))
  {
    TextMessageHasNoCalls(System, SystemPrompt);
    TextMessageHasNoCalls(User, userMessage);
    TextMessageHasNoCalls(Assistant, answer);
    assert Adapter.FirstResult(ToolTurn(callId, result).contents) == Some(FunctionResultContent(callId, Some(result)));
  }

  /** A history holding a turn of a role the adapter does not know is
      answered, after one backend call, with the apology for the
      `NotSupportedException` naming the first such role. */
  method UnsupportedRoleApologises(s: Session, userMessage: string, complete: Adapter.Completion,
                                   env: Adapter.Environment, accepts: Adapter.ChatTool -> bool, server: McpServer)
    returns (reply: string, r: Session)
    requires exists i :: 0 <= i < |s.messages| && s.messages[i].role.Custom?
    ensures exists i :: (0 <= i < |s.messages| && s.messages[i].role.Custom? &&
      reply == ErrorPrefix + NotSupported("Chat role '" + s.messages[i].role.name + "' is not supported.").Message())
    ensures |r.messages| == |s.messages| + 2
  {
    var backend := AdapterClient(complete, env, accepts);
    var outcome, rounds;
    reply, r, outcome, rounds := Chat(s, userMessage, backend, server);
    var opts := s.options.GetOr(EmptyOptions);
    var start := s.messages + [TextMessage(User, userMessage)];
    var j := RejectedHistory(s.messages, userMessage, complete, env, accepts, opts);
    FailingStartApologises(s.messages, userMessage, backend, opts, reply, r.messages, outcome, rounds);
  }

  /** The adapter rejects the opening history of an exchange over a
      history with an unsupported turn, naming that turn's role. */
  lemma RejectedHistory(before: seq<ChatMessage>, userMessage: string, complete: Adapter.Completion,
                        env: Adapter.Environment, accepts: Adapter.ChatTool -> bool, opts: ChatOptions) returns (j: nat)
    requires exists i :: 0 <= i < |before| && before[i].role.Custom?
    ensures j < |before| && before[j].role.Custom?
    ensures AdapterClient(complete, env, accepts)(before + [TextMessage(User, userMessage)], opts)
      == Err(NotSupported("Chat role '" + before[j].role.name + "' is not supported."))
  {
    var start := before + [TextMessage(User, userMessage)];
    assert forall i :: 0 <= i < |before| ==> start[i] == before[i];
    CustomAborts(start);
    j :| 0 <= j < |start| && start[j].role.Custom? && Adapter.ConvertMessages(start) == Err(Adapter.ConvertMessage(start[j]).error);
    assert j < |before| by {
      assert start[|before|].role == User;
    }
    assert start[j] == before[j];
    assert Adapter.ConvertMessage(before[j]).error == NotSupported("Chat role '" + before[j].role.name + "' is not supported.");
  }

  /** An exchange whose first backend call fails ends with that failure's
      apology right after the User turn. */
  lemma FailingStartApologises(before: seq<ChatMessage>, userMessage: string, backend: Backend, opts: ChatOptions,
                               reply: string, h: seq<ChatMessage>, outcome: Outcome, rounds: nat)
    requires ExchangeEnded(before, userMessage, backend, opts, reply, h, outcome, rounds)
    requires backend(before + [TextMessage(User, userMessage)], opts).Err?
    ensures outcome == Failed(backend(before + [TextMessage(User, userMessage)], opts).error)
    ensures reply == ErrorPrefix + outcome.error.Message()
    ensures |h| == |before| + 2 && rounds == 1
  {
    var start := before + [TextMessage(User, userMessage)];
    var k := if outcome.TooManyRounds? then MaxIterations else rounds - 1;
    FirstRoundFails(h, start, k, backend, opts);
  }

  /** The conversion stops at the first unsupported turn and reports it. */
  lemma CustomAborts(history: seq<ChatMessage>)
    requires exists i :: 0 <= i < |history| && history[i].role.Custom?
    ensures exists j :: (0 <= j < |history| && history[j].role.Custom?
      && (forall i :: 0 <= i < j ==> !history[i].role.Custom?)
      && Adapter.ConvertMessages(history) == Err(Adapter.ConvertMessage(history[j]).error))
  {
    var j := Adapter.FirstUnsupported(history).value;
    assert history[j].role.Custom? && Adapter.ConvertMessages(history) == Err(Adapter.ConvertMessage(history[j]).error);
  }

  /** With a backend that fails on the opening history, no round can
      complete. */
  lemma FirstRoundFails(h: seq<ChatMessage>, start: seq<ChatMessage>, k: nat, backend: Backend, opts: ChatOptions)
    requires |h| >= |start| + 1 && h[..|start|] == start && backend(start, opts).Err?
    requires RoundsEnd(h, |start|, k, backend, opts) == Some(|h| - 1)
    ensures k == 0 && h[..|h| - 1] == start
  {
  }

  /** The chat client of the library's tests: it echoes the text of the
      last turn, or "Hello" for an empty history. */
  function EchoBackend(): Backend {
    (h: seq<ChatMessage>, o: ChatOptions) =>
      Ok(ResponseOf(TextMessage(Assistant, "Echo: " + (if |h| > 0 then MessageText(h[|h| - 1]) else "Hello"))))
  }

  /** A tool server nobody can connect to, like the tests' localhost one. */
  function UnreachableServer(): McpServer {
    McpServer(
      (attempt: nat) => Err(Other("HttpRequestException", "Connection refused")),
      (c: Client) => Err(Other("HttpRequestException", "Connection refused")),
      (call: nat, name: string, args: Arguments) => Err(Other("HttpRequestException", "Connection refused")))
  }

  /** A new service starts empty, and initialising it adds exactly the
      System turn; with no reachable tool server it advertises no tools. */
  lemma InitializationAddsSystemMessage()
    ensures NewSession(Fresh).messages == []
    ensures Initialize(NewSession(Fresh), UnreachableServer()).messages == [SystemMessage()]
    ensures Initialize(NewSession(Fresh), UnreachableServer()).options == Some(ChatOptions([], None))
  {
  }

  /** The echo client answers the opening history of an exchange at
      once, with "Echo: " and the user's message. */
  lemma EchoAnswersAtOnce(before: seq<ChatMessage>, userMessage: string, opts: ChatOptions)
    ensures var start := before + [TextMessage(User, userMessage)];
      && AnswersAtOnce(start, EchoBackend(), opts)
      && ExtractAssistantText(Normalize(EchoBackend()(start, opts).value)) == "Echo: " + userMessage
  {
    var start := before + [TextMessage(User, userMessage)];
    var echo := TextMessage(Assistant, "Echo: " + userMessage);
    TextMessageHasNoCalls(User, userMessage);
    TextMessageHasNoCalls(Assistant, "Echo: " + userMessage);
    NormalizeResponseOf(echo);
    assert EchoBackend()(start, opts) == Ok(ResponseOf(echo));
    assert !Text.IsBlank("Echo: " + userMessage) by {
      assert ("Echo: " + userMessage)[0] == 'E';
    }
    ExtractTextOfTextMessage(Assistant, "Echo: " + userMessage);
  }

  /** One exchange with the echo client over any session: it answers
      "Echo: " and the message and appends just the User and Assistant
      turns. */
  method EchoOn(s: Session, userMessage: string) returns (reply: string, r: Session)
    ensures reply == "Echo: " + userMessage
    ensures |r.messages| == |s.messages| + 2
    ensures r.messages[..|s.messages| + 1] == s.messages + [TextMessage(User, userMessage)]
  {
    var outcome, rounds;
    reply, r, outcome, rounds := Chat(s, userMessage, EchoBackend(), UnreachableServer());
    EchoAnswersAtOnce(s.messages, userMessage, s.options.GetOr(EmptyOptions));
  }

  /** The tests' exchange, for every message: after initialisation, one
      exchange with the echo client answers "Echo: " and the message, and
      leaves the System, User and Assistant turns. */
  method EchoExchange(userMessage: string) returns (reply: string, r: Session)
    ensures reply == "Echo: " + userMessage
    ensures |r.messages| == 3
    ensures r.messages[0] == SystemMessage() && r.messages[1] == TextMessage(User, userMessage)
  {
    var s := Initialize(NewSession(Fresh), UnreachableServer());
    reply, r := EchoOn(s, userMessage);
    assert r.messages[0] == r.messages[..2][0] && r.messages[1] == r.messages[..2][1];
  }

  const LocalAddress: string := "http://localhost:5000"

  /** The factory tests' address has no trailing slash and is accepted. */
  lemma LocalAddressAccepted()
    ensures ApiOptions.NewDataApiOptions(Some(LocalAddress)).Ok?
  {
    assert LocalAddress == "http" + ":" + "//localhost:5000";
    assert Uris.IsScheme("http");
    ApiOptions.SchemeAddressAccepted("http", "//localhost:5000");
  }

  /** The factory tests: the default table of the accepted address is
      created, and an empty entity name is an argument error. */
  lemma LocalhostFactory()
    ensures ApiOptions.NewDataApiOptions(Some(LocalAddress)).Ok?
    ensures var options := ApiOptions.NewDataApiOptions(Some(LocalAddress)).value;
      && TableFactory.CreateDefault(options, "Todo").Ok?
      && TableFactory.Create(options, Some("")).Err?
      && TableFactory.Create(options, Some("")).error.IsArgumentException()
  {
    LocalAddressAccepted();
    assert !Text.IsBlank("Todo") by { assert "Todo"[0] == 'T'; }
    assert Text.IsBlank("");
  }
}

=== FILE: connection_options.dfy ===
/** `AzureOpenAiConnectionOptions.FromConnectionString`: reads the endpoint,
    key, deployment and optional API version out of a connection string.
    The connection-string grammar belongs to `DbConnectionStringBuilder` and
    is an oracle here: it yields the key/value pairs, keys folded to lower
    case because the builder compares them ignoring case, or the exception
    a malformed string raises. */
module ConnectionOptions {
  import opened Common
  import Text

  /** The pairs a connection string holds, by lower-cased key; a value may
      be null. */
  type Pairs = map<string, Option<string>>

  type Parser = string -> Result<Pairs, Exception>

  datatype AzureOpenAiConnectionOptions = AzureOpenAiConnectionOptions(
    endpoint: string,
    key: string,
    deployment: string,
    apiVersion: Option<string>)

  /** `builder.TryGetValue(key, out var value)` with a non-null value. */
  function Lookup(pairs: Pairs, key: string): (r: Option<string>)
    ensures r.Some? <==> Text.ToLower(key) in pairs && pairs[Text.ToLower(key)].Some?
    ensures r.Some? ==> r == pairs[Text.ToLower(key)]
  {
    var k := Text.ToLower(key);
    if k in pairs then pairs[k] else None
  }

  function MissingValue(key: string): Exception {
    InvalidOperation("Missing connection string value for '" + key + "'.")
  }

  function EmptyValue(key: string): Exception {
    InvalidOperation("Connection string value for '" + key + "' cannot be empty.")
  }

  /** `GetRequiredValue`: the value itself when it is present and not blank. */
  function RequiredValue(pairs: Pairs, key: string): (r: Result<string, Exception>)
    ensures r.Ok? <==> Lookup(pairs, key).Some? && !Text.IsBlank(Lookup(pairs, key).value)
    ensures r.Ok? ==> r.value == Lookup(pairs, key).value
    ensures Lookup(pairs, key).None? ==> r == Err(MissingValue(key))
    ensures Lookup(pairs, key).Some? && Text.IsBlank(Lookup(pairs, key).value) ==> r == Err(EmptyValue(key))
  {
    match Lookup(pairs, key)
    case None => Err(MissingValue(key))
    case Some(v) => if Text.IsBlank(v) then Err(EmptyValue(key)) else Ok(v)
  }

  const EmptyConnectionString: Exception := Argument("Connection string cannot be empty.", "connectionString")

  /** The required keys, in the order they are checked. */
  const RequiredKeys: seq<string> := ["Endpoint", "Key", "Deployment"]

  /** `FromConnectionString`: a blank string is an argument error, a
      malformed one the parser's error; then Endpoint, Key and Deployment
      must each be present and non-blank, checked in that order, and the
      API version is taken as it is, if present. */
  function FromConnectionString(connectionString: Option<string>, parse: Parser): (r: Result<AzureOpenAiConnectionOptions, Exception>)
    ensures Text.IsNullOrWhiteSpace(connectionString) ==> r == Err(EmptyConnectionString)
    ensures !Text.IsNullOrWhiteSpace(connectionString) && parse(connectionString.value).Err? ==> r == Err(parse(connectionString.value).error)
    ensures r.Ok? ==> var pairs := parse(connectionString.value).value;
      && Lookup(pairs, "Endpoint") == Some(r.value.endpoint)
      && Lookup(pairs, "Key") == Some(r.value.key)
      && Lookup(pairs, "Deployment") == Some(r.value.deployment)
      && r.value.apiVersion == Lookup(pairs, "ApiVersion")
    ensures r.Ok? ==> !Text.IsBlank(r.value.endpoint) && !Text.IsBlank(r.value.key) && !Text.IsBlank(r.value.deployment)
  {
    if Text.IsNullOrWhiteSpace(connectionString) then Err(EmptyConnectionString)
    else
      match parse(connectionString.value)
      case Err(e) => Err(e)
      case Ok(pairs) =>
        match RequiredValue(pairs, "Endpoint")
        case Err(e) => Err(e)
        case Ok(endpoint) =>
          match RequiredValue(pairs, "Key")
          case Err(e) => Err(e)
          case Ok(key) =>
            match RequiredValue(pairs, "Deployment")
            case Err(e) => Err(e)
            case Ok(deployment) => Ok(AzureOpenAiConnectionOptions(endpoint, key, deployment, Lookup(pairs, "ApiVersion")))
  }

  /** A parsed connection string is accepted exactly when every required
      key holds a non-blank value; otherwise the error is the one of the
      first failing key in the order Endpoint, Key, Deployment. */
  lemma FirstFailingKeyReported(s: string, parse: Parser)
    requires !Text.IsBlank(s) && parse(s).Ok?
    ensures var pairs := parse(s).value;
            FromConnectionString(Some(s), parse).Ok? <==> forall k :: k in RequiredKeys ==> RequiredValue(pairs, k).Ok?
    ensures var pairs := parse(s).value; var r := FromConnectionString(Some(s), parse);
            forall i :: 0 <= i < |RequiredKeys| && RequiredValue(pairs, RequiredKeys[i]).Err?
                        && (forall j :: 0 <= j < i ==> RequiredValue(pairs, RequiredKeys[j]).Ok?)
                     ==> r == Err(RequiredValue(pairs, RequiredKeys[i]).error)
  {
    assert RequiredKeys[0] == "Endpoint" && RequiredKeys[1] == "Key" && RequiredKeys[2] == "Deployment";
  }
}

=== FILE: data_api_options.dfy ===
/** `DataApiOptions`: the Data API base address, validated as an absolute
    URI after a trailing slash is ensured. */
module ApiOptions {
  import opened Common
  import Text
  import Uris

  datatype DataApiOptions = DataApiOptions(baseAddress: Uris.Components)

  predicate EndsWithSlash(s: string) {
    |s| > 0 && s[|s| - 1] == '/'
  }

  /** `AppendTrailingSlash`: '/' is added only when missing. */
  function AppendTrailingSlash(value: string): (r: string)
    ensures EndsWithSlash(r)
    ensures EndsWithSlash(value) ==> r == value
    ensures !EndsWithSlash(value) ==> r == value + "/"
  {
    if EndsWithSlash(value) then value else value + "/"
  }

  lemma AppendTrailingSlashIdempotent(value: string)
    ensures AppendTrailingSlash(AppendTrailingSlash(value)) == AppendTrailingSlash(value)
  {
  }

  const NotAbsolute: Exception := Argument("The Data API base address must be an absolute URI.", "baseAddress")

  /** The constructor: a null or blank address is an argument error, and so
      is one that is not an absolute URI once it ends in '/'. */
  function NewDataApiOptions(baseAddress: Option<string>): (r: Result<DataApiOptions, Exception>)
    ensures Text.IsNullOrWhiteSpace(baseAddress) ==> r == Err(Text.NullOrWhiteSpaceError(baseAddress, "baseAddress").value)
    ensures !Text.IsNullOrWhiteSpace(baseAddress) ==>
      (r.Ok? <==> Uris.TryCreateAbsolute(AppendTrailingSlash(baseAddress.value)).Some?)
    ensures !Text.IsNullOrWhiteSpace(baseAddress) && r.Err? ==> r.error == NotAbsolute
    ensures r.Ok? ==> Uris.Recompose(r.value.baseAddress) == AppendTrailingSlash(baseAddress.value)
    ensures r.Ok? ==> r.value.baseAddress.scheme.Some?
  {
    match Text.NullOrWhiteSpaceError(baseAddress, "baseAddress")
    case Some(e) => Err(e)
    case None =>
      match Uris.TryCreateAbsolute(AppendTrailingSlash(baseAddress.value))
      case None => Err(NotAbsolute)
      case Some(uri) => Ok(DataApiOptions(uri))
  }

  /** A non-blank address and the same address with its trailing slash
      give the same options. */
  lemma TrailingSlashOptional(address: string)
    requires !Text.IsBlank(address) && !EndsWithSlash(address)
    ensures NewDataApiOptions(Some(address)) == NewDataApiOptions(Some(address + "/"))
  {
    var slashed := address + "/";
    assert !Text.IsBlank(slashed) by {
      assert slashed[|address|] == '/';
    }
    assert AppendTrailingSlash(slashed) == slashed;
  }

  /** Any address with a well-formed scheme is accepted, and keeps that
      scheme. */
  lemma SchemeAddressAccepted(scheme: string, rest: string)
    requires Uris.IsScheme(scheme)
    ensures NewDataApiOptions(Some(scheme + ":" + rest)).Ok?
    ensures NewDataApiOptions(Some(scheme + ":" + rest)).value.baseAddress.scheme == Some(scheme)
  {
    var a := scheme + ":" + rest;
    assert !Text.IsBlank(a) by {
      assert a[|scheme|] == ':';
    }
    assert AppendTrailingSlash(a) == scheme + ":" + AppendTrailingSlash(rest) by {
      if |rest| > 0 {
        assert a[|a| - 1] == rest[|rest| - 1];
      } else {
        assert a[|a| - 1] == ':';
      }
    }
    Uris.SchemeMakesAbsolute(scheme, AppendTrailingSlash(rest));
  }
}

=== FILE: data_api_table.dfy ===
/** `DataApiTable<T>`: the typed table client over the Data API REST
    repository.  Each operation checks its arguments, sends one request,
    and turns an unsuccessful response into an `InvalidOperationException`
    naming the operation and the entity. */
module ApiTable {
  import opened Common
  import Text

  datatype ApiError = ApiError(message: Option<string>)

  /** A repository response: the success flag, the result and the error. */
  datatype Response<T> = Response(success: bool, result: Option<T>, error: Option<ApiError>)

  datatype GetOptions = GetOptions(filter: Option<string>)

  datatype PatchOptions = PatchOptions(excludeProperties: seq<string>)

  /** The requests the table sends. */
  datatype Request<E> =
    | GetRequest(options: GetOptions)
    | PostRequest(entity: E)
    | PatchRequest(entity: E, patch: PatchOptions)
    | DeleteRequest(entity: E)

  /** The REST repository as an oracle: its response to each request. */
  datatype Repository<!E> = Repository(
    get: GetOptions -> Response<seq<E>>,
    post: E -> Response<E>,
    patch: (E, PatchOptions) -> Response<E>,
    delete: E -> Response<E>)

  /** One operation: the request sent, if any, and what the call returned
      or threw. */
  datatype Call<E, T> = Call(sent: Option<Request<E>>, outcome: Result<T, Exception>)

  const UnknownError: string := "Unknown error"

  /** The error text of a failure: the message, or "Unknown error" when it
      is null or blank. */
  function ErrorText(message: Option<string>): (r: string)
    ensures !Text.IsNullOrWhiteSpace(message) ==> r == message.value
    ensures Text.IsNullOrWhiteSpace(message) ==> r == UnknownError
    ensures !Text.IsBlank(r)
  {
    if Text.IsNullOrWhiteSpace(message) then
      assert UnknownError[0] == 'U';
      UnknownError
    else message.value
  }

  /** `response.Error?.Message`. */
  function ErrorMessage(error: Option<ApiError>): Option<string> {
    if error.Some? then error.value.message else None
  }

  /** `CreateFailure`: "Failed to {operation} {entity}: {error}". */
  function Failure(operation: string, entityName: string, message: Option<string>): (e: Exception)
    ensures e.InvalidOperation?
    ensures e.Message() == "Failed to " + operation + " " + entityName + ": " + ErrorText(message)
  {
    InvalidOperation("Failed to " + operation + " " + entityName + ": " + ErrorText(message))
  }

  /** `GetAsync`: the results when the response succeeded with a result;
      otherwise a "retrieve" failure, also when it succeeded without one. */
  function Get<E>(repo: Repository<E>, entityName: string, options: Option<GetOptions>): (r: Call<E, seq<E>>)
    ensures options.None? ==> r == Call(None, Err(ArgumentNull("options")))
    ensures options.Some? ==> r.sent == Some(GetRequest(options.value))
    ensures options.Some? ==> var response := repo.get(options.value);
      && (r.outcome.Ok? <==> response.success && response.result.Some?)
      && (r.outcome.Ok? ==> r.outcome.value == response.result.value)
      && (r.outcome.Err? ==> r.outcome.error == Failure("retrieve", entityName, ErrorMessage(response.error)))
  {
    if options.None? then Call(None, Err(ArgumentNull("options")))
    else
      var response := repo.get(options.value);
      if response.success && response.result.Some? then Call(Some(GetRequest(options.value)), Ok(response.result.value))
      else Call(Some(GetRequest(options.value)), Err(Failure("retrieve", entityName, ErrorMessage(response.error))))
  }

  /** The outcome of a command: normal return exactly when the response
      reports success. */
  function Completion<T>(response: Response<T>, operation: string, entityName: string): (r: Result<(), Exception>)
    ensures r.Ok? <==> response.success
    ensures r.Err? ==> r.error == Failure(operation, entityName, ErrorMessage(response.error))
  {
    if response.success then Ok(()) else Err(Failure(operation, entityName, ErrorMessage(response.error)))
  }

  /** `AddAsync`: posts the entity. */
  function Add<E>(repo: Repository<E>, entityName: string, entity: Option<E>): (r: Call<E, ()>)
    ensures entity.None? ==> r == Call(None, Err(ArgumentNull("entity")))
    ensures entity.Some? ==> r.sent == Some(PostRequest(entity.value))
    ensures entity.Some? ==> (r.outcome.Ok? <==> repo.post(entity.value).success)
    ensures r.outcome.Err? && entity.Some? ==> r.outcome.error == Failure("create", entityName, ErrorMessage(repo.post(entity.value).error))
  {
    if entity.None? then Call(None, Err(ArgumentNull("entity")))
    else Call(Some(PostRequest(entity.value)), Completion(repo.post(entity.value), "create", entityName))
  }

  /** `UpdateAsync`: patches the entity with the given options; the entity
      is checked before the options. */
  function Update<E>(repo: Repository<E>, entityName: string, entity: Option<E>, options: Option<PatchOptions>): (r: Call<E, ()>)
    ensures entity.None? ==> r == Call(None, Err(ArgumentNull("entity")))
    ensures entity.Some? && options.None? ==> r == Call(None, Err(ArgumentNull("options")))
    ensures entity.Some? && options.Some? ==> r.sent == Some(PatchRequest(entity.value, options.value))
    ensures entity.Some? && options.Some? ==> (r.outcome.Ok? <==> repo.patch(entity.value, options.value).success)
    ensures r.outcome.Err? && entity.Some? && options.Some? ==>
      r.outcome.error == Failure("update", entityName, ErrorMessage(repo.patch(entity.value, options.value).error))
  {
    if entity.None? then Call(None, Err(ArgumentNull("entity")))
    else if options.None? then Call(None, Err(ArgumentNull("options")))
    else Call(Some(PatchRequest(entity.value, options.value)),
              Completion(repo.patch(entity.value, options.value), "update", entityName))
  }

  /** `DeleteAsync`: deletes the entity. */
  function Delete<E>(repo: Repository<E>, entityName: string, entity: Option<E>): (r: Call<E, ()>)
    ensures entity.None? ==> r == Call(None, Err(ArgumentNull("entity")))
    ensures entity.Some? ==> r.sent == Some(DeleteRequest(entity.value))
    ensures entity.Some? ==> (r.outcome.Ok? <==> repo.delete(entity.value).success)
    ensures r.outcome.Err? && entity.Some? ==> r.outcome.error == Failure("delete", entityName, ErrorMessage(repo.delete(entity.value).error))
  {
    if entity.None? then Call(None, Err(ArgumentNull("entity")))
    else Call(Some(DeleteRequest(entity.value)), Completion(repo.delete(entity.value), "delete", entityName))
  }

  /** A failure names the operation and the entity, and its reason is never
      blank: the reported error text is the server's message exactly when
      that message has content. */
  lemma FailureReason(operation: string, entityName: string, message: Option<string>)
    ensures var prefix := "Failed to " + operation + " " + entityName + ": ";
      var m := Failure(operation, entityName, message).Message();
      && |m| > |prefix| && m[..|prefix|] == prefix
      && !Text.IsBlank(m[|prefix|..])
      && (m[|prefix|..] == UnknownError <== Text.IsNullOrWhiteSpace(message))
  {
    var prefix := "Failed to " + operation + " " + entityName + ": ";
    var m := Failure(operation, entityName, message).Message();
    assert m == prefix + ErrorText(message);
    assert m[|prefix|..] == ErrorText(message);
    assert |ErrorText(message)| > 0;
  }

  /** Every operation that is handed a null argument fails before it sends
      anything. */
  lemma NullArgumentsSendNothing<E>(repo: Repository<E>, entityName: string, entity: Option<E>, options: Option<PatchOptions>)
    requires entity.None?
    ensures Add(repo, entityName, entity).sent.None? && Add(repo, entityName, entity).outcome.Err?
    ensures Update(repo, entityName, entity, options).sent.None? && Update(repo, entityName, entity, options).outcome.Err?
    ensures Delete(repo, entityName, entity).sent.None? && Delete(repo, entityName, entity).outcome.Err?
    ensures Get(repo, entityName, None).sent.None?
  {
  }
}

=== FILE: data_api_table_factory.dfy ===
/** `DataApiTableFactory`: one table client per entity, addressed at
    "api/{entity}" relative to the Data API base address. */
module TableFactory {
  import opened Common
  import Text
  import Uris
  import ApiOptions

  /** The REST client of one entity, known by its endpoint. */
  datatype TableRepository = TableRepository(entityUri: Uris.Components)

  const ApiPrefix: string := "api/"

  /** The relative reference of an entity's endpoint. */
  function EntityReference(entityName: string): Uris.Components {
    Uris.Split(ApiPrefix + entityName)
  }

  /** `Create<T>(entityName)`: a null or blank name is an argument error;
      otherwise the endpoint is "api/{entityName}" resolved against the base
      address. */
  function Create(options: ApiOptions.DataApiOptions, entityName: Option<string>): (r: Result<TableRepository, Exception>)
    ensures r.Err? <==> Text.IsNullOrWhiteSpace(entityName)
    ensures r.Err? ==> r.error == Text.NullOrWhiteSpaceError(entityName, "entityName").value && r.error.IsArgumentException()
    ensures r.Ok? ==> r.value.entityUri == Uris.Resolve(options.baseAddress, EntityReference(entityName.value))
  {
    match Text.NullOrWhiteSpaceError(entityName, "entityName")
    case Some(e) => Err(e)
    case None => Ok(TableRepository(Uris.Resolve(options.baseAddress, EntityReference(entityName.value))))
  }

  /** `Create<T>()`: the entity is named after the type.  A type's name is
      never blank, so in practice the table is always created, its endpoint
      being "api/{typeName}" resolved against the base address. */
  function CreateDefault(options: ApiOptions.DataApiOptions, typeName: string): (r: Result<TableRepository, Exception>)
    ensures r.Ok? <==> !Text.IsBlank(typeName)
    ensures r.Ok? ==> r.value.entityUri == Uris.Resolve(options.baseAddress, EntityReference(typeName))
    ensures r.Err? ==> r.error == Argument(Text.WhiteSpaceArgumentMessage, "entityName")
  {
    Create(options, Some(typeName))
  }

  /** "api/{name}" starts with neither a scheme nor an authority. */
  lemma EntityReferenceHead(entityName: string)
    ensures var s := ApiPrefix + entityName;
      Uris.SplitScheme(s) == Uris.Piece(None, s) && Uris.SplitAuthority(s) == Uris.Piece(None, s)
  {
    var s := ApiPrefix + entityName;
    assert s == "api" + ("/" + entityName);
    Uris.IndexOfAnyAfter("api", "/" + entityName, {':', '/', '?', '#'});
    assert Uris.IndexOfAny("/" + entityName, {':', '/', '?', '#'}) == 0;
    assert s[3] == '/';
    assert !Uris.StartsWith(s, "//") by {
      assert s[0] == 'a';
    }
  }

  /** The path of "api/{name}" starts with "a", and is all of it when the
      name holds no '?' or '#'. */
  lemma EntityReferencePath(entityName: string)
    ensures var p := Uris.SplitPath(ApiPrefix + entityName);
      p.part.value != "" && p.part.value[0] == 'a'
    ensures (forall k :: 0 <= k < |entityName| ==> entityName[k] !in {'?', '#'}) ==>
      Uris.SplitPath(ApiPrefix + entityName) == Uris.Piece(Some(ApiPrefix + entityName), "")
  {
    var s := ApiPrefix + entityName;
    Uris.IndexOfAnyAfter(ApiPrefix, entityName, {'?', '#'});
    var j := Uris.IndexOfAny(s, {'?', '#'});
    assert Uris.SplitPath(s).part.value == s[..j];
    assert s[..j][0] == 'a';
    if forall k :: 0 <= k < |entityName| ==> entityName[k] !in {'?', '#'} {
      assert j == |s|;
      assert s[..j] == s && s[j..] == "";
    }
  }

  /** "api/{name}" has neither scheme nor authority, so it is resolved as a
      relative path. */
  lemma EntityReferenceIsRelativePath(entityName: string)
    ensures EntityReference(entityName).scheme.None? && EntityReference(entityName).authority.None?
    ensures EntityReference(entityName).path != "" && EntityReference(entityName).path[0] != '/'
    ensures (forall k :: 0 <= k < |entityName| ==> entityName[k] !in {'?', '#'}) ==>
      EntityReference(entityName) == Uris.Components(None, None, ApiPrefix + entityName, None, None)
  {
    EntityReferenceHead(entityName);
    EntityReferencePath(entityName);
  }

  /** Whatever the name, the entity endpoint keeps the base address's
      scheme and authority (section 5.2.2 of RFC 3986). */
  lemma EntityUriKeepsOrigin(options: ApiOptions.DataApiOptions, entityName: string)
    requires !Text.IsBlank(entityName)
    ensures Create(options, Some(entityName)).Ok?
    ensures var uri := Create(options, Some(entityName)).value.entityUri;
            uri.scheme == options.baseAddress.scheme && uri.authority == options.baseAddress.authority
  {
    EntityReferenceIsRelativePath(entityName);
  }

  /** A plain segment: no '/', '?' or '#', and not "." or "..". */
  predicate PlainSegment(name: string) {
    && name != "." && name != ".."
    && forall k :: 0 <= k < |name| ==> name[k] !in {'/', '?', '#'}
  }

  /** Appending a plain segment to a path ending in '/' adds no dot segment. */
  lemma AppendKeepsNoDotSegments(path: string, name: string)
    requires Uris.NoDotSegments(path) && ApiOptions.EndsWithSlash(path) && PlainSegment(name)
    ensures Uris.NoDotSegments(path + ApiPrefix + name)
  {
    var s := path + ApiPrefix + name;
    var n := |path|;
    forall i | 0 <= i < |s| ensures !Uris.DotSegmentAt(s, i) {
      if i < n - 1 {
        assert s[i] == path[i] && s[i + 1] == path[i + 1];
        if i > 0 { assert s[i - 1] == path[i - 1]; }
        if i + 2 < n { assert s[i + 2] == path[i + 2]; }
        assert !Uris.DotSegmentAt(path, i);
      } else if i == n - 1 {
        assert s[i] == '/';
      } else if i < n + 4 {
        assert s[i] == ApiPrefix[i - n];
      } else {
        assert s[i] == name[i - n - 4];
        if i > n + 4 {
          assert s[i - 1] == name[i - n - 5];
        } else if |name| == 1 {
          assert name == [name[0]];
        } else if |name| == 2 {
          assert s[i + 1] == name[1];
          assert name == [name[0], name[1]];
        } else {
          assert s[i + 2] == name[2];
        }
      }
    }
  }

  /** Under the conditions of `EntityUriAppendsPath`, the endpoint is the
      base address with "api/{name}" appended to its path. */
  lemma EntityUriComponents(options: ApiOptions.DataApiOptions, entityName: string)
    requires !Text.IsBlank(entityName) && PlainSegment(entityName)
    requires var b := options.baseAddress;
      && b.query.None? && b.fragment.None?
      && ApiOptions.EndsWithSlash(b.path) && Uris.NoDotSegments(b.path)
    ensures Create(options, Some(entityName)).Ok?
    ensures var b := options.baseAddress;
      Create(options, Some(entityName)).value.entityUri
        == Uris.Components(b.scheme, b.authority, b.path + ApiPrefix + entityName, None, None)
  {
    var b := options.baseAddress;
    var path := b.path + ApiPrefix + entityName;
    assert EntityReference(entityName) == Uris.Components(None, None, ApiPrefix + entityName, None, None) by {
      EntityReferenceIsRelativePath(entityName);
    }
    assert Uris.RemoveDotSegments(Uris.Merge(b, ApiPrefix + entityName)) == path by {
      assert Uris.Merge(b, ApiPrefix + entityName) == path;
      AppendKeepsNoDotSegments(b.path, entityName);
      Uris.RemoveDotsIdentity(path, "");
    }
  }

  /** With a base address whose path ends in '/' and has no dot segments,
      and no query or fragment, the entity endpoint is the base address
      followed by "api/" and the name (section 5.2.3 of RFC 3986). */
  lemma EntityUriAppendsPath(options: ApiOptions.DataApiOptions, entityName: string)
    requires !Text.IsBlank(entityName) && PlainSegment(entityName)
    requires var b := options.baseAddress;
      && b.query.None? && b.fragment.None?
      && ApiOptions.EndsWithSlash(b.path) && Uris.NoDotSegments(b.path)
    ensures Create(options, Some(entityName)).Ok?
    ensures Uris.Recompose(Create(options, Some(entityName)).value.entityUri)
            == Uris.Recompose(options.baseAddress) + ApiPrefix + entityName
  {
    var b := options.baseAddress;
    EntityUriComponents(options, entityName);
    assert Uris.TailText(None, None) == "";
    ShiftSuffix(Uris.SchemeText(b.scheme), Uris.AuthorityText(b.authority), b.path, ApiPrefix, entityName);
  }

  /** Moving a suffix out of nested concatenations. */
  lemma ShiftSuffix(a: string, b: string, c: string, x: string, y: string)
    ensures a + (b + ((c + x + y) + "")) == a + (b + (c + "")) + x + y
  {
    assert c + "" == c;
    assert (c + x + y) + "" == c + x + y;
  }
}

=== FILE: mcp_tools.dfy ===
/** `McpToolService`: one lazily created MCP client, a tool list fetched at
    most once (and cached even when the fetch fails), and tool execution
    that forwards arguments and rethrows failures. */
module McpTools {
  import opened Common
  import opened Messages

  /** A connected MCP client, told apart by the attempt that created it. */
  datatype Client = Client(id: nat)

  /** The MCP server as an oracle.  Connection attempts and tool calls are
      numbered from 0, so a server may answer the same request differently
      each time it is made. */
  datatype McpServer = McpServer(
    connect: nat -> Result<Client, Exception>,
    listTools: Client -> Result<seq<AiTool>, Exception>,
    callTool: (nat, string, Arguments) -> Result<string, Exception>)

  /** `_tools`, `_mcpClient`, and the numbering of the server requests made. */
  datatype McpState = McpState(
    tools: Option<seq<AiTool>>,
    client: Option<Client>,
    connectAttempts: nat,
    toolCalls: nat)

  const Fresh: McpState := McpState(None, None, 0, 0)

  /** `GetOrCreateClientAsync`: the cached client, or a new one that is then
      cached.  A failed attempt leaves no client behind. */
  function GetOrCreateClient(s: McpState, server: McpServer): (r: (McpState, Result<Client, Exception>))
    ensures s.client.Some? ==> r == (s, Ok(s.client.value))
    ensures s.client.None? ==> r.1 == server.connect(s.connectAttempts)
    ensures r.1.Ok? <==> r.0.client.Some?
    ensures r.1.Ok? ==> r.0.client == Some(r.1.value)
    ensures r.0.tools == s.tools && r.0.toolCalls == s.toolCalls
  {
    if s.client.Some? then (s, Ok(s.client.value))
    else
      match server.connect(s.connectAttempts)
      case Ok(c) => (s.(client := Some(c), connectAttempts := s.connectAttempts + 1), Ok(c))
      case Err(e) => (s.(connectAttempts := s.connectAttempts + 1), Err(e))
  }

  /** `GetToolsAsync`: the cached list if there is one; otherwise the listed
      tools, or the empty list when connecting or listing fails.  Either way
      the returned list is what is cached, and the call never throws. */
  function GetTools(s: McpState, server: McpServer): (r: (McpState, seq<AiTool>))
    ensures r.0.tools == Some(r.1)
    ensures s.tools.Some? ==> r == (s, s.tools.value)
    ensures s.tools.None? && s.client.Some? && server.listTools(s.client.value).Ok?
      ==> r.1 == server.listTools(s.client.value).value
    ensures s.tools.None? && s.client.Some? && server.listTools(s.client.value).Err? ==> r.1 == []
    ensures s.tools.None? && s.client.None? && server.connect(s.connectAttempts).Err? ==> r.1 == [] && r.0.client.None?
    ensures s.tools.None? && s.client.None? && server.connect(s.connectAttempts).Ok? ==>
      var c := server.connect(s.connectAttempts).value;
      && r.0.client == Some(c)
      && r.1 == (if server.listTools(c).Ok? then server.listTools(c).value else [])
    ensures r.0.toolCalls == s.toolCalls
  {
    if s.tools.Some? then (s, s.tools.value)
    else
      var (s1, c) := GetOrCreateClient(s, server);
      match c
      case Err(_) => (s1.(tools := Some([])), [])
      case Ok(client) =>
        match server.listTools(client)
        case Ok(ts) => (s1.(tools := Some(ts)), ts)
        case Err(_) => (s1.(tools := Some([])), [])
  }

  /** `ExecuteToolAsync`: the serialized result of calling the tool with the
      given arguments, or the failure itself, rethrown once. */
  function ExecuteTool(s: McpState, server: McpServer, name: string, args: Arguments): (r: (McpState, Result<string, Exception>))
    ensures s.client.Some? ==> r.1 == server.callTool(s.toolCalls, name, args)
    ensures s.client.Some? ==> r.0 == s.(toolCalls := s.toolCalls + 1)
    ensures s.client.None? && server.connect(s.connectAttempts).Err? ==> r.1 == Err(server.connect(s.connectAttempts).error)
    ensures s.client.None? && server.connect(s.connectAttempts).Ok? ==>
      && r.1 == server.callTool(s.toolCalls, name, args)
      && r.0.client == Some(server.connect(s.connectAttempts).value)
      && r.0.toolCalls == s.toolCalls + 1
    ensures r.0.tools == s.tools
    ensures s.client.Some? ==> r.0.client == s.client
  {
    var (s1, c) := GetOrCreateClient(s, server);
    match c
    case Err(e) => (s1, Err(e))
    case Ok(_) => (s1.(toolCalls := s1.toolCalls + 1), server.callTool(s1.toolCalls, name, args))
  }

  /** Once fetched, the tool list is returned again by every later call,
      whatever the server would now answer, and nothing changes. */
  lemma CachedToolsReused(s: McpState, server: McpServer, later: McpServer)
    ensures var (s1, ts) := GetTools(s, server);
            GetTools(s1, later) == (s1, ts)
  {
  }

  /** A failed first fetch caches the empty list: the server is never asked
      again and every later call yields no tools. */
  lemma FailedFetchNotRetried(server: McpServer, later: McpServer)
    requires server.connect(0).Err?
    ensures GetTools(Fresh, server).1 == []
    ensures GetTools(GetTools(Fresh, server).0, later).1 == []
  {
  }

  /** Applies `GetTools` `n` times, returning every answer. */
  function GetToolsRepeatedly(s: McpState, servers: seq<McpServer>): (r: (McpState, seq<seq<AiTool>>))
    ensures |r.1| == |servers|
    decreases |servers|
  {
    if |servers| == 0 then (s, [])
    else
      var (s1, ts) := GetTools(s, servers[0]);
      var (s2, rest) := GetToolsRepeatedly(s1, servers[1..]);
      (s2, [ts] + rest)
  }

  /** The tool list is fetched at most once: every answer in a run of calls
      equals the first, and the state after the first call is final. */
  lemma {:induction false} ToolsFetchedAtMostOnce(s: McpState, servers: seq<McpServer>)
    requires |servers| > 0
    ensures var r := GetToolsRepeatedly(s, servers);
            && r.0 == GetTools(s, servers[0]).0
            && forall k :: 0 <= k < |servers| ==> r.1[k] == GetTools(s, servers[0]).1
    decreases |servers|
  {
    var (s1, ts) := GetTools(s, servers[0]);
    if |servers| > 1 {
      ToolsFetchedAtMostOnce(s1, servers[1..]);
      CachedToolsReused(s, servers[0], servers[1]);
    }
  }

  /** The client is created at most once: once connected, no operation
      replaces it. */
  lemma ClientCreatedOnce(s: McpState, server: McpServer, name: string, args: Arguments)
    requires s.client.Some?
    ensures GetOrCreateClient(s, server).0.client == s.client
    ensures GetTools(s, server).0.client == s.client
    ensures ExecuteTool(s, server, name, args).0.client == s.client
    ensures ExecuteTool(s, server, name, args).0.connectAttempts == s.connectAttempts
  {
  }
}

=== FILE: messages.dfy ===
/** The chat data model shared by the service, the normaliser and the adapter:
    role-tagged messages made of content items, the loosely typed objects the
    code probes by reflection, tool descriptors and chat options. */
module Messages {
  import opened Common
  import Text

  /** `ChatRole` compares role names ignoring case, so a name equal to one
      of the four standard names in any case is that standard role. */
  predicate IsStandardRoleName(name: string) {
    var n := Text.ToLower(name);
    n == "system" || n == "user" || n == "assistant" || n == "tool"
  }

  /** A name that makes a role of its own: `ChatRole` refuses a blank name,
      and a standard name in any case is the standard role. */
  type CustomName = s: string | !Text.IsBlank(s) && !IsStandardRoleName(s) witness SomeCustomName()

  /** A name of a role of its own. */
  function SomeCustomName(): (s: string)
    ensures !Text.IsBlank(s) && !IsStandardRoleName(s)
  {
    var s := "x";
    assert !Text.IsWhiteSpace(s[0]) && |Text.ToLower(s)| == 1;
    s
  }

  datatype Role = System | User | Assistant | Tool | Custom(name: CustomName)

  /** A runtime object as the reflective code sees it.  Property probing
      (`GetType().GetProperty(name)?.GetValue(o)`) becomes a lookup in
      `props`; the remaining variants are the runtime types the code tests
      with `is`. */
  datatype Obj =
    | OString(s: string)
    | OBinary(data: string)                       // BinaryData; ToString() gives data
    | OJson(raw: string)                          // JsonDocument or JsonElement, by its raw text
    | ODict(entries: map<string, Option<Obj>>)    // IDictionary<string, object?>
    | OList(items: seq<Option<Obj>>)              // any other non-string IEnumerable
    | ORecord(props: map<string, Obj>)            // any other object, by its non-null properties

  /** An object none of whose probed properties exist, such as a boxed
      character or a key/value pair met while enumerating. */
  const Opaque: Obj := ORecord(map[])

  /** `GetPropertyValue(instance, name)`: the property's value, `None` when the
      type has no such property or it holds `null`. */
  function GetProperty(o: Obj, name: string): (v: Option<Obj>)
    ensures v.Some? <==> o.ORecord? && name in o.props
    ensures v.Some? ==> v.value == o.props[name]
  {
    if o.ORecord? && name in o.props then Some(o.props[name]) else None
  }

  /** `value as string`. */
  function AsString(v: Option<Obj>): (s: Option<string>)
    ensures s.Some? <==> v.Some? && v.value.OString?
  {
    if v.Some? && v.value.OString? then Some(v.value.s) else None
  }

  /** `value is IEnumerable`, with the sequence the enumeration yields.  A
      string enumerates its characters and a dictionary its key/value pairs;
      neither kind of element has any of the probed properties. */
  function Elements(o: Obj): (r: Option<seq<Option<Obj>>>)
    ensures r.Some? <==> o.OString? || o.ODict? || o.OList?
    ensures o.OList? ==> r == Some(o.items)
    ensures o.OString? ==> r.Some? && |r.value| == |o.s| && forall i :: 0 <= i < |o.s| ==> r.value[i] == Some(Opaque)
  {
    match o
    case OString(s) => Some(seq(|s|, _ => Some(Opaque)))
    case ODict(e) => Some(seq(|e|, _ => Some(Opaque)))
    case OList(items) => Some(items)
    case _ => None
  }

  /** Tool-call arguments: `IDictionary<string, object?>`. */
  type Arguments = map<string, Option<Obj>>

  datatype FunctionCall = FunctionCall(callId: string, name: string, arguments: Option<Arguments>)

  datatype Content =
    | TextContent(text: string)
    | FunctionCallContent(call: FunctionCall)
    | FunctionResultContent(callId: string, result: Option<string>)
    | OtherContent

  datatype ChatMessage = ChatMessage(role: Role, contents: seq<Content>)

  /** `new ChatMessage(role, text)`: one text item. */
  function TextMessage(role: Role, text: string): (m: ChatMessage)
    ensures m.role == role && |m.contents| == 1
  {
    ChatMessage(role, [TextContent(text)])
  }

  /** The texts of the text items, in order. */
  function Texts(contents: seq<Content>): (r: seq<string>)
    ensures |r| <= |contents|
  {
    if |contents| == 0 then []
    else (if contents[0].TextContent? then [contents[0].text] else []) + Texts(contents[1..])
  }

  function Concat(parts: seq<string>): string {
    if |parts| == 0 then "" else parts[0] + Concat(parts[1..])
  }

  /** `ChatMessage.Text`: the concatenation of its text items. */
  function MessageText(m: ChatMessage): string {
    Concat(Texts(m.contents))
  }

  /** `Contents.OfType<FunctionCallContent>()`: the calls, in order. */
  function FunctionCalls(contents: seq<Content>): (r: seq<FunctionCall>)
    ensures |r| <= |contents|
    ensures forall k :: 0 <= k < |r| ==> FunctionCallContent(r[k]) in contents
    ensures forall i :: 0 <= i < |contents| && contents[i].FunctionCallContent? ==> contents[i].call in r
  {
    if |contents| == 0 then []
    else
      var rest := FunctionCalls(contents[1..]);
      assert forall i :: 1 <= i < |contents| ==> contents[i] == contents[1..][i - 1];
      (if contents[0].FunctionCallContent? then [contents[0].call] else []) + rest
  }

  /** The calls of two runs of content are those of the first run followed
      by those of the second: the order of emission is kept. */
  lemma {:induction false} FunctionCallsAppend(a: seq<Content>, b: seq<Content>)
    ensures FunctionCalls(a + b) == FunctionCalls(a) + FunctionCalls(b)
  {
    if |a| == 0 {
      assert a + b == b;
    } else {
      assert (a + b)[1..] == a[1..] + b;
      FunctionCallsAppend(a[1..], b);
    }
  }

  /** A message requests tools exactly when it carries a call item. */
  lemma {:induction false} FunctionCallsEmpty(contents: seq<Content>)
    ensures FunctionCalls(contents) == [] <==> forall i :: 0 <= i < |contents| ==> !contents[i].FunctionCallContent?
  {
    if |contents| > 0 {
      FunctionCallsEmpty(contents[1..]);
      assert forall i :: 1 <= i < |contents| ==> contents[i] == contents[1..][i - 1];
    }
  }

  /** A run made only of call items yields each of their calls, in order. */
  lemma {:induction false} FunctionCallsOfCalls(contents: seq<Content>)
    requires forall i :: 0 <= i < |contents| ==> contents[i].FunctionCallContent?
    ensures FunctionCalls(contents) == seq(|contents|, k requires 0 <= k < |contents| => contents[k].call)
  {
    if |contents| > 0 {
      FunctionCallsOfCalls(contents[1..]);
      assert forall i :: 1 <= i < |contents| ==> contents[i] == contents[1..][i - 1];
    }
  }

  lemma TextMessageHasNoCalls(role: Role, text: string)
    ensures FunctionCalls(TextMessage(role, text).contents) == []
    ensures MessageText(TextMessage(role, text)) == text
  {
    var cs := TextMessage(role, text).contents;
    assert cs[1..] == [];
    assert Texts(cs) == [text];
    assert Concat([text]) == text + Concat([]);
  }

  /** A tool descriptor (`AITool`), probed by reflection in the adapter. */
  datatype AiTool = AiTool(typeName: string, value: Obj)

  /** `ChatOptions`: the advertised tools and the output-token budget. */
  datatype ChatOptions = ChatOptions(tools: seq<AiTool>, maxOutputTokens: Option<int>)

  const EmptyOptions: ChatOptions := ChatOptions([], None)

  /** A property value of a `ChatResponse`, as `ExtractAssistantMessage` sees it. */
  datatype Probe = PMessage(message: ChatMessage) | PList(items: seq<Probe>) | POther

  /** The response shapes the backend may return: the three single-message
      properties, the `Messages` list and `Text`; `None` is a missing or
      null property. */
  datatype ChatResponse = ChatResponse(
    message: Option<Probe>,
    responseMessage: Option<Probe>,
    outputMessage: Option<Probe>,
    messages: Option<Probe>,
    text: Option<string>)

  /** `new ChatResponse(message)` of the current client library: only
      `Messages` and `Text` exist. */
  function ResponseOf(m: ChatMessage): (r: ChatResponse)
    ensures r.message.None? && r.responseMessage.None? && r.outputMessage.None?
    ensures r.messages == Some(PList([PMessage(m)]))
  {
    ChatResponse(None, None, None, Some(PList([PMessage(m)])), Some(MessageText(m)))
  }

  /** A blank concatenation has only blank parts. */
  lemma {:induction false} ConcatBlank(parts: seq<string>)
    requires Text.IsBlank(Concat(parts))
    ensures forall k :: 0 <= k < |parts| ==> Text.IsBlank(parts[k])
  {
    if |parts| > 0 {
      var rest := Concat(parts[1..]);
      assert Concat(parts) == parts[0] + rest;
      assert forall i :: 0 <= i < |parts[0]| ==> parts[0][i] == Concat(parts)[i];
      assert forall i :: 0 <= i < |rest| ==> rest[i] == Concat(parts)[|parts[0]| + i];
      ConcatBlank(parts[1..]);
      assert forall k :: 1 <= k < |parts| ==> parts[k] == parts[1..][k - 1];
    }
  }
}

=== FILE: normalizer.dfy ===
/** Response normalisation of `ChatService`: turning whatever the backend
    returned into one assistant message, and reading its final text. */
module Normalizer {
  import opened Common
  import opened Messages
  import Text

  predicate IsAssistantProbe(p: Probe) {
    p.PMessage? && p.message.role == Assistant
  }

  /** The last entry of `items` that is a message with the Assistant role. */
  function LastAssistant(items: seq<Probe>): (r: Option<ChatMessage>)
    ensures r.None? <==> forall i :: 0 <= i < |items| ==> !IsAssistantProbe(items[i])
    ensures r.Some? ==> r.value.role == Assistant
    ensures r.Some? ==> exists i :: 0 <= i < |items| && items[i] == PMessage(r.value)
                                  && forall j :: i < j < |items| ==> !IsAssistantProbe(items[j])
  {
    if |items| == 0 then None
    else if IsAssistantProbe(items[|items| - 1]) then Some(items[|items| - 1].message)
    else
      var r := LastAssistant(items[..|items| - 1]);
      assert forall i :: 0 <= i < |items| - 1 ==> items[..|items| - 1][i] == items[i];
      r
  }

  /** The result of normalisation: the message and whether the plain-text
      fallback was used. */
  datatype Normalized = Normalized(message: ChatMessage, usedFallback: bool)

  /** The message the direct properties offer: the first non-null of
      `Message`, `ResponseMessage` and `OutputMessage`, if it is a message. */
  function DirectMessage(response: ChatResponse): Option<ChatMessage> {
    var direct := response.message.OrElse(response.responseMessage).OrElse(response.outputMessage);
    if direct.Some? && direct.value.PMessage? then Some(direct.value.message) else None
  }

  /** The last Assistant entry of `Messages`, when that is a list. */
  function ListedAssistant(response: ChatResponse): Option<ChatMessage> {
    if response.messages.Some? && response.messages.value.PList?
    then LastAssistant(response.messages.value.items) else None
  }

  /** `ExtractAssistantMessage`: the direct message if there is one; else the
      last Assistant entry of `Messages`; else a fresh Assistant message with
      the response's `Text` (or ""), flagged as a fallback.  A message found
      in the first step is returned whatever its role. */
  function ExtractAssistantMessage(response: ChatResponse): (n: Normalized)
    ensures DirectMessage(response).Some? ==> n == Normalized(DirectMessage(response).value, false)
    ensures DirectMessage(response).None? && response.messages.Some? && response.messages.value.PList?
            && (exists i :: 0 <= i < |response.messages.value.items| && IsAssistantProbe(response.messages.value.items[i]))
      ==> && !n.usedFallback && n.message.role == Assistant
          && exists i :: (0 <= i < |response.messages.value.items| && response.messages.value.items[i] == PMessage(n.message)
                         && forall j :: i < j < |response.messages.value.items| ==> !IsAssistantProbe(response.messages.value.items[j]))
    ensures DirectMessage(response).None? && ListedAssistant(response).None? ==>
      n == Normalized(TextMessage(Assistant, response.text.GetOr("")), true)
    ensures n.usedFallback <==> DirectMessage(response).None? && ListedAssistant(response).None?
    ensures n.usedFallback ==> n.message.role == Assistant && FunctionCalls(n.message.contents) == []
  {
    if DirectMessage(response).Some? then Normalized(DirectMessage(response).value, false)
    else
      var last := ListedAssistant(response);
      if last.Some? then Normalized(last.value, false)
      else
        TextMessageHasNoCalls(Assistant, response.text.GetOr(""));
        Normalized(TextMessage(Assistant, response.text.GetOr("")), true)
  }

  /** The first text item's text. */
  function FirstText(contents: seq<Content>): (r: Option<string>)
    ensures r.None? <==> Texts(contents) == []
    ensures r.Some? ==> r.value == Texts(contents)[0]
  {
    if |contents| == 0 then None
    else if contents[0].TextContent? then Some(contents[0].text)
    else FirstText(contents[1..])
  }

  /** `ExtractAssistantText`: `Text` if it is not blank, else the first text
      item's text, else "". */
  function ExtractAssistantText(m: ChatMessage): (r: string)
    ensures !Text.IsBlank(MessageText(m)) ==> r == MessageText(m)
    ensures Text.IsBlank(MessageText(m)) ==> r == FirstText(m.contents).GetOr("")
  {
    if !Text.IsBlank(MessageText(m)) then MessageText(m)
    else FirstText(m.contents).GetOr("")
  }

  /** The extracted text is blank exactly when the message text is: the
      second and third choices never recover text the first one missed. */
  lemma ExtractedTextBlank(m: ChatMessage)
    ensures Text.IsBlank(ExtractAssistantText(m)) <==> Text.IsBlank(MessageText(m))
  {
    if Text.IsBlank(MessageText(m)) && Texts(m.contents) != [] {
      ConcatBlank(Texts(m.contents));
    }
  }

  /** A message built from one non-blank text reads back as that text. */
  lemma ExtractTextOfTextMessage(role: Role, s: string)
    requires !Text.IsBlank(s)
    ensures ExtractAssistantText(TextMessage(role, s)) == s
  {
    TextMessageHasNoCalls(role, s);
  }

  /** A response built from one Assistant message, as the adapter builds it,
      normalises to that message without the fallback. */
  lemma NormalizeResponseOf(m: ChatMessage)
    requires m.role == Assistant
    ensures ExtractAssistantMessage(ResponseOf(m)) == Normalized(m, false)
  {
    var items := [PMessage(m)];
    assert IsAssistantProbe(items[0]);
  }
}

=== FILE: startup.dfy ===
/** The start-up configuration of the web host: where the Data API and its
    MCP endpoint live, and the chat connection string composed from the
    four `ConnectionStrings:chat:*` settings. */
module Startup {
  import opened Common
  import Text
  import ConnectionOptions

  const DefaultDataApiEndpoint: string := "http://localhost:5000"

  const McpSuffix: string := "/mcp"

  /** The Data API endpoint: the configuration value, else the environment
      variable of the same name, else the local default. */
  function DataApiEndpoint(configured: Option<string>, environment: Option<string>): (r: string)
    ensures configured.Some? ==> r == configured.value
    ensures configured.None? && environment.Some? ==> r == environment.value
    ensures configured.None? && environment.None? ==> r == DefaultDataApiEndpoint
  {
    configured.OrElse(environment).GetOr(DefaultDataApiEndpoint)
  }

  /** The MCP endpoint: the Data API endpoint itself when it already ends in
      "/mcp" (in any case), else the endpoint without its trailing slashes
      followed by "/mcp". */
  function McpEndpoint(dataApiEndpoint: string): (r: string)
    ensures Text.EndsWithIgnoreCase(r, McpSuffix)
    ensures Text.EndsWithIgnoreCase(dataApiEndpoint, McpSuffix) ==> r == dataApiEndpoint
    ensures !Text.EndsWithIgnoreCase(dataApiEndpoint, McpSuffix) ==>
      var base := Text.TrimEnd(dataApiEndpoint, '/');
      && |r| == |base| + |McpSuffix| && r[..|base|] == base && r[|base|..] == McpSuffix
      && dataApiEndpoint[..|base|] == base
      && forall i :: |base| <= i < |dataApiEndpoint| ==> dataApiEndpoint[i] == '/'
  {
    if Text.EndsWithIgnoreCase(dataApiEndpoint, McpSuffix) then dataApiEndpoint
    else
      var r := Text.TrimEnd(dataApiEndpoint, '/') + McpSuffix;
      assert r[|r| - |McpSuffix|..] == McpSuffix;
      Text.EndsWithIsEndsWithIgnoreCase(r, McpSuffix);
      r
  }

  /** Deriving the MCP endpoint of an MCP endpoint changes nothing. */
  lemma McpEndpointIdempotent(dataApiEndpoint: string)
    ensures McpEndpoint(McpEndpoint(dataApiEndpoint)) == McpEndpoint(dataApiEndpoint)
  {
  }

  /** The four chat settings as read from configuration; `None` is a
      missing key. */
  datatype ChatSettings = ChatSettings(
    endpoint: Option<string>,
    deployment: Option<string>,
    key: Option<string>,
    apiVersion: Option<string>)

  /** The composed connection string and the "connection missing" flag. */
  datatype ChatConnection = ChatConnection(connectionString: string, missing: bool)

  /** Complete settings: endpoint, deployment and key all present and not blank. */
  predicate Complete(s: ChatSettings) {
    && !Text.IsNullOrWhiteSpace(s.endpoint)
    && !Text.IsNullOrWhiteSpace(s.deployment)
    && !Text.IsNullOrWhiteSpace(s.key)
  }

  /** The connection string of complete settings; a missing API version
      is interpolated as the empty string. */
  function Compose(s: ChatSettings): string
    requires Complete(s)
  {
    "Endpoint=" + s.endpoint.value + ";Deployment=" + s.deployment.value + ";Key=" + s.key.value
      + ";ApiVersion=" + s.apiVersion.GetOr("")
  }

  /** The composition of `ConnectionStrings:chat`: the four settings joined
      when the settings are complete, otherwise the empty string with the
      missing flag raised. */
  function ComposeChatConnection(s: ChatSettings): (r: ChatConnection)
    ensures r.missing <==> !Complete(s)
    ensures r.missing ==> r.connectionString == ""
    ensures !r.missing ==> |r.connectionString| >= 9 && r.connectionString[..9] == "Endpoint="
  {
    if Complete(s) then ChatConnection(Compose(s), false) else ChatConnection("", true)
  }

  /** The empty string composed for incomplete settings is refused by the
      options parser with an argument error, whatever its grammar. */
  lemma IncompleteSettingsRejected(s: ChatSettings, parse: ConnectionOptions.Parser)
    requires !Complete(s)
    ensures ConnectionOptions.FromConnectionString(Some(ComposeChatConnection(s).connectionString), parse)
            == Err(ConnectionOptions.EmptyConnectionString)
  {
  }

  /** When the builder reads the composed string back as its four pairs,
      the options carry exactly the configured values. */
  lemma ComposedSettingsRoundTrip(s: ChatSettings, parse: ConnectionOptions.Parser)
    requires Complete(s)
    requires parse(Compose(s)) == Ok(map[
      "endpoint" := s.endpoint, "deployment" := s.deployment, "key" := s.key,
      "apiversion" := Some(s.apiVersion.GetOr(""))])
    ensures ConnectionOptions.FromConnectionString(Some(ComposeChatConnection(s).connectionString), parse)
            == Ok(ConnectionOptions.AzureOpenAiConnectionOptions(s.endpoint.value, s.key.value, s.deployment.value, Some(s.apiVersion.GetOr(""))))
  {
    var c := Compose(s);
    assert c[0] == 'E';
    assert Text.ToLower("Endpoint") == "endpoint";
    assert Text.ToLower("Deployment") == "deployment";
    assert Text.ToLower("Key") == "key";
    assert Text.ToLower("ApiVersion") == "apiversion";
  }
}

=== FILE: text.dfy ===
/** The .NET string primitives the modelled code relies on: `char.IsWhiteSpace`,
    `string.IsNullOrWhiteSpace`, `EndsWith` (ordinal and ordinal-ignore-case),
    `TrimEnd(char)`, `ToLowerInvariant` and decimal formatting of a
    non-negative integer. */
module Text {
  import opened Common

  /** `char.IsWhiteSpace`: the Unicode space separators, line and paragraph
      separators, U+0009..U+000D, U+0085 and U+00A0. */
  predicate IsWhiteSpace(c: char) {
    || ('\t' <= c <= '\r')
    || c == ' '
    || c == '\U{0085}'
    || c == '\U{00A0}'
    || c == '\U{1680}'
    || ('\U{2000}' <= c <= '\U{200A}')
    || c == '\U{2028}'
    || c == '\U{2029}'
    || c == '\U{202F}'
    || c == '\U{205F}'
    || c == '\U{3000}'
  }

  /** Empty or made only of white space. */
  predicate IsBlank(s: string) {
    forall i :: 0 <= i < |s| ==> IsWhiteSpace(s[i])
  }

  /** `string.IsNullOrWhiteSpace`. */
  predicate IsNullOrWhiteSpace(s: Option<string>) {
    s.None? || IsBlank(s.value)
  }

  /** `s.EndsWith(suffix)` with ordinal comparison. */
  predicate EndsWith(s: string, suffix: string) {
    |suffix| <= |s| && s[|s| - |suffix|..] == suffix
  }

  /** The simple upper-case mapping of the ASCII letters; every other
      character maps to itself. */
  function AsciiUpper(c: char): (u: char)
    ensures 'a' <= c <= 'z' ==> 'A' <= u <= 'Z' && u as int == c as int - 32
    ensures !('a' <= c <= 'z') ==> u == c
  {
    if 'a' <= c <= 'z' then (c as int - 32) as char else c
  }

  /** The simple lower-case mapping of the ASCII letters. */
  function AsciiLower(c: char): (l: char)
    ensures 'A' <= c <= 'Z' ==> 'a' <= l <= 'z' && l as int == c as int + 32
    ensures !('A' <= c <= 'Z') ==> l == c
  {
    if 'A' <= c <= 'Z' then (c as int + 32) as char else c
  }

  /** `ToLowerInvariant` restricted to the ASCII letters. */
  function ToLower(s: string): (r: string)
    ensures |r| == |s|
    ensures forall i :: 0 <= i < |s| ==> r[i] == AsciiLower(s[i])
  {
    seq(|s|, i requires 0 <= i < |s| => AsciiLower(s[i]))
  }

  /** Two characters are equal under `StringComparison.OrdinalIgnoreCase`. */
  predicate SameIgnoringCase(a: char, b: char) {
    AsciiUpper(a) == AsciiUpper(b)
  }

  /** `s.EndsWith(suffix, StringComparison.OrdinalIgnoreCase)`. */
  predicate EndsWithIgnoreCase(s: string, suffix: string) {
    && |suffix| <= |s|
    && forall i :: 0 <= i < |suffix| ==> SameIgnoringCase(s[|s| - |suffix| + i], suffix[i])
  }

  /** An ordinal suffix is in particular a case-insensitive one. */
  lemma EndsWithIsEndsWithIgnoreCase(s: string, suffix: string)
    requires EndsWith(s, suffix)
    ensures EndsWithIgnoreCase(s, suffix)
  {
    forall i | 0 <= i < |suffix|
      ensures SameIgnoringCase(s[|s| - |suffix| + i], suffix[i])
    {
      assert s[|s| - |suffix|..][i] == suffix[i];
    }
  }

  /** `s.TrimEnd(c)`: removes every trailing occurrence of `c`. */
  function TrimEnd(s: string, c: char): (r: string)
    ensures |r| <= |s| && r == s[..|r|]
    ensures |r| == 0 || r[|r| - 1] != c
    ensures forall i :: |r| <= i < |s| ==> s[i] == c
    decreases |s|
  {
    if |s| > 0 && s[|s| - 1] == c then TrimEnd(s[..|s| - 1], c) else s
  }

  /** The decimal digit of `d`. */
  function Digit(d: nat): (c: char)
    requires d < 10
    ensures '0' <= c <= '9'
  {
    ('0' as int + d) as char
  }

  predicate IsDigits(s: string) {
    forall i :: 0 <= i < |s| ==> '0' <= s[i] <= '9'
  }

  /** Decimal formatting of a non-negative integer, as string interpolation
      renders `int` values with the invariant culture. */
  function NatToString(n: nat): (r: string)
    ensures |r| >= 1 && IsDigits(r)
    ensures n >= 10 ==> |r| >= 2
    decreases n
  {
    if n < 10 then [Digit(n)] else NatToString(n / 10) + [Digit(n % 10)]
  }

  /** Reads a string of decimal digits back to the number it denotes. */
  function ParseNat(s: string): nat
    requires IsDigits(s)
  {
    if |s| == 0 then 0 else ParseNat(s[..|s| - 1]) * 10 + (s[|s| - 1] as int - '0' as int)
  }

  /** Formatting and reading back are inverse. */
  lemma {:induction false} ParseNatToString(n: nat)
    ensures ParseNat(NatToString(n)) == n
    decreases n
  {
    if n >= 10 {
      var s := NatToString(n);
      assert s[..|s| - 1] == NatToString(n / 10);
      ParseNatToString(n / 10);
    }
  }

  /** Distinct numbers have distinct decimal forms. */
  lemma NatToStringInjective(m: nat, n: nat)
    requires NatToString(m) == NatToString(n)
    ensures m == n
  {
    ParseNatToString(m);
    ParseNatToString(n);
  }

  const WhiteSpaceArgumentMessage: string := "The value cannot be an empty string or composed entirely of whitespace."

  /** `ArgumentException.ThrowIfNullOrWhiteSpace(value)`: the exception it
      throws, if any. */
  function NullOrWhiteSpaceError(value: Option<string>, paramName: string): (r: Option<Exception>)
    ensures r.None? <==> !IsNullOrWhiteSpace(value)
    ensures value.None? ==> r == Some(ArgumentNull(paramName))
    ensures r.Some? ==> r.value.IsArgumentException()
  {
    if value.None? then Some(ArgumentNull(paramName))
    else if IsBlank(value.value) then Some(Argument(WhiteSpaceArgumentMessage, paramName))
    else None
  }
}

=== FILE: todo_repository.dfy ===
/** `TodoRepository`: todo queries and commands over the `Todo` table. */
module TodoRepository {
  import opened Common
  import Text
  import ApiTable

  datatype Todo = Todo(id: int, title: string, isCompleted: bool, categoryId: int)

  /** The entity name, `typeof(Todo).Name`. */
  const EntityName: string := "Todo"

  /** The JSON property names of `Todo`, in declaration order. */
  const TodoProperties: seq<string> := ["Id", "Title", "IsCompleted", "CategoryId"]

  /** The patch options of every update: the key and the category are never
      patched. */
  const TodoPatchOptions: ApiTable.PatchOptions := ApiTable.PatchOptions(["Id", "CategoryId"])

  /** `bool.ToString()`. */
  function BoolToString(b: bool): string {
    if b then "True" else "False"
  }

  const FilterPrefix: string := "IsCompleted eq "

  /** The OData filter on completion, with a lower-case literal. */
  function Filter(isCompleted: bool): (r: string)
    ensures isCompleted ==> r == "IsCompleted eq true"
    ensures !isCompleted ==> r == "IsCompleted eq false"
  {
    FilterPrefix + Text.ToLower(BoolToString(isCompleted))
  }

  /** Reads a completion filter back. */
  function ParseFilter(s: string): Option<bool> {
    if s == FilterPrefix + "true" then Some(true)
    else if s == FilterPrefix + "false" then Some(false)
    else None
  }

  /** The filter states exactly the requested completion. */
  lemma FilterRoundTrip(isCompleted: bool)
    ensures ParseFilter(Filter(isCompleted)) == Some(isCompleted)
  {
    if !isCompleted {
      assert (FilterPrefix + "true")[15] == 't';
    }
  }

  /** The properties a patch with these options writes. */
  function PatchedProperties(options: ApiTable.PatchOptions): (r: seq<string>)
    ensures forall p :: p in r <==> p in TodoProperties && p !in options.excludeProperties
  {
    KeepFrom(TodoProperties, options.excludeProperties)
  }

  /** The entries of `s` outside `excluded`, in order. */
  function KeepFrom(s: seq<string>, excluded: seq<string>): (r: seq<string>)
    ensures forall p :: p in r <==> p in s && p !in excluded
  {
    if |s| == 0 then []
    else (if s[0] in excluded then [] else [s[0]]) + KeepFrom(s[1..], excluded)
  }

  /** `GetAsync(isCompleted)`: one query with the completion filter; the
      table's answer is returned as it is. */
  function Get(table: ApiTable.Repository<Todo>, isCompleted: bool): (r: ApiTable.Call<Todo, seq<Todo>>)
    ensures r.sent == Some(ApiTable.GetRequest(ApiTable.GetOptions(Some(Filter(isCompleted)))))
    ensures var response := table.get(ApiTable.GetOptions(Some(Filter(isCompleted))));
      && (r.outcome.Ok? <==> response.success && response.result.Some?)
      && (r.outcome.Ok? ==> r.outcome.value == response.result.value)
      && (r.outcome.Err? ==> r.outcome.error == ApiTable.Failure("retrieve", EntityName, ApiTable.ErrorMessage(response.error)))
  {
    ApiTable.Get(table, EntityName, Some(ApiTable.GetOptions(Some(Filter(isCompleted)))))
  }

  /** `AddAsync`: a null todo is refused before the table is called;
      otherwise the very same todo is posted. */
  function Add(table: ApiTable.Repository<Todo>, todo: Option<Todo>): (r: ApiTable.Call<Todo, ()>)
    ensures todo.None? ==> r == ApiTable.Call(None, Err(ArgumentNull("todo")))
    ensures todo.Some? ==> r.sent == Some(ApiTable.PostRequest(todo.value))
    ensures todo.Some? ==> (r.outcome.Ok? <==> table.post(todo.value).success)
    ensures todo.Some? && r.outcome.Err? ==>
      r.outcome.error == ApiTable.Failure("create", EntityName, ApiTable.ErrorMessage(table.post(todo.value).error))
  {
    if todo.None? then ApiTable.Call(None, Err(ArgumentNull("todo")))
    else ApiTable.Add(table, EntityName, todo)
  }

  /** `DeleteAsync`: as `Add`, with a delete request. */
  function Delete(table: ApiTable.Repository<Todo>, todo: Option<Todo>): (r: ApiTable.Call<Todo, ()>)
    ensures todo.None? ==> r == ApiTable.Call(None, Err(ArgumentNull("todo")))
    ensures todo.Some? ==> r.sent == Some(ApiTable.DeleteRequest(todo.value))
    ensures todo.Some? ==> (r.outcome.Ok? <==> table.delete(todo.value).success)
    ensures todo.Some? && r.outcome.Err? ==>
      r.outcome.error == ApiTable.Failure("delete", EntityName, ApiTable.ErrorMessage(table.delete(todo.value).error))
  {
    if todo.None? then ApiTable.Call(None, Err(ArgumentNull("todo")))
    else ApiTable.Delete(table, EntityName, todo)
  }

  /** `UpdateAsync`: the very same todo is patched, always with the
      preconfigured options. */
  function Update(table: ApiTable.Repository<Todo>, todo: Option<Todo>): (r: ApiTable.Call<Todo, ()>)
    ensures todo.None? ==> r == ApiTable.Call(None, Err(ArgumentNull("todo")))
    ensures todo.Some? ==> r.sent == Some(ApiTable.PatchRequest(todo.value, TodoPatchOptions))
    ensures todo.Some? ==> (r.outcome.Ok? <==> table.patch(todo.value, TodoPatchOptions).success)
    ensures todo.Some? && r.outcome.Err? ==>
      r.outcome.error == ApiTable.Failure("update", EntityName, ApiTable.ErrorMessage(table.patch(todo.value, TodoPatchOptions).error))
  {
    if todo.None? then ApiTable.Call(None, Err(ArgumentNull("todo")))
    else ApiTable.Update(table, EntityName, todo, Some(TodoPatchOptions))
  }

  /** An update writes only the title and the completion flag. */
  lemma UpdatePatchesOnlyTitleAndCompletion()
    ensures "Id" !in PatchedProperties(TodoPatchOptions) && "CategoryId" !in PatchedProperties(TodoPatchOptions)
    ensures "Title" in PatchedProperties(TodoPatchOptions) && "IsCompleted" in PatchedProperties(TodoPatchOptions)
  {
    assert TodoProperties[1] == "Title" && TodoProperties[2] == "IsCompleted";
    assert "Title" != "Id" && "Title" != "CategoryId";
    assert "IsCompleted" != "Id" && "IsCompleted" != "CategoryId";
  }
}

=== FILE: uri.dfy ===
/** URI references as RFC 3986 treats them: the component split of its
    Appendix B, recomposition (section 5.3), and the resolution of a
    relative reference against a base URI (section 5.2: 5.2.2 transform,
    5.2.3 merge, 5.2.4 dot-segment removal).  `System.Uri`'s own checks of
    hosts and ports, percent-encoding and implicit file paths are not part
    of this model. */
module Uris {
  import opened Common

  /** The index of the first character of `s` that is in `stops`, or |s|. */
  function IndexOfAny(s: string, stops: set<char>): (i: nat)
    ensures i <= |s|
    ensures forall k :: 0 <= k < i ==> s[k] !in stops
    ensures i < |s| ==> s[i] in stops
  {
    if |s| == 0 || s[0] in stops then 0
    else 1 + IndexOfAny(s[1..], stops)
  }

  /** The index of the first stop character after a prefix free of stops. */
  lemma {:induction false} IndexOfAnyAfter(prefix: string, rest: string, stops: set<char>)
    requires forall k :: 0 <= k < |prefix| ==> prefix[k] !in stops
    ensures IndexOfAny(prefix + rest, stops) == |prefix| + IndexOfAny(rest, stops)
    decreases |prefix|
  {
    if |prefix| > 0 {
      assert (prefix + rest)[0] == prefix[0];
      assert (prefix + rest)[1..] == prefix[1..] + rest;
      IndexOfAnyAfter(prefix[1..], rest, stops);
      assert IndexOfAny(prefix + rest, stops) == 1 + IndexOfAny((prefix + rest)[1..], stops);
    } else {
      assert prefix + rest == rest;
    }
  }

  predicate StartsWith(s: string, prefix: string) {
    |prefix| <= |s| && s[..|prefix|] == prefix
  }

  /** The five components; `None` is an undefined component, which is not
      the same as an empty one. */
  datatype Components = Components(
    scheme: Option<string>,
    authority: Option<string>,
    path: string,
    query: Option<string>,
    fragment: Option<string>)

  /** A split-off component and what follows it. */
  datatype Piece = Piece(part: Option<string>, rest: string)

  /** `^(([^:/?#]+):)?`: the scheme is a non-empty run free of ":/?#"
      followed by ':'. */
  function SplitScheme(s: string): (p: Piece)
    ensures p.part.None? ==> p.rest == s
    ensures p.part.Some? ==> s == p.part.value + ":" + p.rest
    ensures p.part.Some? ==> |p.part.value| > 0 && forall k :: 0 <= k < |p.part.value| ==> p.part.value[k] !in {':', '/', '?', '#'}
  {
    var i := IndexOfAny(s, {':', '/', '?', '#'});
    if 0 < i < |s| && s[i] == ':' then
      assert s == s[..i] + ":" + s[i + 1..];
      Piece(Some(s[..i]), s[i + 1..])
    else Piece(None, s)
  }

  /** `(//([^/?#]*))?`. */
  function SplitAuthority(s: string): (p: Piece)
    ensures p.part.None? ==> p.rest == s && !StartsWith(s, "//")
    ensures p.part.Some? ==> s == "//" + p.part.value + p.rest
    ensures p.part.Some? ==> forall k :: 0 <= k < |p.part.value| ==> p.part.value[k] !in {'/', '?', '#'}
    ensures p.part.Some? ==> p.rest == "" || p.rest[0] in {'/', '?', '#'}
  {
    if StartsWith(s, "//") then
      var t := s[2..];
      var j := IndexOfAny(t, {'/', '?', '#'});
      assert s == "//" + t[..j] + t[j..];
      Piece(Some(t[..j]), t[j..])
    else Piece(None, s)
  }

  /** `([^?#]*)`: the path is always defined, possibly empty. */
  function SplitPath(s: string): (p: Piece)
    ensures p.part.Some? && s == p.part.value + p.rest
    ensures forall k :: 0 <= k < |p.part.value| ==> p.part.value[k] !in {'?', '#'}
    ensures p.rest == "" || p.rest[0] in {'?', '#'}
  {
    var j := IndexOfAny(s, {'?', '#'});
    assert s == s[..j] + s[j..];
    Piece(Some(s[..j]), s[j..])
  }

  /** `(\?([^#]*))?`. */
  function SplitQuery(s: string): (p: Piece)
    ensures p.part.None? ==> p.rest == s && (s == "" || s[0] != '?')
    ensures p.part.Some? ==> s == "?" + p.part.value + p.rest
    ensures p.rest == "" || p.rest[0] == '#' || p.part.None?
  {
    if |s| > 0 && s[0] == '?' then
      var t := s[1..];
      var j := IndexOfAny(t, {'#'});
      assert s == "?" + t[..j] + t[j..];
      Piece(Some(t[..j]), t[j..])
    else Piece(None, s)
  }

  /** The split of Appendix B of RFC 3986. */
  function Split(s: string): Components {
    var scheme := SplitScheme(s);
    var authority := SplitAuthority(scheme.rest);
    var path := SplitPath(authority.rest);
    var query := SplitQuery(path.rest);
    var fragment := if |query.rest| > 0 then Some(query.rest[1..]) else None;
    Components(scheme.part, authority.part, path.part.value, query.part, fragment)
  }

  function SchemeText(scheme: Option<string>): string {
    if scheme.Some? then scheme.value + ":" else ""
  }

  function AuthorityText(authority: Option<string>): string {
    if authority.Some? then "//" + authority.value else ""
  }

  function TailText(query: Option<string>, fragment: Option<string>): string {
    (if query.Some? then "?" + query.value else "") + (if fragment.Some? then "#" + fragment.value else "")
  }

  /** Recomposition of the components, section 5.3 of RFC 3986. */
  function Recompose(c: Components): string {
    SchemeText(c.scheme) + (AuthorityText(c.authority) + (c.path + TailText(c.query, c.fragment)))
  }

  /** The query and fragment split off the rest of a path recompose to it. */
  lemma TailRoundTrip(s: string)
    requires s == "" || s[0] in {'?', '#'}
    ensures var q := SplitQuery(s);
            TailText(q.part, if |q.rest| > 0 then Some(q.rest[1..]) else None) == s
  {
    var q := SplitQuery(s);
    if |q.rest| > 0 {
      assert q.rest[0] == '#';
      assert q.rest == "#" + q.rest[1..];
    }
  }

  /** Recomposing the split of any string gives the string back. */
  lemma SplitRecompose(s: string)
    ensures Recompose(Split(s)) == s
  {
    var scheme := SplitScheme(s);
    var authority := SplitAuthority(scheme.rest);
    var path := SplitPath(authority.rest);
    TailRoundTrip(path.rest);
    var c := Split(s);
    assert TailText(c.query, c.fragment) == path.rest;
    assert c.path + path.rest == authority.rest;
    assert AuthorityText(c.authority) + authority.rest == scheme.rest;
    assert SchemeText(c.scheme) + scheme.rest == s;
  }

  predicate IsAlpha(c: char) {
    'a' <= c <= 'z' || 'A' <= c <= 'Z'
  }

  /** `scheme = ALPHA *( ALPHA / DIGIT / "+" / "-" / "." )`, RFC 3986 section 3.1. */
  predicate IsScheme(s: string) {
    && |s| > 0
    && IsAlpha(s[0])
    && forall k :: 0 <= k < |s| ==> IsAlpha(s[k]) || '0' <= s[k] <= '9' || s[k] in {'+', '-', '.'}
  }

  /** `Uri.TryCreate(s, UriKind.Absolute, out uri)`: a string is an absolute
      URI when it has a well-formed scheme (RFC 3986 section 4.3); a fragment is
      tolerated, as `System.Uri` does. */
  function TryCreateAbsolute(s: string): (r: Option<Components>)
    ensures r.Some? <==> Split(s).scheme.Some? && IsScheme(Split(s).scheme.value)
    ensures r.Some? ==> r.value == Split(s) && Recompose(r.value) == s
  {
    var c := Split(s);
    if c.scheme.Some? && IsScheme(c.scheme.value) then
      SplitRecompose(s);
      Some(c)
    else None
  }

  /** A well-formed scheme followed by ':' makes any text an absolute URI
      with that scheme. */
  lemma SchemeMakesAbsolute(scheme: string, rest: string)
    requires IsScheme(scheme)
    ensures TryCreateAbsolute(scheme + ":" + rest).Some?
    ensures TryCreateAbsolute(scheme + ":" + rest).value.scheme == Some(scheme)
  {
    var s := scheme + ":" + rest;
    assert s == scheme + (":" + rest);
    assert forall k :: 0 <= k < |scheme| ==> scheme[k] !in {':', '/', '?', '#'};
    IndexOfAnyAfter(scheme, ":" + rest, {':', '/', '?', '#'});
    assert s[|scheme|] == ':';
    assert s[..|scheme|] == scheme;
  }

  /** The index just past the last '/' of `s`, or 0 when there is none. */
  function AfterLastSlash(s: string): (i: nat)
    ensures i <= |s|
    ensures i > 0 ==> s[i - 1] == '/'
    ensures forall k :: i <= k < |s| ==> s[k] != '/'
  {
    if |s| == 0 then 0
    else if s[|s| - 1] == '/' then |s|
    else AfterLastSlash(s[..|s| - 1])
  }

  /** Merging a relative path with the base path, RFC 3986 section 5.2.3. */
  function Merge(base: Components, refPath: string): (r: string)
    ensures base.authority.Some? && base.path == "" ==> r == "/" + refPath
    ensures base.path != "" && base.path[|base.path| - 1] == '/' ==> r == base.path + refPath
  {
    if base.authority.Some? && base.path == "" then "/" + refPath
    else base.path[..AfterLastSlash(base.path)] + refPath
  }

  /** Removing the last segment and its preceding '/' from the output buffer. */
  function DropLastSegment(output: string): (r: string)
    ensures |r| <= |output| && r == output[..|r|]
  {
    var i := AfterLastSlash(output);
    if i == 0 then "" else output[..i - 1]
  }

  /** The end of the first segment of `input`, its leading '/' included. */
  function SegmentEnd(input: string): (j: nat)
    requires |input| > 0
    ensures 0 < j <= |input|
    ensures j == |input| || input[j] == '/'
    ensures forall k :: 0 < k < j ==> input[k] != '/'
  {
    if input[0] == '/' then 1 + IndexOfAny(input[1..], {'/'}) else IndexOfAny(input, {'/'})
  }

  /** The loop of RFC 3986 section 5.2.4, moving the input buffer to the output
      buffer one step at a time (steps 2A to 2E). */
  function RemoveDots(input: string, output: string): string
    decreases |input|
  {
    if |input| == 0 then output
    else if StartsWith(input, "../") then RemoveDots(input[3..], output)
    else if StartsWith(input, "./") then RemoveDots(input[2..], output)
    else if StartsWith(input, "/./") then RemoveDots(input[2..], output)
    else if input == "/." then RemoveDots("/", output)
    else if StartsWith(input, "/../") then RemoveDots(input[3..], DropLastSegment(output))
    else if input == "/.." then RemoveDots("/", DropLastSegment(output))
    else if input == "." || input == ".." then output
    else
      var j := SegmentEnd(input);
      RemoveDots(input[j..], output + input[..j])
  }

  /** `remove_dot_segments`, RFC 3986 section 5.2.4. */
  function RemoveDotSegments(path: string): string {
    RemoveDots(path, "")
  }

  /** A "." or ".." segment starts at index `i` of `s`. */
  predicate DotSegmentAt(s: string, i: int)
    requires 0 <= i < |s|
  {
    && (i == 0 || s[i - 1] == '/')
    && s[i] == '.'
    && (i + 1 == |s| || s[i + 1] == '/' || (s[i + 1] == '.' && (i + 2 == |s| || s[i + 2] == '/')))
  }

  /** No segment of `s` is "." or "..". */
  predicate NoDotSegments(s: string) {
    forall i :: 0 <= i < |s| ==> !DotSegmentAt(s, i)
  }

  lemma PrefixChars(s: string, prefix: string)
    requires StartsWith(s, prefix)
    ensures forall k :: 0 <= k < |prefix| ==> s[k] == prefix[k]
  {
    forall k | 0 <= k < |prefix| ensures s[k] == prefix[k] {
      assert s[..|prefix|][k] == s[k];
    }
  }

  /** Without a leading dot segment only step 2E applies. */
  lemma SegmentStep(input: string, output: string)
    requires |input| > 0 && NoDotSegments(input)
    ensures RemoveDots(input, output) == RemoveDots(input[SegmentEnd(input)..], output + input[..SegmentEnd(input)])
  {
    assert !DotSegmentAt(input, 0);
    if |input| > 1 && input[0] == '/' { assert !DotSegmentAt(input, 1); }
    if StartsWith(input, "../") { PrefixChars(input, "../"); }
    if StartsWith(input, "./") { PrefixChars(input, "./"); }
    if StartsWith(input, "/./") { PrefixChars(input, "/./"); }
    if StartsWith(input, "/../") { PrefixChars(input, "/../"); }
    assert input != "/." && input != "/.." && input != "." && input != "..";
  }

  /** What follows a segment has no dot segment either. */
  lemma NoDotSegmentsSuffix(input: string, j: nat)
    requires NoDotSegments(input) && j <= |input| && (j == |input| || input[j] == '/')
    ensures NoDotSegments(input[j..])
  {
    var rest := input[j..];
    forall i | 0 <= i < |rest| ensures !DotSegmentAt(rest, i) {
      if i > 0 {
        assert !DotSegmentAt(input, i + j);
      }
    }
  }

  /** A path without dot segments passes through the loop unchanged. */
  lemma {:induction false} RemoveDotsIdentity(input: string, output: string)
    requires NoDotSegments(input)
    ensures RemoveDots(input, output) == output + input
    decreases |input|
  {
    if |input| > 0 {
      var j := SegmentEnd(input);
      SegmentStep(input, output);
      NoDotSegmentsSuffix(input, j);
      RemoveDotsIdentity(input[j..], output + input[..j]);
      assert output + input[..j] + input[j..] == output + input;
    }
  }

  /** Reference resolution, RFC 3986 section 5.2.2 (strict: a reference with a
      scheme is taken as it is). */
  function Resolve(base: Components, r: Components): (t: Components)
    ensures t.fragment == r.fragment
    ensures r.scheme.None? ==> t.scheme == base.scheme
    ensures r.scheme.None? && r.authority.None? ==> t.authority == base.authority
  {
    if r.scheme.Some? then Components(r.scheme, r.authority, RemoveDotSegments(r.path), r.query, r.fragment)
    else if r.authority.Some? then Components(base.scheme, r.authority, RemoveDotSegments(r.path), r.query, r.fragment)
    else if r.path == "" then Components(base.scheme, base.authority, base.path, r.query.OrElse(base.query), r.fragment)
    else if r.path[0] == '/' then Components(base.scheme, base.authority, RemoveDotSegments(r.path), r.query, r.fragment)
    else Components(base.scheme, base.authority, RemoveDotSegments(Merge(base, r.path)), r.query, r.fragment)
  }
}
